=== FILE: README.md ===
# LiveMatchThread, modelled in Dafny

LiveMatchThread is a bot that posts three Reddit threads for each fixture of
Sport Club Internacional:

- a pre-match thread, 24 hours before kickoff;
- a match thread, 8 minutes before kickoff;
- a post-match thread, once the API-Football status reports the match finished.

This project models the bot's scheduling and formatting core as pure Dafny
functions over immutable data, and proves what that code promises.

What the model covers:

- **Stage schedulers.** The three stage schedulers and the base class they
  share. Each scheduler run is a trace of effects: timer waits, publications
  (a Reddit submission or its dry-run log) and ledger marks. The stage rules
  are stated over that trace.
- **Legacy schedulers.** The older cron-based and timer-based stand-alone
  schedulers.
- **Ledgers.** The three "already posted" ledgers:
  - the JSON file with truthiness checks;
  - the Cloudflare key-value store with `=== true` checks;
  - the oldest strict JSON file.
- **Refresh records.** The file-backed and key-value-backed refresh-time
  records.
- **API tracking.** The daily API call tracker and its usage report.
- **API clients.** The client with its mock files, the retry loop and the
  simulated match status, and the older API module.
- **Formatters.** The competition, round, lineup, title, result, goal and
  statistics formatters, including the round-label regular expressions.
- **Nicknames.** The rival-team nickname lookup.

Module layout, one module per source file or shared concept:

| module | models |
|---|---|
| `Common`, `Fixture`, `Effects` | optional values, thrown calls, the three stages; the fixture record; the effect trace |
| `Text`, `Patterns` | `toUpperCase`/`toLowerCase`, accent stripping, `includes`, `replace`, `trim`, `join`, `parseInt`, `??` versus `\|\|`; the fixed regular expressions on round labels |
| `Ledger`, `FileThreadState`, `KvThreadState`, `LegacyThreadState` | the posted-flag map and its three stores |
| `RefreshState`, `KvRefreshState` | the refresh-time record |
| `ApiCallTracker`, `ApiUsage` | the daily call tracker and its report |
| `ApiClient`, `Api` | `src/api/apiClient.ts` and `src/api.ts` |
| `BaseScheduler`, `JobMode` | `src/schedulers/BaseScheduler.ts`, and its `shouldPostNow` across the three subclasses |
| `PreMatch`, `MatchThread`, `PostMatch` | the three stage schedulers |
| `MatchFormatters`, `Nicknames`, `SimpleFormat` | `src/formatters/matchFormatters.ts`, `src/utils/nicknameUtils.ts`, `src/format.ts` |
| `Cron`, `LegacyScheduler`, `LegacyMatchThread`, `LegacyPreMatch`, `LegacyPostMatch` | node-cron expressions and jobs; `src/scheduler.ts`, `src/schedulerMatchThread.ts`, `src/schedulePreMatchThread.ts`, `src/schedulerPostMatchThread.ts` |

Conventions used throughout the model:

- **Time** is an integer count of UTC milliseconds.
- **Clock readings, file and key-value contents, HTTP answers and the random
  nickname index** are parameters.
- **A call that may throw** returns a `Result`.
- **A JavaScript `null` or `undefined`** is an `Option`.

## Model

| member | source | states |
|---|---|---|
| Text.Upper | src/schedulers/PostMatchScheduler.ts:115-116 | upper-casing keeps the length and maps every character on its own |
| Text.Lower | src/utils/nicknameUtils.ts:62 | lower-casing keeps the length and maps every character on its own |
| Text.UpperIsIdempotent | src/formatters/matchFormatters.ts:25 | an upper-cased text has no lower-case letter left, so upper-casing it again changes nothing |
| Text.LowerMatchesUpper | src/utils/nicknameUtils.ts:62 | two texts agree once lower-cased exactly when they agree once upper-cased |
| Text.StripAccents | src/schedulers/PreMatchScheduler.ts:115-117 | decomposing and dropping the combining marks leaves no combining mark |
| Text.NormalizedIgnoresCase | src/formatters/matchFormatters.ts:15-18 | the accent-free upper-cased form of a text does not depend on its case |
| Text.FindFrom | src/formatters/matchFormatters.ts:21 | the first occurrence of a substring at or after a position, or the report that there is none |
| Text.ReplaceFirst | src/formatters/matchFormatters.ts:58-61 | a string pattern is replaced at its first occurrence only; a text without it is unchanged |
| Text.Trim | src/format.ts:35 | trimming leaves no white space at either end and keeps a piece of the original text |
| Text.TrimAround | src/schedulers/PostMatchScheduler.ts:142-166 | a text without white space at its ends, framed by white space, trims back to itself |
| Text.Join | src/schedulers/PostMatchScheduler.ts:226 | joining nothing gives the empty text, one part gives that part, and the result opens with the first part |
| Text.NatToString | src/utils/kvRefreshState.ts:46 | a natural number is written as decimal digits without a leading zero, and the digits read back as the number |
| Text.IntToString | src/utils/kvThreadState.ts:29 | an integer is written in decimal, with a minus sign when negative |
| Text.ParseIntRoundTrip | src/utils/kvRefreshState.ts:27-46 | parsing the decimal text of an integer gives the integer back |
| Text.IntToStringInjective | src/utils/kvThreadState.ts:29 | distinct integers are written differently |
| Text.ParseIntAuto | src/schedulers/PreMatchScheduler.ts:137 | on a text of decimal digits, parsing without a radix agrees with decimal parsing |
| Text.OrFalsy | src/formatters/matchFormatters.ts:209 | with a non-empty default the result is never empty |
| Text.NullishAndFalsyDiffer | src/schedulers/PreMatchScheduler.ts:51-57 | the `??` and `\|\|` defaults differ exactly on a present empty string |
| Patterns.SeparatorEnd | src/formatters/matchFormatters.ts:33 | a matched separator (`\s*-\s*` or " - ") ends after the position it started at, within the text |
| Patterns.CaptureAt | src/formatters/matchFormatters.ts:33-37 | a capture holds only what its group allows: a non-empty run of digits or word characters, or one word character |
| Patterns.TailAt | src/formatters/matchFormatters.ts:33-37 | a separator followed by a capture yields a capture its group allows |
| Patterns.MatchHeads | src/formatters/matchFormatters.ts:33 | trying the head alternatives in order yields a capture its group allows |
| Patterns.MatchAt | src/formatters/matchFormatters.ts:32-37 | a match anchored at one position yields a capture its group allows |
| Patterns.SearchFrom | src/formatters/matchFormatters.ts:32-37 | the reported match is the leftmost one: it matches where it says, no earlier position matches, and none is reported only when no position matches |
| Patterns.Search | src/schedulers/PreMatchScheduler.ts:123-128 | `match` without the global flag reports a capture its group allows |
| Patterns.SearchAtStart | src/schedulers/PostMatchScheduler.ts:241-243 | a match at the first position is the one reported |
| Patterns.RegularSeasonLabel | src/schedulers/PostMatchScheduler.ts:241 | "Regular Season - N" is matched at the start by both season expressions, capturing N |
| Patterns.TemporadaRegularLabel | src/schedulers/PreMatchScheduler.ts:123-126 | "Temporada Regular - N" is matched at the start, capturing N |
| Patterns.GroupStageLabel | src/schedulers/PreMatchScheduler.ts:128 | "Group Stage - W" is captured whole by `(\w+)`, with either separator, and as its first character by `(\w)` |
| Patterns.MatchHeadsNone | src/formatters/matchFormatters.ts:33 | when no head alternative starts at a position, nothing matches there |
| Patterns.SearchFromNone | src/formatters/matchFormatters.ts:32-34 | when no position matches, the search reports none |
| Patterns.NoHeadAnywhere | src/formatters/matchFormatters.ts:32-37 | an expression whose head occurs nowhere in the text does not match |
| Patterns.GroupLabelIsNotSeason | src/formatters/matchFormatters.ts:48-55 | a group label never matches the season expressions |
| Patterns.SeasonLabelIsNotGroup | src/formatters/matchFormatters.ts:32-38 | a season label never matches the group expression |
| Ledger.StrictImpliesLoose | src/threadState.ts:29 | a flag stored as `true` also counts under the truthiness reading of `src/utils/threadState.ts:62` |
| Ledger.Mark | src/utils/threadState.ts:74-80 | marking creates the fixture's entry when missing and sets exactly the one (fixture, stage) cell to `true`; every other cell is unchanged |
| Ledger.MarkIsMonotone | src/utils/threadState.ts:74-80 | marking never clears a posted flag, under either reading of a flag |
| Ledger.MarkIsIdempotent | src/utils/threadState.ts:74-80 | marking the same cell twice gives the same ledger as marking it once |
| FileThreadState.ReadState | src/utils/threadState.ts:24-35 | the stored ledger when the read succeeds; a missing, unreadable or unparsable file, or a read that fails, gives the empty ledger |
| FileThreadState.WriteState | src/utils/threadState.ts:40-52 | a successful write is read back exactly by a read that succeeds; a failed write is swallowed and leaves the file as it was |
| FileThreadState.IsThreadPosted | src/utils/threadState.ts:57-63 | a thread reads as posted exactly when the read succeeds and the file holds a truthy flag for that fixture and stage |
| FileThreadState.NoFileMeansNothingPosted | src/utils/threadState.ts:24-35 | without a readable file, or when the read fails, nothing reads as posted |
| FileThreadState.MarkThreadPosted | src/utils/threadState.ts:68-84 | a successful write stores `true` in the one cell, read back as posted; a failed write changes nothing; after a good read every other cell is untouched and nothing posted is lost; after a failed read the write leaves a ledger holding only the new flag |
| FileThreadState.FailedReadErasesOtherFlags | src/utils/threadState.ts:24-35 | a mark whose read fails erases another fixture's posted flag, which a mark after a good read keeps |
| FileThreadState.MarkCreatesEntry | src/utils/threadState.ts:75-77 | a fixture without an entry gets one holding just the new flag |
| FileThreadState.MarkThreadPostedIsIdempotent | src/utils/threadState.ts:68-84 | marking twice leaves the same file as marking once |
| KvThreadState.Key | src/utils/kvThreadState.ts:29 | a fixture's key starts with "fixture-" followed by the id |
| KvThreadState.KeyIsInjective | src/utils/kvThreadState.ts:29 | two fixtures share a key exactly when they are the same fixture |
| KvThreadState.IsThreadPosted | src/utils/kvThreadState.ts:18-42 | posted exactly when the binding exists, the read succeeds and the fixture's record parses and holds `true` for the stage; every failure answers "not posted" |
| KvThreadState.MarkThreadPosted | src/utils/kvThreadState.ts:47-79 | a missing binding, a failed read or a failed write changes nothing; records of other keys are never touched |
| KvThreadState.MarkThenCheck | src/utils/kvThreadState.ts:57-72 | a mark that goes through on a well-formed or missing record is read back as posted |
| KvThreadState.MarkKeepsOtherFlags | src/utils/kvThreadState.ts:61-69 | the other flags already stored for the fixture survive the read-modify-write |
| KvThreadState.MarkIsolatesFixtures | src/utils/kvThreadState.ts:58-72 | marking one fixture never changes the answer for another |
| KvThreadState.MarkIsMonotone | src/utils/kvThreadState.ts:47-79 | whatever fails, a mark never clears a posted flag |
| KvThreadState.MalformedRecordStaysUnposted | src/utils/kvThreadState.ts:36-40 | a record that does not parse is never repaired: it reads as "not posted" before and after every mark |
| LegacyThreadState.ReadState | src/threadState.ts:14-18 | a missing file is the empty ledger, an unreadable one throws, a stored one is read as is |
| LegacyThreadState.IsThreadPosted | src/threadState.ts:24-30 | the check throws exactly on an unreadable file, and answers true exactly for a flag stored as `true` |
| LegacyThreadState.MarkThreadPosted | src/threadState.ts:32-40 | the mark succeeds exactly when the file reads and the write succeeds; then the cell is `true` and every other cell is kept |
| LegacyThreadState.MarkThenCheck | src/threadState.ts:24-40 | after a successful mark the check answers true |
| LegacyThreadState.MarkThreadPostedIsIdempotent | src/threadState.ts:32-40 | marking twice gives the same file as marking once |
| LegacyThreadState.StrictnessDiffers | src/threadState.ts:29 | a truthy flag that is not `true` counts as posted for the newer file ledger but not for this one |
| RefreshState.GetLastRefreshTime | src/utils/refreshState.ts:25-38 | a missing or unreadable file reads as the epoch; a stored valid date reads as itself; the instant is NaN exactly when the file parses but holds no valid date |
| RefreshState.UpdateRefreshTime | src/utils/refreshState.ts:43-60 | after a successful write the last refresh reads back as now; a failed write leaves the file as it was |
| RefreshState.IsRefreshNeeded | src/utils/refreshState.ts:67-74 | with a stored valid date, needed exactly when the threshold has passed since it; without a readable file, exactly when the threshold has passed since the epoch |
| RefreshState.UpdateDefersRefresh | src/utils/refreshState.ts:43-74 | right after a successful update, a refresh is needed exactly once the threshold has passed again |
| RefreshState.NeedStaysAsTimePasses | src/utils/refreshState.ts:67-74 | once needed, a refresh stays needed as time passes, until the next update |
| RefreshState.MissingFileRefreshes | src/utils/refreshState.ts:36-37 | without a usable file the default 24-hour threshold is met from the epoch's second day on |
| RefreshState.InvalidDateNeverRefreshes | src/utils/refreshState.ts:29-30 | as written, a parsed file holding an invalid date never needs a refresh, at any time and threshold |
| RefreshState.GetLastRefreshTimeIntended | src/utils/refreshState.ts:36-37 | corrected, every unusable state reads as the epoch, and a valid stored date is read as before |
| RefreshState.IntendedAlwaysEventuallyRefreshes | src/utils/refreshState.ts:67-74 | corrected, every state needs a refresh once the threshold has passed since its instant, and the correction changes nothing except for an invalid stored date |
| KvRefreshState.GetLastRefreshTime | src/utils/kvRefreshState.ts:12-33 | no binding, a failed read, a missing or empty value all read as the epoch; a stored value gives NaN exactly when it does not parse as a decimal integer |
| KvRefreshState.UpdateRefreshTime | src/utils/kvRefreshState.ts:38-51 | a successful update stores now in decimal; no binding or a failed write changes nothing |
| KvRefreshState.IsRefreshNeeded | src/utils/kvRefreshState.ts:57-67 | with nothing usable read, needed exactly when the threshold has passed since the epoch; with a stored value, needed exactly when it parses and the threshold has passed since it, so an unparsable value never asks for a refresh |
| KvRefreshState.UpdateThenGet | src/utils/kvRefreshState.ts:27-46 | the decimal encoding round-trips: after a successful update the stored instant reads back exactly |
| KvRefreshState.UpdateDefersRefresh | src/utils/kvRefreshState.ts:57-67 | after a successful update, a refresh is needed exactly once the threshold has passed since it |
| KvRefreshState.UnboundAlwaysRefreshes | src/utils/kvRefreshState.ts:13-17 | without the binding an update is lost and a refresh is needed whenever the threshold has passed since the epoch |
| KvRefreshState.ReadFailureRefreshes | src/utils/kvRefreshState.ts:28-32 | a failed read means the epoch, whatever is stored |
| KvRefreshState.AgreesWithFile | src/utils/kvRefreshState.ts:57-67 | once the store and the file hold the same instant, they agree on whether a refresh is needed |
| ApiClient.ReadMockData | src/api/apiClient.ts:45-57 | a mock file reads as its parsed contents exactly when it exists and parses; a missing or unparsable file reads as null and nothing is thrown |
| ApiClient.Answer | src/api/apiClient.ts:93-100 | a reply yields a fixture exactly when it is a non-empty list, and then it is the list's first element |
| ApiClient.MaxAttempts | src/api/apiClient.ts:82 | the loop makes `retries` attempts at most, none when `retries` is not positive |
| ApiClient.FetchNextMatchLive | src/api/apiClient.ts:78-115 | every attempt before the last was rate-limited; the loop stops early only on a reply that is not a 429, and then answers that reply's first fixture or null; exhausting the attempts on 429s answers null; one ten-second wait follows each 429 |
| ApiClient.LiveLoopIsDetermined | src/api/apiClient.ts:78-115 | the loop's contract pins its result: two endings of the same loop over the same replies have the same answer, attempt count and waits |
| ApiClient.FetchNextMatch | src/api/apiClient.ts:62-115 | with mock data no wait happens: the simulation's test match when that file exists (a garbled one throws), otherwise the leniently read mock match; live, it never throws and ends exactly as the live loop does: every earlier attempt was a 429, the answer is the head of the stopping reply's list or null, and one wait follows each 429 |
| ApiClient.FetchLineups | src/api/apiClient.ts:120-163 | mock data gives the lenient read of the lineups file; live, only a failed request throws, a non-array or empty reply becomes the empty list, and an array is returned as is |
| ApiClient.LiveLineupsUsable | src/api/apiClient.ts:136-151 | on the live path, the client's answer passes the `lineups.length > 0` test exactly when the API answered a non-empty array |
| ApiClient.SimulatedPhase | src/api/apiClient.ts:274-303 | the simulated phase is "NS" exactly before kickoff and "FT" exactly from scaled minute 105 on |
| ApiClient.SimulationSpeed | src/config/appConfig.ts:15-18 | the speed is 1 when the setting is unset or empty; any integer's decimal text reads back as that integer; a setting whose first character is not white space, a sign or a digit is NaN |
| ApiClient.NotNumericIsNaN | src/config/appConfig.ts:15-18 | `parseInt` of a text that starts with a character it can neither skip nor read is NaN |
| ApiClient.SimulateMatchStatus | src/api/apiClient.ts:254-304 | without a readable mock match the status is "NS"; a mock match without `fixture` throws, and nothing else does; an invalid kickoff date or a NaN speed makes every comparison false, so "FT"; every answer is one of the five simulated statuses |
| ApiClient.NaNSpeedFinishesAtOnce | src/api/apiClient.ts:266-303 | a non-numeric speed setting is NaN, and the simulated match then reads "FT" at any time |
| ApiClient.SimulationNeverRegresses | src/api/apiClient.ts:266-303 | at a positive speed the simulated status never moves backwards as time passes |
| ApiClient.SimulationPhaseBoundaries | src/api/apiClient.ts:275-303 | at speed 1 the phase changes exactly at kickoff and at minutes 45, 60 and 105 |
| ApiClient.LiveMatchStatus | src/api/apiClient.ts:237-248 | the live status reads "NS" exactly when the request threw, the status is missing or empty, or the API itself said "NS" |
| ApiClient.FetchMatchStatus | src/api/apiClient.ts:215-249 | the status sources take precedence in order: mock data (default "FT"), simulation, a non-empty override, the live request; it throws exactly in the simulation for a mock match without `fixture`; an answer is never empty |
| ApiClient.FixturelessMockDiffers | src/api/apiClient.ts:216-262 | a mock match without `fixture` reads "FT" with mock data, through optional chaining, and throws in the simulation |
| ApiClient.LiveFailureKeepsPolling | src/api/apiClient.ts:243-248 | on the live path a failed request or a missing status reads as "NS", which the post-match stage does not count as finished |
| ApiClient.MissingMockIsFinished | src/api/apiClient.ts:216-220 | with mock data but no readable mock match the status is "FT", a finished status |
| Api.MockNextMatch | src/api.ts:18-23 | the older module's mock path succeeds exactly when the mock file parses, and then returns its contents; otherwise it throws |
| Api.FetchNextMatch | src/api.ts:17-65 | mock data goes to the file without retries; live, it never throws and ends exactly as the client's live loop does: every earlier attempt was a 429, the answer is the head of the stopping reply's list or null, and one wait follows each 429 |
| Api.MockPathsDiffer | src/api.ts:18-23 | the two API modules agree on a parsed mock file, but a missing file throws here and reads as null in the client |
| Api.FetchLineups | src/api.ts:67-86 | with mock data it throws exactly when the lineups file is missing or not JSON, and otherwise returns its contents; live, it throws exactly when the request fails and otherwise returns the answer unchecked |
| Api.LineupsUsable | src/schedulers/MatchThreadScheduler.ts:57-95 | the match-thread retry loop accepts an attempt of this module's `fetchLineups` exactly when it returned a non-empty list; a throw, `null` or an empty list is retried |
| Api.LineupsModulesDiffer | src/api.ts:67-86 | a missing mock lineups file throws here but reads as null in the client, and a live non-array answer stays as is here but becomes the empty list in the client; neither is usable |
| ApiCallTracker.Fresh | src/utils/apiCallTracker.ts:36-41 | a day starts with today's date, no calls and no details |
| ApiCallTracker.ReadApiCallData | src/utils/apiCallTracker.ts:26-42 | the stored record when one can be read, otherwise a fresh record for today |
| ApiCallTracker.WriteApiCallData | src/utils/apiCallTracker.ts:47-59 | a successful write stores the record; a failed one is swallowed and leaves the file as it was |
| ApiCallTracker.AlertAsWritten | src/utils/apiCallTracker.ts:88-93 | as written, the alert is a warning exactly from 80 calls and never critical |
| ApiCallTracker.AlertIntended | src/utils/apiCallTracker.ts:88-93 | with the stricter test first: critical from 95, a warning from 80 to 94, quiet below 80 |
| ApiCallTracker.CriticalAlertUnreachable | src/utils/apiCallTracker.ts:89-92 | the critical branch is dead code; the correction differs from the code only at 95 calls and up |
| ApiCallTracker.Recorded | src/utils/apiCallTracker.ts:64-83 | a call on a new day starts the record over with that one call; on the same day it adds one to the count and appends its detail; a record whose count matches its details keeps matching |
| ApiCallTracker.RecordApiCall | src/utils/apiCallTracker.ts:64-96 | the file afterwards is the write of the updated record, and the alert is the as-written one for the new count |
| ApiCallTracker.GetTodaysApiCallCount | src/utils/apiCallTracker.ts:101-110 | zero without a file or for a record of another day; otherwise the stored count |
| ApiCallTracker.GetTodaysApiCallDetails | src/utils/apiCallTracker.ts:122-135 | always a record for today, whose count is today's count; consistency is kept |
| ApiCallTracker.RecordAllCounts | src/utils/apiCallTracker.ts:64-110 | recording n calls on one day keeps the count equal to the number of details, raises today's count by exactly n and appends the details in order |
| ApiCallTracker.QuotaAfterHundredCalls | src/utils/apiCallTracker.ts:115-117 | starting without a file, more calls are allowed exactly while fewer than 100 have been recorded |
| ApiUsage.UsageSeverity | src/utils/checkApiUsage.ts:38-44 | the report's bands: critical from 95, warning from 80 to 94, info from 50 to 79, quiet below 50 |
| ApiUsage.ReportMatchesIntendedAlert | src/utils/checkApiUsage.ts:38-41 | from 80 calls on the report's band is the tracker's intended alert, and at 95 and up it differs from the alert the tracker actually logs |
| ApiUsage.LastCall | src/utils/checkApiUsage.ts:19-23 | the last call's timestamp, "N/A" when there is no call or the timestamp is empty; never empty |
| ApiUsage.Bump | src/utils/checkApiUsage.ts:28 | one more call adds at most one entry to the breakdown |
| ApiUsage.BumpCounts | src/utils/checkApiUsage.ts:28 | one more call to an endpoint raises that endpoint's count by one, leaves every other count alone, and raises the total by one |
| ApiUsage.TallyIsExact | src/utils/checkApiUsage.ts:26-29 | the breakdown is exact: each endpoint's entry equals its number of calls, and the entries add up to the number of calls |
| ApiUsage.CheckApiUsage | src/utils/checkApiUsage.ts:11-45 | the report shows today's count; exactly when there was a call today, a summary dated today with the last call's timestamp and the per-endpoint tally of today's calls; and the band for the count |
| ApiUsage.BreakdownAddsUp | src/utils/checkApiUsage.ts:12-34 | the printed breakdown gives every endpoint exactly its number of calls today; with a consistent record, its counts add up to the count reported |
| BaseScheduler.StageHostAsWritten | src/schedulers/PreMatchScheduler.ts:17-18 | as written a stage's host has no `env`, whatever its caller passed, so the file ledger answers |
| BaseScheduler.StageHost | src/schedulers/BaseScheduler.ts:20-28 | corrected, the stage keeps the caller's `env` and the state file |
| BaseScheduler.IsThreadPosted | src/schedulers/BaseScheduler.ts:88-100 | the file ledger answers when `env` is absent and the key-value ledger when it is set; with either, a failed read answers "not posted" |
| BaseScheduler.AsWrittenStagesUseFile | src/schedulers/MatchThreadScheduler.ts:11-12 | as written every stage's check is the file ledger's answer, whatever `env` was passed |
| BaseScheduler.FailedReadHidesMarks | src/schedulers/BaseScheduler.ts:88-100 | a failed read can hide a mark but never invent one: it always answers "not posted" |
| BaseScheduler.KvMarkKeepsAll | src/schedulers/BaseScheduler.ts:71-79 | a key-value mark never unmarks anything that was posted |
| BaseScheduler.KvMarkSticks | src/schedulers/BaseScheduler.ts:71-79 | with a bound namespace, a successful read and write and a well-formed record, a key-value mark is seen by the next check |
| BaseScheduler.MarkAsPosted | src/schedulers/BaseScheduler.ts:71-83 | the mark goes to the key-value store exactly when `env` is set, and to the file otherwise; unless it is a file mark whose read failed, it never unmarks anything, whatever a later check's read does; a file mark whose read failed and whose write succeeded leaves every other fixture unposted; with a healthy backend the stage reads as posted afterwards to a check whose read succeeds |
| BaseScheduler.ApplyMarks | src/schedulers/BaseScheduler.ts:71-83 | applying a run's marks in order keeps the backend kind; a trace without marks changes nothing; unless the file marks' reads fail, it loses nothing already posted; when they fail and the writes succeed, any mark leaves every other fixture unposted; it keeps a healthy backend healthy and leaves every marked stage posted |
| BaseScheduler.Start | src/schedulers/BaseScheduler.ts:33-45 | a failing preview throws before anything else; a stage the check finds posted publishes nothing and changes nothing; otherwise the stage's run happens; unless a file mark's read fails, no posted flag is lost. The check's read and the marks' read and write have their own outcomes |
| BaseScheduler.SecondStartPublishesNothing | src/schedulers/BaseScheduler.ts:33-45 | with a healthy ledger, once a start has run a stage that marks itself, a second start whose check reads the ledger publishes nothing, whatever the first check saw |
| BaseScheduler.FileReadFailureRepublishes | src/utils/threadState.ts:68-84 | with the file ledger, a start whose mark reads the file unsuccessfully loses another fixture's flag, and that fixture's stage, skipped before, runs again |
| BaseScheduler.StageHostCorrectionDiffers | src/schedulers/PostMatchScheduler.ts:14-15 | a stage whose mark is held only in the key-value ledger runs again as written, and publishes nothing once `env` is handed on |
| BaseScheduler.KvReadFailureRepublishes | src/schedulers/BaseScheduler.ts:88-100 | when the checks' key-value reads fail, every start runs the whole stage again, even after a mark that stuck: the ledger fails open |
| BaseScheduler.WaitUntil | src/schedulers/BaseScheduler.ts:50-66 | no timer for a target that is not in the future; otherwise a single timer, which ends at the target when the delay is within the Node.js timer range and after 1 ms when it is beyond it |
| BaseScheduler.FarTargetWakesEarly | src/schedulers/BaseScheduler.ts:60-65 | a target 30 days ahead is beyond the timer range, so the wait ends after 1 ms, long before the target |
| BaseScheduler.ShouldPostNow | src/schedulers/BaseScheduler.ts:106-124 | due exactly when not posted, a target exists, and the target lies between 30 minutes ago (excluded) and 5 minutes from now (included) |
| BaseScheduler.ShouldPostNowEdges | src/schedulers/BaseScheduler.ts:118-123 | five minutes early is inside the window and a millisecond more is not; thirty minutes late is outside and a millisecond less is inside; a posted stage is never due |
| BaseScheduler.ThreadTypeName | src/schedulers/BaseScheduler.ts:129-140 | each of the three stages has its own name; the "Thread" default is unreachable |
| BaseScheduler.ThreadTypeNamesDiffer | src/schedulers/BaseScheduler.ts:129-140 | two stages get the same name exactly when they are the same stage |
| JobMode.HookAsWritten | src/schedulers/BaseScheduler.ts:146 | of the three stages only the post-match one defines the post-time hook, and it answers no time |
| JobMode.ShouldPostNowAsWritten | src/schedulers/BaseScheduler.ts:106-124 | a posted stage answers false; an unposted pre-match or match-thread stage throws at the missing hook; an unposted post-match stage answers false |
| JobMode.NeverDueAsWritten | src/schedulers/BaseScheduler.ts:106-124 | as written, no stage is ever due to post |
| JobMode.PreMatchAtTargetThrows | src/schedulers/PreMatchScheduler.ts:86-91 | an unposted pre-match stage throws at its own posting time, and one minute before it |
| JobMode.IntendedPostTime | src/schedulers/PreMatchScheduler.ts:91 | the pre-match target is 24 hours before kickoff, the match-thread target 8 minutes before it, and the post-match stage has none |
| JobMode.ShouldPostNowIntended | src/schedulers/BaseScheduler.ts:106-124 | with the hook defined, a timed unposted stage is due exactly when its target lies from five minutes ahead to under thirty minutes behind; a posted or post-match stage never is |
| JobMode.DueAroundTarget | src/schedulers/BaseScheduler.ts:116-123 | corrected, each timed stage is due at its target, from five minutes before it until just under thirty minutes after it, and never once posted |
| JobMode.CorrectionDiffers | src/schedulers/MatchThreadScheduler.ts:28-33 | wherever the corrected decision says post, the decision as written throws |
| PreMatch.PostAt | src/schedulers/PreMatchScheduler.ts:86-91 | the pre-match target is exactly 24 hours before kickoff |
| PreMatch.NormalizedHasNoTildeA | src/schedulers/PreMatchScheduler.ts:114-118 | a normalised name never holds "Ã": accents are stripped before upper-casing |
| PreMatch.StrippedIsBase | src/schedulers/PreMatchScheduler.ts:115-117 | after accent stripping no character is an a with a tilde, in either case |
| PreMatch.FormatCompetitionName | src/schedulers/PreMatchScheduler.ts:114-120 | the label is "BRASILEIRÃO" exactly when the normalised name mentions "SERIE A"; otherwise it is the normalised name, accents removed and upper-cased |
| PreMatch.FormatCompetitionNameLosesTilde | src/schedulers/PreMatchScheduler.ts:114-120 | unlike the shared competition formatter, this one is not idempotent: its own label comes back as "BRASILEIRAO" |
| PreMatch.NoSerieA | src/schedulers/PreMatchScheduler.ts:119 | "BRASILEIRAO" does not mention "SERIE A" |
| PreMatch.GroupIdentifier | src/schedulers/PreMatchScheduler.ts:128-143 | outside the Libertadores the group word is kept; inside, a word that `parseInt` reads as 1..8 becomes the letter A..H at that position; nothing else changes |
| PreMatch.LibertadoresGroupLetter | src/schedulers/PreMatchScheduler.ts:136-141 | in the Libertadores, group number n from 1 to 8 becomes the n-th letter |
| PreMatch.FormatOrdinalRound | src/schedulers/PreMatchScheduler.ts:122-147 | a label that matches neither the season pattern nor the group pattern is upper-cased |
| PreMatch.PreMatchSeasonLabel | src/schedulers/PreMatchScheduler.ts:123-126 | "Regular Season - N" and "Temporada Regular - N" become "Nª RODADA" whatever the competition |
| PreMatch.LibertadoresGroupLabel | src/schedulers/PreMatchScheduler.ts:128-143 | in the Libertadores "Group Stage - N" for N in 1..8 becomes "GRUPO" and the N-th letter |
| PreMatch.OtherGroupLabel | src/schedulers/PreMatchScheduler.ts:128-143 | outside the Libertadores "Group Stage - W" keeps the whole word W |
| PreMatch.Title | src/schedulers/PreMatchScheduler.ts:22-59 | the title opens with "[PRÉ-JOGO] \| ", the competition label and " \| ", ends with " \| " and the round label, and between them holds exactly the two title sides around " X " |
| PreMatch.CreateAndPostThread | src/schedulers/PreMatchScheduler.ts:86-112 | at most one publication, and the mark comes after it; the run throws exactly when the body cannot be built, and then only waits; otherwise it waits for the timer, publishes the title and body, and marks the pre-match stage last. Within the timer range the wait ends at the target, or at once when that has passed |
| PreMatch.FarTargetPublishesEarly | src/schedulers/BaseScheduler.ts:60-65 | a target beyond the timer range is not waited for: the thread is published 1 ms after the call, before its target |
| PreMatch.PreMatchPostsOnce | src/schedulers/PreMatchScheduler.ts:86-102 | with a healthy ledger, the first start publishes at most once and a second start whose check reads the ledger publishes nothing |
| MatchThread.LastReturned | src/schedulers/MatchThreadScheduler.ts:58-64 | when every attempt threw, the lineups stay null |
| MatchThread.FetchLineupsWithRetry | src/schedulers/MatchThreadScheduler.ts:57-101 | one to three attempts, stopping at the first usable list; every earlier attempt was unusable; the result is what the last attempt that did not throw returned; the waits are 10 s and 20 s after failed attempts 1 and 2, 30 s at most in all |
| MatchThread.PostAt | src/schedulers/MatchThreadScheduler.ts:28-33 | the match-thread target is exactly eight minutes before kickoff |
| MatchThread.CreateAndPostThread | src/schedulers/MatchThreadScheduler.ts:15-55 | without league data the title throws before anything happens; otherwise exactly one publication of the plain title and body, followed by the match-thread mark. Within the timer range it publishes no earlier than the target, and at most 30 s of lineup retries late; a target more than the timer range and the retries ahead is published within 30 s and 1 ms of the call, before the target |
| PostMatch.ScheduledPostTime | src/schedulers/PostMatchScheduler.ts:44-47 | the post-match stage never has a scheduled post time |
| PostMatch.NeverDueByWindow | src/schedulers/PostMatchScheduler.ts:44-47 | so the inherited posting window never opens for it |
| PostMatch.EstimatedEnd | src/schedulers/PostMatchScheduler.ts:49-56 | the estimated end is exactly two hours after kickoff |
| PostMatch.ShouldCheckMatchStatusAsWritten | src/schedulers/PostMatchScheduler.ts:58-62 | as written, every call throws: the undefined `isAlreadyPosted` is called before the clock is read |
| PostMatch.ShouldCheckMatchStatus | src/schedulers/PostMatchScheduler.ts:58-74 | corrected, with `isAlreadyPosted` read as the ledger: polling is due exactly when the stage is not posted and two hours have passed since kickoff |
| PostMatch.CheckStaysDue | src/schedulers/PostMatchScheduler.ts:58-74 | once due, polling stays due as time passes, and stops once the stage is posted |
| PostMatch.CheckCorrectionDiffers | src/schedulers/PostMatchScheduler.ts:58-74 | the call as written never gives the corrected answer; at the estimated end of an unposted match the corrected check is due while the call as written throws |
| PostMatch.IsFinished | src/schedulers/PostMatchScheduler.ts:84 | only two- or three-letter codes count as finished (full time, after extra time, after penalties) |
| PostMatch.FinishedIsApiStatus | src/schedulers/PostMatchScheduler.ts:84 | every status that counts as finished is a code of the API's status table |
| PostMatch.FinishedStatuses | src/schedulers/PostMatchScheduler.ts:84 | of the API's short status codes exactly "FT", "AET" and "PEN" end a match; walkovers, awards, cancellations and abandonments do not |
| PostMatch.GoalsOf | src/schedulers/PostMatchScheduler.ts:177-178 | the goals are exactly the events of type "Goal" |
| PostMatch.GoalsOfConcat | src/schedulers/PostMatchScheduler.ts:178 | the filter keeps the events' order |
| PostMatch.GoalLine | src/schedulers/PostMatchScheduler.ts:183 | each goal line starts with the ball emoji |
| PostMatch.FormatGoals | src/schedulers/PostMatchScheduler.ts:176-186 | the placeholder exactly when there is no goal (missing events count as none); otherwise the goals' lines, one per goal in order, joined by newlines, opening with the first goal's line |
| PostMatch.Lookup | src/schedulers/PostMatchScheduler.ts:199-222 | a name gets a translation exactly when some key equals it, and the answer is that key's translation |
| PostMatch.Translate | src/schedulers/PostMatchScheduler.ts:222 | an unknown statistic name passes through unchanged; a known one gets its entry's translation |
| PostMatch.TranslationsChangeNames | src/schedulers/PostMatchScheduler.ts:199-217 | no statistic name is its own translation |
| PostMatch.LookupFindsFirst | src/schedulers/PostMatchScheduler.ts:222 | the table answers with the first entry whose key is the name |
| PostMatch.TranslatesPossession | src/schedulers/PostMatchScheduler.ts:200 | "Ball Possession" becomes "Posse de Bola" |
| PostMatch.AwayText | src/schedulers/PostMatchScheduler.ts:221-223 | a missing away entry or a null value shows as "-"; otherwise the value |
| PostMatch.StatsLines | src/schedulers/PostMatchScheduler.ts:193-224 | a header naming both teams upper-cased, the rule, then one row per home statistic paired with the away one at the same position |
| PostMatch.FormatStats | src/schedulers/PostMatchScheduler.ts:189-227 | the placeholder exactly when fewer than two teams' statistics are present; otherwise the table's lines joined by newlines |
| PostMatch.FormatOrdinalRound | src/schedulers/PostMatchScheduler.ts:240-246 | a label that matches neither the English season pattern nor the group pattern is upper-cased |
| PostMatch.DefaultRoundLabel | src/schedulers/PostMatchScheduler.ts:129-130 | a match without a round label is shown as the 38th round |
| PostMatch.RoundOfSeasonLabel | src/schedulers/PostMatchScheduler.ts:129-130 | a round label "Regular Season - D" names the D-th round |
| PostMatch.PostMatchGroupLabel | src/schedulers/PostMatchScheduler.ts:243-244 | "Group Stage - W" keeps the whole word W |
| PostMatch.ScoreLine | src/schedulers/PostMatchScheduler.ts:133-139 | the status defaults to "FT"; "AET" adds the extra-time suffix, "PEN" adds the shoot-out score and throws when it is missing; any other status leaves the plain line |
| PostMatch.Title | src/schedulers/PostMatchScheduler.ts:113-141 | the title is exactly "[PÓS-JOGO] \| " and the competition label, then the upper-cased home name, the full-time goals "h X a" and the upper-cased away name, then " \| " and the round label |
| PostMatch.Inner | src/schedulers/PostMatchScheduler.ts:142-166 | the body starts with the heading's "#" and ends with the closing ")" of the bot notice |
| PostMatch.FormatContent | src/schedulers/PostMatchScheduler.ts:110-173 | the content exists exactly when the final data was fetched, has a venue, and the score line does not throw; then it is this stage's title and body |
| PostMatch.BodyIsTrimmed | src/schedulers/PostMatchScheduler.ts:142-166 | trimming the template's surrounding newlines gives exactly the body text |
| PostMatch.CreateAndPostThread | src/schedulers/PostMatchScheduler.ts:99-107 | content that cannot be built does nothing; otherwise exactly one publication followed by the post-match mark |
| PostMatch.CheckAndPostIfFinished | src/schedulers/PostMatchScheduler.ts:77-96 | answers true exactly for a finished status; otherwise nothing happens; it publishes exactly when finished and the content exists; a mark never comes before the publication |
| PostMatch.FinishedButNothingPosted | src/schedulers/PostMatchScheduler.ts:84-107 | a finished match whose content cannot be built still answers true, with nothing published |
| PostMatch.StartSkipsStatusCheck | src/schedulers/PostMatchScheduler.ts:19-42 | the preview swallows its errors, so an unposted stage's start publishes at once, without asking the match status |
| MatchFormatters.NormalizedBrasileirao | src/formatters/matchFormatters.ts:15-22 | the league's own label, stripped of accents and upper-cased, is "BRASILEIRAO", so it reads as the national league again |
| MatchFormatters.NormalizedSpelling | src/formatters/matchFormatters.ts:15-18 | removing the tilde from "BRASILEIRÃO" gives "BRASILEIRAO" |
| MatchFormatters.FormatCompetition | src/formatters/matchFormatters.ts:13-26 | the result is "BRASILEIRÃO" exactly when the accent-free upper-cased name contains "SERIE A" or "BRASILEIRAO"; any other name is upper-cased with its accents kept |
| MatchFormatters.FormatCompetitionIsIdempotent | src/formatters/matchFormatters.ts:13-26 | formatting an already formatted competition name changes nothing |
| MatchFormatters.FormatOrdinalRound | src/formatters/matchFormatters.ts:31-41 | a label matching neither the season pattern nor the group pattern is upper-cased |
| MatchFormatters.OrdinalSeasonLabel | src/formatters/matchFormatters.ts:32-35 | "Regular Season - N" and "Temporada Regular - N" both become "Nª RODADA" |
| MatchFormatters.OrdinalGroupLabel | src/formatters/matchFormatters.ts:37-38 | "Group Stage - W" becomes "GRUPO" and only W's first character |
| MatchFormatters.FormatRound | src/formatters/matchFormatters.ts:46-63 | a label matching neither the group nor the season pattern gets the knock-out replacements, then is upper-cased |
| MatchFormatters.RoundSeasonLabel | src/formatters/matchFormatters.ts:51-55 | "Regular Season - N" and "Temporada Regular - N" become "RODADA N" |
| MatchFormatters.RoundGroupLabel | src/formatters/matchFormatters.ts:47-49 | a group label gives the same text here as in the ordinal formatter |
| MatchFormatters.FinalReplacementIsInvisible | src/formatters/matchFormatters.ts:61-62 | replacing "Final" by "FINAL" just before upper-casing has no visible effect |
| MatchFormatters.KnockoutIgnoresFinal | src/formatters/matchFormatters.ts:57-62 | the knock-out label depends only on the quarter-final and semi-final replacements |
| MatchFormatters.Present | src/formatters/matchFormatters.ts:82 | the null entries of a player list are dropped and every present player is kept |
| MatchFormatters.PlayerNames | src/formatters/matchFormatters.ts:83-85 | each player shows its own name, or "Desconhecido" when the name is missing or empty |
| MatchFormatters.PlayerList | src/formatters/matchFormatters.ts:80-93 | a missing or all-null list shows "N/A"; otherwise the players' names joined by ", " |
| MatchFormatters.TeamBlock | src/formatters/matchFormatters.ts:73-100 | the invalid-data notice exactly when the team or its team field is missing; otherwise the bold team name and the coach line ("Desconhecido" when missing or empty), then the starters line, then the bench line, each list as PlayerList gives it |
| MatchFormatters.MissingCoachIsUnknown | src/formatters/matchFormatters.ts:79 | a team with no coach name, or an empty one, shows "Desconhecido" as its coach |
| MatchFormatters.FormatLineups | src/formatters/matchFormatters.ts:68-103 | the unavailable notice exactly for missing or empty lineups; otherwise the teams' blocks, one per team in order, joined by a blank line, opening with the first team's block |
| MatchFormatters.TitleSides | src/formatters/matchFormatters.ts:115-127 | the side named Internacional keeps its upper-cased name; the other side is upper-cased under its own name or one of its nicknames; with a home Internacional the away side is the one nicknamed |
| MatchFormatters.FormatMatchTitle | src/formatters/matchFormatters.ts:108-142 | the title opens with "[JOGO] \| ", the formatted competition (default "CAMPEONATO"), ends with the ordinal round, and between them holds "HOME X AWAY" as chosen for the two sides |
| MatchFormatters.TitleWithoutNicknames | src/formatters/matchFormatters.ts:121-127 | without a nickname table both sides show their upper-cased official names |
| MatchFormatters.VerdictFor | src/formatters/matchFormatters.ts:153-160 | from the team's side: a win exactly when it scored more, a loss exactly when fewer, a draw exactly when level, a missing score counting as 0 |
| MatchFormatters.ResultLine | src/formatters/matchFormatters.ts:149-162 | each line opens with the verdict's icon and word |
| MatchFormatters.FormatLast5Results | src/formatters/matchFormatters.ts:147-165 | one result line per fixture, in order, each judged from the team's side, joined by newlines; empty exactly for no fixtures |
| MatchFormatters.VerdictsMirror | src/formatters/matchFormatters.ts:153-160 | seen from the two sides of one fixture, a win is the other side's loss and a draw is a draw for both |
| MatchFormatters.MissingScoreCountsAsZero | src/formatters/matchFormatters.ts:151-160 | a score still null compares as 0 |
| MatchFormatters.Stadium | src/formatters/matchFormatters.ts:204-207 | a missing venue or name gives "Unknown Venue"; the old name of Internacional's ground is shown as "Estádio Beira-Rio" and never as itself; any other name shows as is |
| Fixture.City | src/formatters/matchFormatters.ts:208 | a missing venue or city gives "Unknown City"; a present city shows as is, even when empty |
| MatchFormatters.Referee | src/formatters/matchFormatters.ts:209 | a missing or empty referee gives "Desconhecido"; any other shows as is |
| MatchFormatters.EmptyCityKeptEmptyRefereeReplaced | src/formatters/matchFormatters.ts:208-209 | an empty city stays empty while an empty referee is replaced |
| Nicknames.Load | src/utils/nicknameUtils.ts:25-41 | a nickname file that cannot be read or parsed gives the empty table |
| Nicknames.Exact | src/utils/nicknameUtils.ts:57 | finds the entry whose key is exactly the name, or reports that no key is |
| Nicknames.CaseInsensitive | src/utils/nicknameUtils.ts:61-63 | finds the first key equal to the name once both are lower-cased, or reports that none is |
| Nicknames.HasNicknames | src/utils/nicknameUtils.ts:85-100 | says yes whenever the lookup has a non-empty list to pick from, and only when some key equal to the trimmed name up to case holds a non-empty list; no for every name without a readable file |
| Nicknames.Candidates | src/utils/nicknameUtils.ts:57-68 | an exact key's list is taken whenever there is one, before any case-insensitive match |
| Nicknames.GetTeamNickname | src/utils/nicknameUtils.ts:48-78 | with no list, or an empty one, for the trimmed name the name comes back unchanged and untrimmed; otherwise the answer is one of that list's nicknames |
| Nicknames.EveryCandidateIsReachable | src/utils/nicknameUtils.ts:75-77 | every nickname of the list is a possible answer of the random pick |
| Nicknames.ExactKeyWins | src/utils/nicknameUtils.ts:57-73 | an exact key decides the answer, and an empty list under it returns the name without falling back to a case-insensitive key |
| Nicknames.NoNicknamesMeansName | src/utils/nicknameUtils.ts:48-100 | when the nickname check says no, the lookup returns the name unchanged |
| Nicknames.NoFileMeansName | src/utils/nicknameUtils.ts:36-40 | without a readable file every name comes back unchanged, and the check says no for every name |
| Nicknames.HasNicknamesButNameReturned | src/utils/nicknameUtils.ts:57-99 | the converse fails: an empty exact list after a case-variant key with nicknames makes the check say yes while the lookup returns the name |
| SimpleFormat.FormatMatchTitle | src/format.ts:38-45 | throws exactly when the league is missing; otherwise the raw home and away names around " vs ", then the round in brackets ("null" for a null round), then " - Tópico da Partida" |
| Text.Interpolated | src/format.ts:19 | a template literal prints a present field as is and a null one as "null"; the legacy pre-match venue line (src/schedulePreMatchThread.ts:61) prints its name and city the same way |
| SimpleFormat.Stadium | src/format.ts:15 | the venue's name, or "Unknown Venue" only when it is missing |
| SimpleFormat.Heading | src/format.ts:13-19 | the first line is the heading mark, the raw league name ("null" when null), " - " and the round |
| SimpleFormat.Inner | src/format.ts:18-33 | the body opens with that heading and ends with the closing ")" of the bot notice |
| SimpleFormat.FormatMatchThread | src/format.ts:1-36 | throws exactly when the league is missing, whatever its name and round hold; otherwise the body, which opens with the heading |
| SimpleFormat.NamelessLeagueStillFormats | src/format.ts:13-19 | a league whose name is null still gives a title with its round and a body whose heading prints the name as "null" |
| SimpleFormat.FormatMatchThreadIsTrimmed | src/format.ts:18-35 | the body is exactly the template with the white space around it trimmed |
| Cron.DaysInMonth | src/scheduler.ts:41-44 | every month of the UTC calendar has between 28 and 31 days |
| Cron.DaysBeforeMonth | src/scheduler.ts:41-44 | the days before month m lie between 28 and 31 per earlier month |
| Cron.MonthsFillYear | src/scheduler.ts:41-44 | the twelve months together are exactly as long as the year |
| Cron.MinuteNumberInjective | src/scheduler.ts:41-44 | two valid calendar moments that denote the same instant are the same moment |
| Cron.DayOfYearBounds | src/scheduler.ts:41-44 | a date's day number lies inside its year and before every later month |
| Cron.MonthsIncrease | src/scheduler.ts:41-44 | each month ends no later than every later month starts, and inside the year |
| Cron.YearsIncrease | src/scheduler.ts:41-44 | a later year starts after an earlier one ends |
| Cron.NextYear | src/scheduler.ts:41-44 | the next year starts right after this one ends |
| Cron.DayNumberInjective | src/scheduler.ts:41-44 | two valid dates with the same day number are the same date |
| Cron.MinusThirtyMinutes | src/schedulerMatchThread.ts:40-45 | thirty minutes earlier is a valid moment exactly thirty minutes before, borrowing across hour, day, month and year |
| Cron.CronExpression | src/scheduler.ts:41-46 | the expression ends with the every-year wildcard " *" |
| Cron.CronExpressionSplits | src/scheduler.ts:46 | no field contains a space, so the expression is exactly its five fields joined by spaces |
| Cron.CronFieldsReadBack | src/scheduler.ts:41-46 | the fields read back as the minute, hour, day and month they were written from |
| Cron.StopJob | src/scheduler.ts:36-39 | stopping keeps the job but marks it inactive; without a job there is nothing to stop |
| Cron.Reschedule | src/scheduler.ts:21-33 | without a match, or for the match already scheduled, nothing changes; otherwise the new match is recorded with an active job at the given moment |
| Cron.StoppedBy | src/scheduler.ts:35-39 | a round stops the previous job exactly when it schedules a different match and a job exists |
| Cron.Fire | src/scheduler.ts:63-65 | after the job's callback posts, no match is recorded and no job is kept |
| Cron.RescheduleIsIdempotent | src/scheduler.ts:29-33 | seeing the same match again never reschedules or stops anything |
| Cron.FiredMatchIsScheduledAgain | src/scheduler.ts:63-68 | a match seen again after its job fired is scheduled anew |
| Fixture.GoalsText | src/schedulerPostMatchThread.ts:70-72 | a score prints as its decimal digits, and a score still null prints as "null" |
| LegacyPreMatch.PostAt | src/schedulePreMatchThread.ts:18-19 | the post instant is twelve hours before kickoff |
| LegacyPreMatch.LegacyPostsTwelveHoursLater | src/schedulePreMatchThread.ts:19 | this scheduler posts twelve hours later than the newer pre-match stage |
| LegacyPreMatch.Title | src/schedulePreMatchThread.ts:54-57 | the title opens with "[PRÉ-JOGO] \| " and the competition name (default empty), ends with the ordinal round (default empty), and between them holds exactly the two upper-cased team names around " X " |
| LegacyPreMatch.LibertadoresGroupKeepsNumber | src/schedulePreMatchThread.ts:91-101 | here a numbered Libertadores group keeps its number, where the newer stage turns it into a letter |
| LegacyPreMatch.LegacyGroupLabel | src/schedulePreMatchThread.ts:97-98 | "Group Stage - N" keeps its number whatever the competition |
| LegacyPreMatch.Inner | src/schedulePreMatchThread.ts:58-69 | the body opens with the heading and the venue line and ends with the closing ")" of the bot notice |
| LegacyPreMatch.Body | src/schedulePreMatchThread.ts:46-70 | rendering throws exactly when the fixture has no venue; otherwise the trimmed template |
| LegacyPreMatch.Delay | src/schedulePreMatchThread.ts:23-38 | no wait when previewing mock data in dry-run mode; otherwise a timer, which within the timer range ends at the post instant, or at once when that has passed, and beyond it ends after 1 ms |
| LegacyPreMatch.StartPreMatchScheduler | src/schedulePreMatchThread.ts:11-41 | nothing without a match; throws exactly when the venue is missing, after waiting; otherwise it waits for the timer (ending at the post instant within the timer range), then publishes this title and body once, and never marks anything |
| LegacyPreMatch.FarTargetPublishesEarly | src/schedulePreMatchThread.ts:23-36 | a post instant beyond the timer range is published 1 ms after the start |
| LegacyPreMatch.EveryStartPublishes | src/schedulePreMatchThread.ts:11-41 | with no ledger, every start for a renderable match publishes again |
| LegacyScheduler.ScheduleNextMatchThread | src/scheduler.ts:16-46 | nothing changes without a match or for the match already scheduled; otherwise the new match is recorded with an active job at its kickoff fields |
| LegacyScheduler.CronTime | src/scheduler.ts:41-46 | the cron expression is the job's five calendar fields joined by spaces |
| LegacyScheduler.JobFiresAtKickoff | src/scheduler.ts:41-46 | the job fires in the kickoff's own minute: no later than kickoff and less than a minute before it |
| LegacyScheduler.FireJob | src/scheduler.ts:50-66 | a formatter that throws ends the callback with nothing published and the state kept; otherwise one publication and a cleared state |
| LegacyScheduler.JobCallback | src/scheduler.ts:50-66 | the callback throws exactly for a match without league data; otherwise it publishes once and clears the state |
| LegacyScheduler.LeaguelessMatchStaysScheduled | src/scheduler.ts:29-66 | a match without league data is never published, stays recorded, and later rounds leave it alone |
| LegacyScheduler.PostClearsSchedule | src/scheduler.ts:63-65 | after a successful post the next round schedules whatever it fetches |
| LegacyMatchThread.Target | src/schedulerMatchThread.ts:37-45 | the job's minute is thirty minutes before the kickoff minute |
| LegacyMatchThread.TwentyTwoMinutesEarlier | src/schedulerMatchThread.ts:37-45 | this job runs 22 minutes before the newer match-thread stage's target |
| LegacyMatchThread.ScheduleNextMatchThread | src/schedulerMatchThread.ts:16-102 | nothing changes without a match or for the one already scheduled; otherwise the old job is stopped, and the round throws, keeping the old id, exactly when the lineups fetch or the preview throws; else the new match gets an active job at the target |
| LegacyMatchThread.FailedRoundOrphansOldMatch | src/schedulerMatchThread.ts:47-71 | a failed round leaves the old match recorded with its job stopped, and a later round for it does nothing, so its thread is never posted |
| LegacyMatchThread.AgreesWithOldestScheduler | src/schedulerMatchThread.ts:52-62 | a successful round records the same match as the oldest scheduler, with the job moved to the earlier target |
| LegacyPostMatch.PollingStart | src/schedulerPostMatchThread.ts:40-58 | polling starts two hours after kickoff, the newer post-match stage's estimated end |
| LegacyPostMatch.StatLine | src/schedulerPostMatchThread.ts:25-38 | one line holds the raw statistic name, the home value and the away value or "-" |
| LegacyPostMatch.StatLines | src/schedulerPostMatchThread.ts:25-38 | one line per home statistic, paired with the away one at the same position |
| LegacyPostMatch.NoColonInPlaceholder | src/schedulerPostMatchThread.ts:25-38 | the no-statistics placeholder holds no colon |
| LegacyPostMatch.FormatStats | src/schedulerPostMatchThread.ts:25-38 | the placeholder exactly when fewer than two teams' statistics are present; otherwise the lines joined by newlines, empty exactly when the home side has none |
| LegacyPostMatch.ScoreLine | src/schedulerPostMatchThread.ts:68-79 | raw team names and goals, with the extra-time suffix for "AET", the shoot-out score for "PEN" (a throw when missing), and nothing added otherwise |
| LegacyPostMatch.Inner | src/schedulerPostMatchThread.ts:81-102 | the body opens with the result heading and the bold score line and ends with the closing ")" of the bot notice |
| LegacyPostMatch.BodyIsTrimmed | src/schedulerPostMatchThread.ts:81-102 | trimming the template gives exactly the body text |
| LegacyPostMatch.Content | src/schedulerPostMatchThread.ts:68-102 | throws exactly for a shoot-out without a shoot-out score; otherwise the title and body built from the score line |
| LegacyPostMatch.FirstFinished | src/schedulerPostMatchThread.ts:60-66 | polling stops at the first finished answer, and every earlier answer was not finished |
| LegacyPostMatch.FirstFinishedIgnoresLater | src/schedulerPostMatchThread.ts:64-65 | answers after the first finished one are never consulted |
| LegacyPostMatch.Ticks | src/schedulerPostMatchThread.ts:60-113 | n polling ticks are n waits of two minutes |
| LegacyPostMatch.Polled | src/schedulerPostMatchThread.ts:46-60 | the waits up to a tick publish nothing and mark nothing |
| LegacyPostMatch.PolledEndsAt | src/schedulerPostMatchThread.ts:46-60 | the waits up to a tick end n periods after the timer before polling, which ends at the polling start within the timer range (at once when that has passed) and after 1 ms beyond it |
| LegacyPostMatch.Outcome | src/schedulerPostMatchThread.ts:66-102 | the finishing tick throws exactly when the final data fetch fails or the content throws |
| LegacyPostMatch.Finish | src/schedulerPostMatchThread.ts:60-102 | the finishing tick keeps the waits before it, then publishes exactly when the content exists and throws exactly when it does not |
| LegacyPostMatch.Polling | src/schedulerPostMatchThread.ts:46-113 | for a fetched match: without a finished answer only the waits of every tick; with one, those up to and including it, then at most one publication, present exactly when the content exists |
| LegacyPostMatch.StartPostMatchScheduler | src/schedulerPostMatchThread.ts:40-113 | nothing without a match; at most one publication and never a mark; it publishes exactly when some answer is finished and the finishing tick's content exists, and throws exactly when that content does not; the effects open with the waits up to the finishing tick |
| LegacyPostMatch.PollingStopsAtFinish | src/schedulerPostMatchThread.ts:64-65 | once a finished answer has arrived, later answers change nothing |

## Left out

- **HTTP and Reddit:** the HTTP requests to API-Football and the Reddit submission. A fetch's answer and the success of a post are inputs. A publication is an effect in the trace.
- **Files and key-value I/O:** reading and writing files and the key-value namespace. The stored contents, and whether each read or write succeeds, are parameters; a file that never parses is `Unreadable`, and a read that fails once on a good file is a `readOk` of false.
- **Timers and concurrency:** `setTimeout`, `setInterval`, and overlapping interval callbacks. A wait is a `Wait` effect. The one timer rule that is modelled is Node.js's range: a delay above 2147483647 ms runs after 1 ms. The `markAsPosted` calls that are not awaited are placed right after the publication.
- **Luxon and locale rendering:** the kickoff rendered in the São Paulo zone in Portuguese is the parameter `kickoffText`. Time-zone offsets are not modelled.
- **`Math.random`:** replaced by the parameter `pick`, reduced modulo the list length, so every element stays reachable.
- **Unicode case mapping and NFD decomposition:** `toUpperCase` and `toLowerCase` are modelled only for a–z ↔ A–Z and à–þ ↔ À–Þ (U+00E0–U+00FE ↔ U+00C0–U+00DE, without ÷ and ×). Every other character is left unchanged. That is wrong for ß (upper case "SS"), ÿ (upper case Ÿ, U+0178), µ (upper case Μ, U+039C) and for letters above U+00FF.
- **Entry points and scripts:** `src/index.ts`, `src/worker.ts`, the scripts under `src/` (`force-post.ts`, `emergency-create-thread.ts` and the like) and the tests. `worker.ts` is not part of this model.
- **JSON parsing edge cases:** prototype keys of parsed JSON, duplicate keys, and `Object.keys` order beyond the order the table is given in.
- **The nickname cache:** a table that has loaded is modelled as loaded on every call.
- **node-cron:** only the expression and the job's minute are modelled. The fields are built from UTC components, node-cron reads them in local time, and an expression without a year recurs yearly; none of this is modelled. A job that has fired is never stopped.
- **Numeric precision:** seconds and milliseconds below the minute are dropped from cron moments. Fractional minutes and hours are compared as exact integers, and `hoursThreshold` is an integer.
- **Pass-through fetches:** `fetchFinalMatchData` and `fetchLast5Matches` are modelled only as fetches whose results are inputs to the formatters.
- **The last-five section of `formatMatchThread`** in `src/formatters/matchFormatters.ts`: only its venue and referee defaults are modelled. No scheduler calls it.
- **The pre-match body:** `PreMatchScheduler` calls a `formatPreMatchThread` that no file defines, so the body is a parameter of `PreMatch.CreateAndPostThread`.
- **The legacy post-match status poll:** `src/schedulerPostMatchThread.ts` imports a `fetchMatchStatus` that `src/api.ts` does not export, so the poll answers are an input sequence.
- **A league without a `round` or `name` key:** `League` holds `null` for a missing field, which `src/format.ts` prints as "null"; a key absent altogether would print "undefined". The other formatters treat the two alike.
- **Legacy venue text:** the legacy pre-match body prints a missing venue name or city as "null", the JSON value the API sends. An absent field would print "undefined"; that is not modelled.
- **Match-thread lineups:** the match-thread stage fetches lineups with `fetchLineups` of `src/api.ts` (`Api.FetchLineups`), but `src/format.ts` ignores them, so they never reach the body. A live answer that is a string passes the `length > 0` test; it is modelled as not usable, like every other non-array.
- **`MatchThreadScheduler` imports:** from `src/schedulers/`, `../format` and `../api` resolve to `src/format.ts` and `src/api.ts` (`SimpleFormat` and `Api`), but `../BaseScheduler` names no file. It is modelled as `src/schedulers/BaseScheduler.ts`. It defines no `previewThreadContent`, so its inherited `start` throws (see `MatchThread`).
- **Stage hosts:** the stage lemmas (`PreMatch.PreMatchPostsOnce`, `PostMatch.StartSkipsStatusCheck`, `BaseScheduler.SecondStartPublishesNothing`, `BaseScheduler.KvReadFailureRepublishes`) quantify over every host, so they describe the corrected constructors of `BaseScheduler.StageHost`. As written only hosts without `env` arise (see "## Findings").
- PostMatch.ShouldCheckMatchStatus: models the corrected check, with the undefined `isAlreadyPosted` read as the ledger's answer for the post-match stage. As written the call always throws (see "## Findings"). `PostMatch.CheckAndPostIfFinished` is modelled on its own, as if a caller had reached it.
- **PostMatch.FormatOrdinalRound:** its contract states only the fall-through case. The season and group cases are stated by `PostMatch.RoundOfSeasonLabel` and `PostMatch.PostMatchGroupLabel`, on the labels the API sends.
- **PreMatch.FormatOrdinalRound:** its contract states only the fall-through case. The season and group cases are stated by `PreMatch.PreMatchSeasonLabel`, `PreMatch.LibertadoresGroupLabel` and `PreMatch.OtherGroupLabel`, on the labels the API sends.
- **MatchFormatters.FormatOrdinalRound:** its contract states only the fall-through case. The other cases are stated by `MatchFormatters.OrdinalSeasonLabel` and `MatchFormatters.OrdinalGroupLabel`, on the canonical labels.
- **MatchFormatters.FormatRound:** its contract states only the fall-through case. The other cases are stated by `MatchFormatters.RoundSeasonLabel` and `MatchFormatters.RoundGroupLabel`.
- **Patterns.Search:** leftmost-match semantics are proved for the fixed expressions only. No general regular-expression engine is modelled.

## Findings

| source | as written | input that shows it | evidently intended | confidence | as-written member | corrected member |
|---|---|---|---|---|---|---|
| src/schedulers/BaseScheduler.ts:106-124 | `shouldPostNow` calls `getScheduledPostTime`. `PreMatchScheduler` and `MatchThreadScheduler` never define it, and `PostMatchScheduler` returns null. | an unposted pre-match stage one minute before its target: the call throws; no stage ever answers true | each timed stage is due around its own target: 24 hours or 8 minutes before kickoff | not executed | JobMode.NeverDueAsWritten | JobMode.DueAroundTarget |
| src/utils/refreshState.ts:25-38 | a state file whose `lastRefreshTime` is not a valid date yields an Invalid Date. Every comparison with it is false, so a refresh is never needed. | `{"lastRefreshTime": "garbage"}` at any time and any threshold | an unusable stored time reads as the epoch, as the function's error path does, so a refresh comes due | not executed | RefreshState.InvalidDateNeverRefreshes | RefreshState.IntendedAlwaysEventuallyRefreshes |
| src/utils/apiCallTracker.ts:89-93 | the `>= 80` test comes before the `>= 95` test, so the critical alert is never logged | 95 calls in a day: a warning is logged, not the critical alert | critical from 95 calls, warning from 80 to 94 | not executed | ApiCallTracker.CriticalAlertUnreachable | ApiCallTracker.AlertIntended |
| src/schedulers/PostMatchScheduler.ts:58-74 | `shouldCheckMatchStatus` first calls `this.isAlreadyPosted()`, which no class defines, so every call rejects with a TypeError and the post-match check is never reached | an unposted match three hours after kickoff: the call throws instead of answering true | skip once the post-match thread is posted; otherwise poll from two hours after kickoff | not executed | PostMatch.ShouldCheckMatchStatusAsWritten | PostMatch.ShouldCheckMatchStatus |
| src/schedulers/PreMatchScheduler.ts:17-18 | the three stage constructors (also `MatchThreadScheduler.ts:11-12` and `PostMatchScheduler.ts:14-15`) take only the match and call `super(match, type)`, so the `env` that `src/worker.ts:81-83` passes is dropped and every stage uses the file ledger | a Worker run whose key-value ledger holds the stage's mark and whose state file does not: the stage posts again | each stage hands `env` on to the base constructor, so a Worker run checks and marks the key-value ledger | not executed | BaseScheduler.StageHostAsWritten | BaseScheduler.StageHost |

=== FILE: api.dfy ===
/**
 * The older API module (`src/api.ts`), which the match-thread stage imports
 * for its lineups. Its live `fetchNextMatch` loop is the one of the client;
 * its mock paths read the mock file without a `try`, so a missing or garbled
 * file throws instead of giving `null`.
 */
module Api {
  import opened Common
  import opened Effects
  import opened ApiClient
  import MatchThread

  /** The mock path: the parsed file, or a thrown error. */
  function MockNextMatch<T>(file: MockFile<T>): (r: Result<Option<T>>)
    ensures r.Ok? <==> file.Parsed?
    ensures r.Ok? ==> r.value == Some(file.value)
  {
    match file
    case Parsed(v) => Ok(Some(v))
    case _ => Thrown
  }

  /**
   * `fetchNextMatch`: the mock file, or the live loop, which retries only on
   * 429 and answers the first fixture of the first list it gets.
   */
  method FetchNextMatch<T>(useMock: bool, file: MockFile<T>, replies: nat -> Reply<T>, retries: int)
    returns (r: Result<Option<T>>, waits: seq<Effect>, attempts: nat)
    ensures useMock ==> r == MockNextMatch(file) && waits == [] && attempts == 0
    ensures !useMock ==> r.Ok? && attempts <= MaxAttempts(retries) && (attempts == 0 <==> retries <= 0)
    ensures !useMock && retries >= 1 && replies(1).Failed? ==> r == Ok(None) && attempts == 1 && waits == []
    ensures !useMock && retries >= 1 && replies(1).Listed? ==> r == Ok(Answer(replies(1))) && attempts == 1
    ensures !useMock ==> |waits| <= attempts
    ensures !useMock ==> r.Ok? && LiveLoopEnded(replies, retries, r.value, waits, attempts)
    ensures !useMock && r.Ok? && r.value.Some? ==>
      exists k :: 1 <= k <= attempts && replies(k).Listed? && replies(k).items != [] && r.value.value == replies(k).items[0]
  {
    if useMock {
      r, waits, attempts := MockNextMatch(file), [], 0;
    } else {
      var found;
      found, waits, attempts := FetchNextMatchLive(replies, retries);
      r := Ok(found);
    }
  }

  /**
   * The two modules agree on mock data only when the file parses: a missing
   * file gives `null` in the client and an exception here.
   */
  lemma MockPathsDiffer<T>(file: MockFile<T>)
    ensures file.Parsed? ==> MockNextMatch(file) == Ok(ReadMockData(file))
    ensures file.NoFile? ==> MockNextMatch(file).Thrown? && ReadMockData(file).None?
  {
  }

  /**
   * `fetchLineups`: the mock lineups file, parsed without a `try`, or the
   * live `response.data.response` as sent, with no check that it is a
   * non-empty array. `live` is the request's outcome: thrown, or the answer,
   * `None` standing for `null` or any other value that is not an array.
   */
  function FetchLineups<T>(useMock: bool, file: MockFile<seq<T>>, live: Result<Option<seq<T>>>): (r: MatchThread.Fetch<T>)
    ensures useMock ==> (r.Threw? <==> !file.Parsed?)
    ensures useMock && file.Parsed? ==> r == MatchThread.Returned(Some(file.value))
    ensures !useMock ==> (r.Threw? <==> live.Thrown?)
    ensures !useMock && live.Ok? ==> r == MatchThread.Returned(live.value)
  {
    if useMock then
      match file
      case Parsed(v) => MatchThread.Returned(Some(v))
      case _ => MatchThread.Threw
    else
      match live
      case Thrown => MatchThread.Threw
      case Ok(v) => MatchThread.Returned(v)
  }

  /**
   * The retry loop accepts an attempt exactly when this module answered a
   * non-empty list; an empty list, `null` and every throw are retried.
   */
  lemma LineupsUsable<T>(useMock: bool, file: MockFile<seq<T>>, live: Result<Option<seq<T>>>)
    ensures MatchThread.Usable(FetchLineups(useMock, file, live)) <==>
      if useMock then file.Parsed? && file.value != []
      else live.Ok? && live.value.Some? && live.value.value != []
  {
  }

  /**
   * The two modules' `fetchLineups` differ on a missing mock file, which
   * throws here and reads as `null` in the client, and on a live answer that
   * is not an array, which the client turns into `[]`. Neither is usable.
   */
  lemma LineupsModulesDiffer<T>(mock: MockFile<seq<T>>)
    ensures FetchLineups<T>(true, NoFile, Ok(None)).Threw?
    ensures ApiClient.FetchLineups<T>(true, NoFile, NotArray) == MatchThread.Fetch<T>.Returned(None)
    ensures FetchLineups(false, mock, Ok(None)) == MatchThread.Fetch<T>.Returned(None)
    ensures ApiClient.FetchLineups(false, mock, NotArray) == MatchThread.Fetch<T>.Returned(Some([]))
    ensures !MatchThread.Usable(FetchLineups(false, mock, Ok(None)))
    ensures !MatchThread.Usable(ApiClient.FetchLineups(false, mock, NotArray))
  {
  }
}

=== FILE: api_call_tracker.dfy ===
/**
 * The daily API-call counter (`src/utils/apiCallTracker.ts`). A file holds
 * the day (`YYYY-MM-DD`), the number of calls and one detail per call; a
 * record on a new day starts over. The quota is 100 calls a day. The clock is
 * a parameter: `today` is the current UTC day and `stamp` the call's ISO
 * timestamp.
 */
module ApiCallTracker {
  import opened Common

  datatype CallDetail = CallDetail(timestamp: string, endpoint: string, purpose: string)

  datatype Tracker = Tracker(date: string, calls: int, details: seq<CallDetail>)

  /** The tracker file: absent, unreadable or not JSON, or parsed. */
  datatype TrackerFile = Absent | Unreadable | Stored(tracker: Tracker)

  const DailyQuota := 100

  /** How loudly a count is reported. */
  datatype Severity = Quiet | Info | Warning | Critical

  /** The record a day starts with. */
  function Fresh(today: string): (t: Tracker)
    ensures t.date == today && t.calls == 0 && t.details == []
  {
    Tracker(today, 0, [])
  }

  /** Every call counted has its detail, and only those. */
  predicate Consistent(t: Tracker) {
    t.calls == |t.details|
  }

  /** `readApiCallData`: the stored record, or today's fresh one when there is none to read. */
  function ReadApiCallData(f: TrackerFile, today: string): (t: Tracker)
    ensures f.Stored? ==> t == f.tracker
    ensures !f.Stored? ==> t == Fresh(today)
  {
    if f.Stored? then f.tracker else Fresh(today)
  }

  /** `writeApiCallData`: a failed write is logged and leaves the file as it was. */
  function WriteApiCallData(f: TrackerFile, t: Tracker, writeOk: bool): (r: TrackerFile)
    ensures writeOk ==> r == Stored(t)
    ensures !writeOk ==> r == f
  {
    if writeOk then Stored(t) else f
  }

  /** The alert `recordApiCall` logs, with its branches in the source's order. */
  function AlertAsWritten(calls: int): (s: Severity)
    ensures s != Critical
    ensures s == Warning <==> calls >= 80
  {
    if calls >= 80 then Warning
    else if calls >= 95 then Critical
    else Quiet
  }

  /** The alert with the stricter test first, as the two messages intend. */
  function AlertIntended(calls: int): (s: Severity)
    ensures s == Critical <==> calls >= 95
    ensures s == Warning <==> 80 <= calls < 95
    ensures s == Quiet <==> calls < 80
  {
    if calls >= 95 then Critical
    else if calls >= 80 then Warning
    else Quiet
  }

  /** The critical alert is dead code as written; the correction only changes counts of 95 and up. */
  lemma CriticalAlertUnreachable(calls: int)
    ensures AlertAsWritten(calls) != Critical
    ensures calls >= 95 ==> AlertAsWritten(calls) == Warning && AlertIntended(calls) == Critical
    ensures calls < 95 ==> AlertAsWritten(calls) == AlertIntended(calls)
  {
  }

  /** The record after one call: today's record (fresh on a new day) with the call counted and detailed. */
  function Recorded(f: TrackerFile, today: string, d: CallDetail): (t: Tracker)
    ensures ReadApiCallData(f, today).date != today ==> t == Tracker(today, 1, [d])
    ensures ReadApiCallData(f, today).date == today ==>
      t.date == today
      && t.calls == ReadApiCallData(f, today).calls + 1
      && t.details == ReadApiCallData(f, today).details + [d]
    ensures Consistent(ReadApiCallData(f, today)) ==> Consistent(t)
  {
    var data := ReadApiCallData(f, today);
    var data := if data.date != today then Fresh(today) else data;
    Tracker(data.date, data.calls + 1, data.details + [d])
  }

  /** `recordApiCall`: the file afterwards, and the alert logged. */
  function RecordApiCall(f: TrackerFile, today: string, stamp: string, endpoint: string, purpose: string,
                         writeOk: bool): (r: (TrackerFile, Severity))
    ensures var t := Recorded(f, today, CallDetail(stamp, endpoint, purpose));
      r.0 == WriteApiCallData(f, t, writeOk) && r.1 == AlertAsWritten(t.calls)
  {
    var t := Recorded(f, today, CallDetail(stamp, endpoint, purpose));
    (WriteApiCallData(f, t, writeOk), AlertAsWritten(t.calls))
  }

  /** `getTodaysApiCallCount`: zero for a record of another day. */
  function GetTodaysApiCallCount(f: TrackerFile, today: string): (n: int)
    ensures ReadApiCallData(f, today).date != today ==> n == 0
    ensures !f.Stored? ==> n == 0
    ensures f.Stored? && f.tracker.date == today ==> n == f.tracker.calls
  {
    var data := ReadApiCallData(f, today);
    if data.date != today then 0 else data.calls
  }

  /** `canMakeApiCall`: fewer than 100 calls today. */
  predicate CanMakeApiCall(f: TrackerFile, today: string) {
    GetTodaysApiCallCount(f, today) < DailyQuota
  }

  /** `getTodaysApiCallDetails`: a fresh record for a stale day, the stored one otherwise. */
  function GetTodaysApiCallDetails(f: TrackerFile, today: string): (t: Tracker)
    ensures t.date == today
    ensures t.calls == GetTodaysApiCallCount(f, today)
    ensures Consistent(ReadApiCallData(f, today)) ==> Consistent(t)
  {
    var data := ReadApiCallData(f, today);
    if data.date != today then Fresh(today) else data
  }

  /** The file after recording a sequence of calls on one day, every write succeeding. */
  function RecordAll(f: TrackerFile, today: string, ds: seq<CallDetail>): (r: TrackerFile)
    decreases |ds|
  {
    if ds == [] then f
    else RecordAll(Stored(Recorded(f, today, ds[0])), today, ds[1..])
  }

  /**
   * Recording keeps the count equal to the number of details, and counts
   * every call of the day: `n` calls made today raise today's count by
   * exactly `n` (from zero when the stored record is of another day, or
   * missing) and append their details in order.
   */
  lemma {:induction false} RecordAllCounts(f: TrackerFile, today: string, ds: seq<CallDetail>)
    requires Consistent(ReadApiCallData(f, today))
    ensures Consistent(ReadApiCallData(RecordAll(f, today, ds), today))
    ensures ds != [] ==>
      GetTodaysApiCallCount(RecordAll(f, today, ds), today) == GetTodaysApiCallCount(f, today) + |ds|
    ensures ds != [] ==>
      GetTodaysApiCallDetails(RecordAll(f, today, ds), today).details == GetTodaysApiCallDetails(f, today).details + ds
    decreases |ds|
  {
    if ds != [] {
      var f1 := Stored(Recorded(f, today, ds[0]));
      RecordAllCounts(f1, today, ds[1..]);
      if ds[1..] == [] {
        assert ds == [ds[0]];
      } else {
        assert ds == [ds[0]] + ds[1..];
      }
    }
  }

  /** Starting without a file, the day's quota is used up exactly once 100 calls are recorded. */
  lemma QuotaAfterHundredCalls(today: string, ds: seq<CallDetail>)
    requires |ds| >= 1
    ensures CanMakeApiCall(RecordAll(Absent, today, ds), today) <==> |ds| < DailyQuota
  {
    RecordAllCounts(Absent, today, ds);
  }
}

=== FILE: api_client.dfy ===
/**
 * The football API client (`src/api/apiClient.ts`) with HTTP abstracted: each
 * request's outcome is an input, indexed by attempt number from 1. Mock files
 * and configuration flags are parameters too. What is modelled is the control
 * around the requests: the retry loop, the validation of replies, the
 * precedence of the status sources and their fallbacks, and the simulated
 * status clock.
 */
module ApiClient {
  import opened Common
  import opened Effects
  import MatchThread
  import Text
  import PostMatch

  // ---------------------------------------------------------------------------
  // Mock files
  // ---------------------------------------------------------------------------

  /** A mock data file: absent, present but not JSON, or parsed. */
  datatype MockFile<T> = NoFile | Garbled | Parsed(value: T)

  /** `readMockData`: a missing or unparsable file reads as `null`; nothing is thrown. */
  function ReadMockData<T>(f: MockFile<T>): (r: Option<T>)
    ensures r.Some? <==> f.Parsed?
    ensures r.Some? ==> r.value == f.value
  {
    match f
    case Parsed(v) => Some(v)
    case _ => None
  }

  // ---------------------------------------------------------------------------
  // fetchNextMatch
  // ---------------------------------------------------------------------------

  /**
   * The outcome of one fixtures request: the `response` list, an HTTP 429, or
   * any other failure (another status, a network error, a reply without the
   * list).
   */
  datatype Reply<T> = Listed(items: seq<T>) | RateLimited | Failed

  /** The pause after a rate-limited attempt. */
  const RateLimitWaitMs := 10_000

  /** What a non-429 reply makes the call return: the first fixture, or `null`. */
  function Answer<T>(reply: Reply<T>): (r: Option<T>)
    ensures r.Some? <==> reply.Listed? && reply.items != []
    ensures r.Some? ==> r.value == reply.items[0]
  {
    if reply.Listed? && reply.items != [] then Some(reply.items[0]) else None
  }

  /** The number of attempts the loop allows: `retries`, none when it is not positive. */
  function MaxAttempts(retries: int): (n: nat)
    ensures retries <= 0 ==> n == 0
    ensures retries > 0 ==> n == retries
  {
    if retries <= 0 then 0 else retries
  }

  /**
   * How the live loop ends after `attempts` attempts: every earlier attempt
   * was a 429; it stops early only at a reply that is not a 429, and then
   * answers that reply's first fixture or `null`; running out of attempts on
   * a 429 answers `null`. One ten-second wait follows each 429.
   */
  ghost predicate LiveLoopEnded<T>(replies: nat -> Reply<T>, retries: int, r: Option<T>, waits: seq<Effect>, attempts: nat) {
    && attempts <= MaxAttempts(retries)
    && (forall k :: 1 <= k < attempts ==> replies(k).RateLimited?)
    && (attempts < MaxAttempts(retries) ==> attempts >= 1 && !replies(attempts).RateLimited?)
    && (attempts == 0 ==> r.None?)
    && (attempts >= 1 && !replies(attempts).RateLimited? ==> r == Answer(replies(attempts)))
    && (attempts >= 1 && replies(attempts).RateLimited? ==> r.None? && attempts == MaxAttempts(retries))
    && |waits| == (if attempts >= 1 && !replies(attempts).RateLimited? then attempts - 1 else attempts)
    && (forall i :: 0 <= i < |waits| ==> waits[i] == Wait(RateLimitWaitMs))
  }

  /** The loop's outcome is a function of the replies: two endings of the same loop agree. */
  lemma LiveLoopIsDetermined<T>(replies: nat -> Reply<T>, retries: int,
                                r1: Option<T>, w1: seq<Effect>, a1: nat, r2: Option<T>, w2: seq<Effect>, a2: nat)
    requires LiveLoopEnded(replies, retries, r1, w1, a1) && LiveLoopEnded(replies, retries, r2, w2, a2)
    ensures a1 == a2 && r1 == r2 && w1 == w2
  {
    assert |w1| == |w2|;
    assert forall i :: 0 <= i < |w1| ==> w1[i] == w2[i];
  }

  /**
   * The live path of `fetchNextMatch`: attempt after attempt while the API
   * answers 429, waiting ten seconds after each of those; any other failure
   * ends the loop with `null`, and a list ends it with its first element or,
   * when empty, with `null`.
   */
  method FetchNextMatchLive<T>(replies: nat -> Reply<T>, retries: int)
    returns (r: Option<T>, waits: seq<Effect>, attempts: nat)
    ensures LiveLoopEnded(replies, retries, r, waits, attempts)
  {
    r := None;
    waits := [];
    attempts := 0;
    var attempt := 1;
    while attempt <= retries
      invariant 1 <= attempt && attempts == attempt - 1 <= MaxAttempts(retries)
      invariant forall k :: 1 <= k < attempt ==> replies(k).RateLimited?
      invariant |waits| == attempts
      invariant forall i :: 0 <= i < |waits| ==> waits[i] == Wait(RateLimitWaitMs)
      invariant r.None?
    {
      attempts := attempt;
      match replies(attempt) {
        case Listed(items) =>
          r := if items == [] then None else Some(items[0]);
          return;
        case RateLimited =>
          waits := waits + [Wait(RateLimitWaitMs)];
        case Failed =>
          return;
      }
      attempt := attempt + 1;
    }
  }

  /**
   * `fetchNextMatch` of the client: with mock data, the simulation's test
   * match file when it exists (parsed outside any `try`, so a garbled one
   * throws), otherwise the mock match read leniently; without, the live loop.
   */
  method FetchNextMatch<T>(useMock: bool, simulation: bool, testMatch: MockFile<T>, mockMatch: MockFile<T>,
                           replies: nat -> Reply<T>, retries: int)
    returns (r: Result<Option<T>>, waits: seq<Effect>, attempts: nat)
    ensures useMock ==> waits == [] && attempts == 0
    ensures useMock && simulation && testMatch != NoFile ==> r == (if testMatch.Parsed? then Ok(Some(testMatch.value)) else Thrown)
    ensures useMock && !(simulation && testMatch != NoFile) ==> r == Ok(ReadMockData(mockMatch))
    ensures !useMock ==> r.Ok? && |waits| <= MaxAttempts(retries)
    ensures !useMock ==> r.Ok? && LiveLoopEnded(replies, retries, r.value, waits, attempts)
    ensures !useMock && r.Ok? && r.value.Some? ==>
      exists k :: 1 <= k <= MaxAttempts(retries) && replies(k).Listed? && replies(k).items != [] && r.value.value == replies(k).items[0]
  {
    if useMock {
      waits, attempts := [], 0;
      if simulation && testMatch != NoFile {
        r := if testMatch.Parsed? then Ok(Some(testMatch.value)) else Thrown;
      } else {
        r := Ok(ReadMockData(mockMatch));
      }
    } else {
      var found;
      found, waits, attempts := FetchNextMatchLive(replies, retries);
      r := Ok(found);
    }
  }

  // ---------------------------------------------------------------------------
  // fetchLineups
  // ---------------------------------------------------------------------------

  /** The outcome of the lineups request: a `response` that is not an array, an array, or a thrown error. */
  datatype LineupsReply<T> = NotArray | Array(items: seq<T>) | RequestFailed

  /**
   * `fetchLineups`: a reply that is not an array, or an empty one, becomes
   * `[]`; transport errors are rethrown; with mock data the lineups file is
   * read leniently, and may give `null`.
   */
  function FetchLineups<T>(useMock: bool, mock: MockFile<seq<T>>, reply: LineupsReply<T>): (r: MatchThread.Fetch<T>)
    ensures useMock ==> r == MatchThread.Returned(ReadMockData(mock))
    ensures !useMock ==> (r.Threw? <==> reply.RequestFailed?)
    ensures !useMock && r.Returned? ==> r.value.Some?
    ensures !useMock && reply.Array? ==> r == MatchThread.Returned(Some(reply.items))
    ensures !useMock && reply.NotArray? ==> r == MatchThread.Returned(Some([]))
  {
    if useMock then MatchThread.Returned(ReadMockData(mock))
    else
      match reply
      case RequestFailed => MatchThread.Threw
      case NotArray => MatchThread.Returned(Some([]))
      case Array(items) => MatchThread.Returned(Some(if items == [] then [] else items))
  }

  /**
   * On the live path, the client's answer passes the `lineups.length > 0`
   * test exactly when the API returned a non-empty array.
   */
  lemma LiveLineupsUsable<T>(mock: MockFile<seq<T>>, reply: LineupsReply<T>)
    ensures MatchThread.Usable(FetchLineups(false, mock, reply)) <==> reply.Array? && reply.items != []
  {
  }

  // ---------------------------------------------------------------------------
  // Match status
  // ---------------------------------------------------------------------------

  /** `DateTime.fromISO(fixture.date)`: a valid instant, or an invalid date whose differences are NaN. */
  datatype Kickoff = ValidDate(ms: int) | InvalidDate

  /**
   * The mock match file's parts that the status code reads: a parsed value
   * without a `fixture` object, or the fixture's kickoff and status.
   */
  datatype MockMatch = NoFixture | MockMatch(kickoff: Kickoff, status: Option<string>)

  /** `mockMatch?.fixture?.status?.short`: missing without a file or a fixture. */
  function MockStatus(mock: Option<MockMatch>): Option<string> {
    if mock.Some? && mock.value.MockMatch? then mock.value.status else None
  }

  /** A first character that `parseInt` neither skips nor reads: not white space, a sign or a digit. */
  predicate NotNumeric(c: char) {
    !Text.IsJsSpace(c) && !Text.IsDigit(c) && c != '-' && c != '+'
  }

  /** `parseInt` of a text whose first character it cannot read is NaN. */
  lemma NotNumericIsNaN(v: string)
    ensures v != [] && NotNumeric(v[0]) ==> Text.ParseInt10(v).None?
  {
  }

  /**
   * `SIMULATION_SPEED`: `parseInt` of the setting in base 10, "1" when it is
   * unset or empty; `None` is the NaN of a setting that does not start with
   * digits.
   */
  function SimulationSpeed(setting: Option<string>): (r: Option<int>)
    ensures setting.None? || setting.value == "" ==> r == Some(1)
    ensures forall n :: setting == Some(Text.IntToString(n)) ==> r == Some(n)
    ensures setting.Some? && setting.value != [] && NotNumeric(setting.value[0]) ==> r.None?
  {
    NotNumericIsNaN(Text.OrFalsy(setting, "1"));
    Text.ParseIntRoundTrip(1);
    assert Text.IntToString(1) == "1";
    forall n | setting == Some(Text.IntToString(n))
      ensures Text.ParseInt10(Text.IntToString(n)) == Some(n)
    {
      Text.ParseIntRoundTrip(n);
    }
    Text.ParseInt10(Text.OrFalsy(setting, "1"))
  }

  /** The statuses the simulation goes through, in order. */
  const SimulatedStatuses: seq<string> := ["NS", "1H", "HT", "2H", "FT"]

  /**
   * The simulated clock: with `scaled` the time since kickoff in milliseconds
   * times the speed, before kickoff "NS", then "1H" until minute 45, "HT"
   * until 60, "2H" until 105, then "FT". The source's separate branch for the
   * first minute answers "1H" as well.
   */
  function SimulatedPhase(scaled: int): (i: nat)
    ensures i < |SimulatedStatuses|
    ensures i == 0 <==> scaled < 0
    ensures i == 4 <==> scaled >= 105 * 60_000
  {
    if scaled < 0 then 0
    else if scaled < 45 * 60_000 then 1
    else if scaled < 60 * 60_000 then 2
    else if scaled < 105 * 60_000 then 3
    else 4
  }

  /**
   * `simulateMatchStatus`: "NS" without a readable mock match; a mock match
   * without `fixture` throws a TypeError at `mockMatch.fixture.date`; an
   * invalid kickoff date or a NaN speed makes every comparison false, so the
   * answer is "FT".
   */
  function SimulateMatchStatus(mock: Option<MockMatch>, now: int, speed: Option<int>): (r: Result<string>)
    ensures mock.None? ==> r == Ok("NS")
    ensures r.Thrown? <==> mock == Some(NoFixture)
    ensures mock.Some? && mock.value.MockMatch? && (mock.value.kickoff.InvalidDate? || speed.None?) ==> r == Ok("FT")
    ensures r.Ok? ==> r.value in SimulatedStatuses
  {
    match mock
    case None => Ok("NS")
    case Some(NoFixture) => Thrown
    case Some(MockMatch(kickoff, _)) =>
      if kickoff.ValidDate? && speed.Some? then Ok(SimulatedStatuses[SimulatedPhase((now - kickoff.ms) * speed.value)])
      else Ok("FT")
  }

  /** A non-numeric speed setting is NaN, and then a simulated match is over from the start. */
  lemma NaNSpeedFinishesAtOnce(k: Kickoff, status: Option<string>, now: int)
    ensures SimulationSpeed(Some("fast")).None?
    ensures SimulateMatchStatus(Some(MockMatch(k, status)), now, SimulationSpeed(Some("fast"))) == Ok("FT")
  {
    assert "fast"[0] == 'f' && NotNumeric('f');
  }

  /** At a positive speed the simulated status never goes back as time passes. */
  lemma {:induction false} SimulationNeverRegresses(k: int, speed: int, now: int, later: int)
    requires speed > 0 && now <= later
    ensures SimulatedPhase((now - k) * speed) <= SimulatedPhase((later - k) * speed)
  {
    assert (now - k) * speed <= (later - k) * speed by {
      assert (later - k) * speed - (now - k) * speed == (later - now) * speed;
    }
  }

  /** At normal speed the phases change at kickoff and at minutes 45, 60 and 105. */
  lemma SimulationPhaseBoundaries(k: int)
    ensures SimulatedPhase((k - 1 - k) * 1) == 0 && SimulatedPhase((k - k) * 1) == 1
    ensures SimulatedPhase((k + 45 * 60_000 - 1 - k) * 1) == 1 && SimulatedPhase((k + 45 * 60_000 - k) * 1) == 2
    ensures SimulatedPhase((k + 60 * 60_000 - 1 - k) * 1) == 2 && SimulatedPhase((k + 60 * 60_000 - k) * 1) == 3
    ensures SimulatedPhase((k + 105 * 60_000 - 1 - k) * 1) == 3 && SimulatedPhase((k + 105 * 60_000 - k) * 1) == 4
  {
  }

  /** The status-related configuration: `USE_MOCK_DATA`, `SIMULATION_MODE`, `MATCH_STATUS_OVERRIDE`, `SIMULATION_SPEED`. */
  datatype StatusConfig = StatusConfig(useMock: bool, simulation: bool, override: Option<string>, speed: Option<int>)

  /** The live status request: it threw, or it answered with the first fixture's `status.short`, possibly missing. */
  datatype LiveStatus = StatusThrew | StatusReplied(short: Option<string>)

  /** The live path: a missing or empty status, or a failed request, reads as "NS". */
  function LiveMatchStatus(live: LiveStatus): (r: string)
    ensures r == "NS" <==> live.StatusThrew? || live.short.None? || live.short.value in {"", "NS"}
  {
    match live
    case StatusThrew => "NS"
    case StatusReplied(s) => Text.OrFalsy(s, "NS")
  }

  /**
   * `fetchMatchStatus`: mock data first (its status, "FT" when missing), then
   * the simulation, then a non-empty override, then the live request. It
   * throws only in the simulation, for a mock match without `fixture`, and
   * never answers the empty string.
   */
  function FetchMatchStatus(cfg: StatusConfig, mock: Option<MockMatch>, now: int, live: LiveStatus): (r: Result<string>)
    ensures r.Thrown? <==> !cfg.useMock && cfg.simulation && mock == Some(NoFixture)
    ensures r.Ok? ==> r.value != ""
    ensures cfg.useMock ==> r == Ok(Text.OrFalsy(MockStatus(mock), "FT"))
    ensures !cfg.useMock && cfg.simulation ==> r == SimulateMatchStatus(mock, now, cfg.speed)
    ensures !cfg.useMock && !cfg.simulation && cfg.override.Some? && cfg.override.value != "" ==> r == Ok(cfg.override.value)
    ensures !cfg.useMock && !cfg.simulation && (cfg.override.None? || cfg.override.value == "") ==> r == Ok(LiveMatchStatus(live))
  {
    if cfg.useMock then Ok(Text.OrFalsy(MockStatus(mock), "FT"))
    else if cfg.simulation then SimulateMatchStatus(mock, now, cfg.speed)
    else if cfg.override.Some? && cfg.override.value != "" then Ok(cfg.override.value)
    else Ok(LiveMatchStatus(live))
  }

  /**
   * A mock match without `fixture` reads as finished with mock data, where
   * every access is optional, and throws in the simulation, where it is not.
   */
  lemma FixturelessMockDiffers(cfg: StatusConfig, now: int, live: LiveStatus)
    ensures cfg.useMock ==> FetchMatchStatus(cfg, Some(NoFixture), now, live) == Ok("FT")
    ensures !cfg.useMock && cfg.simulation ==> FetchMatchStatus(cfg, Some(NoFixture), now, live).Thrown?
  {
  }

  /**
   * On the live path a failed request or a missing status never ends the
   * match for the post-match stage, which keeps polling.
   */
  lemma LiveFailureKeepsPolling(cfg: StatusConfig, mock: Option<MockMatch>, now: int, live: LiveStatus)
    requires !cfg.useMock && !cfg.simulation && (cfg.override.None? || cfg.override.value == "")
    requires live.StatusThrew? || live.short.None?
    ensures FetchMatchStatus(cfg, mock, now, live) == Ok("NS")
    ensures !PostMatch.IsFinished(FetchMatchStatus(cfg, mock, now, live).value)
  {
  }

  /** With mock data but no readable file the match reads as finished. */
  lemma MissingMockIsFinished(cfg: StatusConfig, now: int, live: LiveStatus)
    requires cfg.useMock
    ensures FetchMatchStatus(cfg, None, now, live).Ok?
    ensures PostMatch.IsFinished(FetchMatchStatus(cfg, None, now, live).value)
  {
  }
}

=== FILE: api_usage.dfy ===
/**
 * The usage report (`src/utils/checkApiUsage.ts`): today's count, and, when
 * there was a call today, the date, the last call's timestamp and a count per
 * endpoint; then a severity band. The printed lines are modelled as a record.
 */
module ApiUsage {
  import opened Common
  import opened ApiCallTracker
  import Text

  /** The severity bands: 95 and up critical, 80..94 warning, 50..79 info, quiet below. */
  function UsageSeverity(count: int): (s: Severity)
    ensures s == Critical <==> count >= 95
    ensures s == Warning <==> 80 <= count < 95
    ensures s == Info <==> 50 <= count < 80
    ensures s == Quiet <==> count < 50
  {
    if count >= 95 then Critical
    else if count >= 80 then Warning
    else if count >= 50 then Info
    else Quiet
  }

  /** From 80 calls on, the report's band is the alert the tracker intends, not the one it logs at 95 and up. */
  lemma ReportMatchesIntendedAlert(count: int)
    requires count >= 80
    ensures UsageSeverity(count) == AlertIntended(count)
    ensures count >= 95 ==> UsageSeverity(count) != AlertAsWritten(count)
  {
  }

  /** The last call's timestamp, "N/A" without calls or with an empty timestamp. */
  function LastCall(ds: seq<CallDetail>): (r: string)
    ensures ds == [] ==> r == "N/A"
    ensures ds != [] && ds[|ds| - 1].timestamp != "" ==> r == ds[|ds| - 1].timestamp
    ensures r != ""
  {
    if ds == [] then "N/A"
    else Text.OrFalsy(Some(ds[|ds| - 1].timestamp), "N/A")
  }

  /** An endpoint's count in the breakdown: the first entry with that key, zero without one. */
  function CountOf(t: seq<(string, nat)>, k: string): nat {
    if t == [] then 0
    else if t[0].0 == k then t[0].1
    else CountOf(t[1..], k)
  }

  /** The breakdown after one more call to `e`: its entry incremented, or a new entry at the end. */
  function Bump(t: seq<(string, nat)>, e: string): (r: seq<(string, nat)>)
    ensures |r| == |t| || |r| == |t| + 1
  {
    if t == [] then [(e, 1)]
    else if t[0].0 == e then [(e, t[0].1 + 1)] + t[1..]
    else [t[0]] + Bump(t[1..], e)
  }

  /** `endpointCounts`, filled call by call in order. */
  function Tally(ds: seq<CallDetail>): seq<(string, nat)> {
    if ds == [] then [] else Bump(Tally(ds[..|ds| - 1]), ds[|ds| - 1].endpoint)
  }

  /** The number of calls to endpoint `k`. */
  function Occurrences(ds: seq<CallDetail>, k: string): nat {
    if ds == [] then 0
    else Occurrences(ds[..|ds| - 1], k) + (if ds[|ds| - 1].endpoint == k then 1 else 0)
  }

  /** The sum of the breakdown's counts. */
  function Total(t: seq<(string, nat)>): nat {
    if t == [] then 0 else t[0].1 + Total(t[1..])
  }

  lemma {:induction false} BumpCounts(t: seq<(string, nat)>, e: string, k: string)
    ensures CountOf(Bump(t, e), k) == CountOf(t, k) + (if k == e then 1 else 0)
    ensures Total(Bump(t, e)) == Total(t) + 1
  {
    if t != [] && t[0].0 != e {
      BumpCounts(t[1..], e, k);
      assert ([t[0]] + Bump(t[1..], e))[1..] == Bump(t[1..], e);
    } else if t != [] {
      assert ([(e, t[0].1 + 1)] + t[1..])[1..] == t[1..];
    }
  }

  /**
   * The breakdown is exact: each endpoint's entry counts its calls, and the
   * counts add up to the number of calls.
   */
  lemma {:induction false} TallyIsExact(ds: seq<CallDetail>, k: string)
    ensures CountOf(Tally(ds), k) == Occurrences(ds, k)
    ensures Total(Tally(ds)) == |ds|
  {
    if ds != [] {
      TallyIsExact(ds[..|ds| - 1], k);
      BumpCounts(Tally(ds[..|ds| - 1]), ds[|ds| - 1].endpoint, k);
    }
  }

  datatype Summary = Summary(date: string, lastCall: string, breakdown: seq<(string, nat)>)

  /** What `checkApiUsage` prints: the count, the summary when there were calls today, the band. */
  datatype Report = Report(count: int, summary: Option<Summary>, severity: Severity)

  function CheckApiUsage(f: TrackerFile, today: string): (r: Report)
    ensures r.count == GetTodaysApiCallCount(f, today)
    ensures r.summary.Some? <==> r.count > 0
    ensures r.summary.Some? ==> r.summary.value.date == today
    ensures r.summary.Some? ==>
      r.summary.value.lastCall == LastCall(GetTodaysApiCallDetails(f, today).details) &&
      r.summary.value.breakdown == Tally(GetTodaysApiCallDetails(f, today).details)
    ensures r.severity == UsageSeverity(r.count)
  {
    var count := GetTodaysApiCallCount(f, today);
    var details := GetTodaysApiCallDetails(f, today);
    var summary := if count > 0 then Some(Summary(details.date, LastCall(details.details), Tally(details.details))) else None;
    Report(count, summary, UsageSeverity(count))
  }

  /**
   * The printed breakdown counts each endpoint's calls today; with a
   * consistent record, its counts add up to today's count.
   */
  lemma BreakdownAddsUp(f: TrackerFile, today: string)
    requires CheckApiUsage(f, today).summary.Some?
    ensures forall k ::
      CountOf(CheckApiUsage(f, today).summary.value.breakdown, k) == Occurrences(GetTodaysApiCallDetails(f, today).details, k)
    ensures Consistent(ReadApiCallData(f, today)) ==>
      Total(CheckApiUsage(f, today).summary.value.breakdown) == CheckApiUsage(f, today).count
  {
    var ds := GetTodaysApiCallDetails(f, today).details;
    forall k | true
      ensures CountOf(CheckApiUsage(f, today).summary.value.breakdown, k) == Occurrences(ds, k)
    {
      TallyIsExact(ds, k);
    }
    TallyIsExact(ds, "");
  }
}

=== FILE: base_scheduler.dfy ===
/**
 * The behaviour the three stage schedulers inherit (`src/schedulers/BaseScheduler.ts`):
 * the choice of ledger backend, the "already posted" short-circuit of `start`,
 * `waitUntil`, and the posting window of `shouldPostNow`.
 */
module BaseScheduler {
  import opened Common
  import opened Ledger
  import opened Effects
  import File = FileThreadState
  import Kv = KvThreadState

  /** The scheduler's `env`: absent in the Node.js process, an object in the Worker. */
  datatype Env = NoEnv | WithEnv(threadState: Kv.Binding)

  /** What the ledger backends can see: the environment and the state file. */
  datatype Host = Host(env: Env, disk: Disk)

  /**
   * The host a stage scheduler sees as written: `PreMatchScheduler`,
   * `MatchThreadScheduler` and `PostMatchScheduler` take only the match and
   * call `super(match, type)`, so whatever `env` their caller passes is
   * dropped and the file ledger answers.
   */
  function StageHostAsWritten(env: Env, disk: Disk): (h: Host)
    ensures h.env.NoEnv? && h.disk == disk
  {
    Host(NoEnv, disk)
  }

  /** The host with the caller's `env` handed on, as the base constructor's third parameter is meant for. */
  function StageHost(env: Env, disk: Disk): (h: Host)
    ensures h.env == env && h.disk == disk
  {
    Host(env, disk)
  }

  /**
   * Whether the read and the write of one `markAsPosted` succeed: the
   * key-value `get` and `put`, or the file read and write. Each
   * `isThreadPosted` has its own read, passed on its own.
   */
  datatype Io = Io(readOk: bool, writeOk: bool)

  /**
   * `isThreadPosted`: the key-value ledger when `env` is set, the file
   * otherwise; `readOk` is whether this call's own read succeeds. Both
   * backends answer "not posted" when it fails.
   */
  function IsThreadPosted(h: Host, f: int, t: Stage, readOk: bool): (r: bool)
    ensures h.env.NoEnv? ==> (r <==> File.IsThreadPosted(h.disk, f, t, readOk))
    ensures !readOk ==> !r
    ensures h.env.WithEnv? && readOk ==>
      (r <==> Kv.IsThreadPosted(h.env.threadState, f, t, true))
  {
    match h.env
    case WithEnv(b) => Kv.IsThreadPosted(b, f, t, readOk)
    case NoEnv => File.IsThreadPosted(h.disk, f, t, readOk)
  }

  /** A read that fails can only hide a mark, never invent one. */
  lemma FailedReadHidesMarks(h: Host, f: int, t: Stage)
    ensures IsThreadPosted(h, f, t, false) ==> IsThreadPosted(h, f, t, true)
    ensures !IsThreadPosted(h, f, t, false)
  {
  }

  /** As written, every stage asks the file, whatever `env` its caller passed. */
  lemma AsWrittenStagesUseFile(env: Env, disk: Disk, f: int, t: Stage, readOk: bool)
    ensures IsThreadPosted(StageHostAsWritten(env, disk), f, t, readOk) <==> File.IsThreadPosted(disk, f, t, readOk)
  {
  }

  /** The conditions under which a mark of fixture `f` sticks. */
  predicate Healthy(h: Host, f: int, io: Io) {
    && io.writeOk
    && io.readOk
    && match h.env
       case NoEnv => true
       case WithEnv(b) => b.Bound? && (Kv.Key(f) in b.store ==> !b.store[Kv.Key(f)].Malformed?)
  }

  /**
   * The conditions under which a mark cannot lose another flag: a key-value
   * mark whose `get` fails writes nothing, but a file mark whose read fails
   * writes a ledger holding only the new flag.
   */
  predicate KeepsMarks(h: Host, io: Io) {
    h.env.WithEnv? || io.readOk
  }

  lemma KvMarkKeepsAll(b: Kv.Binding, f: int, t: Stage, io: Io)
    ensures forall g, u, ok :: Kv.IsThreadPosted(b, g, u, ok) ==>
      Kv.IsThreadPosted(Kv.MarkThreadPosted(b, f, t, io.readOk, io.writeOk), g, u, ok)
  {
    forall g, u, ok | Kv.IsThreadPosted(b, g, u, ok)
      ensures Kv.IsThreadPosted(Kv.MarkThreadPosted(b, f, t, io.readOk, io.writeOk), g, u, ok)
    {
      Kv.MarkIsMonotone(b, f, t, g, u, io.readOk, io.writeOk, ok);
    }
  }

  lemma KvMarkSticks(b: Kv.Binding, f: int, t: Stage, io: Io)
    ensures Healthy(Host(WithEnv(b), Absent), f, io) ==>
      Kv.IsThreadPosted(Kv.MarkThreadPosted(b, f, t, io.readOk, io.writeOk), f, t, true)
  {
    if Healthy(Host(WithEnv(b), Absent), f, io) {
      Kv.MarkThenCheck(b, f, t);
    }
  }

  /** `markAsPosted`: the same backend choice as `isThreadPosted`. */
  function MarkAsPosted(h: Host, f: int, t: Stage, io: Io): (r: Host)
    ensures h.env.WithEnv? ==> r.env.WithEnv? && r.disk == h.disk
    ensures h.env.NoEnv? ==> r.env == NoEnv && r.disk == File.MarkThreadPosted(h.disk, f, t, io.readOk, io.writeOk)
    ensures KeepsMarks(h, io) ==> forall g, u, ok :: IsThreadPosted(h, g, u, ok) ==> IsThreadPosted(r, g, u, ok)
    ensures h.env.NoEnv? && !io.readOk && io.writeOk ==> forall g, u, ok :: g != f ==> !IsThreadPosted(r, g, u, ok)
    ensures Healthy(h, f, io) ==> IsThreadPosted(r, f, t, true) && Healthy(r, f, io)
  {
    match h.env
    case WithEnv(b) =>
      KvMarkKeepsAll(b, f, t, io);
      KvMarkSticks(b, f, t, io);
      h.(env := WithEnv(Kv.MarkThreadPosted(b, f, t, io.readOk, io.writeOk)))
    case NoEnv =>
      h.(disk := File.MarkThreadPosted(h.disk, f, t, io.readOk, io.writeOk))
  }

  /** The host after the marks of a trace, applied in order. */
  function ApplyMarks(h: Host, f: int, io: Io, tr: seq<Effect>): (r: Host)
    decreases |tr|
    ensures h.env.WithEnv? ==> r.env.WithEnv?
    ensures h.env.NoEnv? ==> r.env.NoEnv?
    ensures KeepsMarks(h, io) ==> forall g, u, ok :: IsThreadPosted(h, g, u, ok) ==> IsThreadPosted(r, g, u, ok)
    ensures Healthy(h, f, io) ==> Healthy(r, f, io)
    ensures Healthy(h, f, io) ==> forall u :: MarkPosted(u) in tr ==> IsThreadPosted(r, f, u, true)
    ensures (forall u :: MarkPosted(u) !in tr) ==> r == h
    ensures h.env.NoEnv? && !io.readOk && io.writeOk ==>
      (forall u :: MarkPosted(u) !in tr) || forall g, u, ok :: g != f ==> !IsThreadPosted(r, g, u, ok)
  {
    if tr == [] then h
    else
      var h1 := if tr[0].MarkPosted? then MarkAsPosted(h, f, tr[0].stage, io) else h;
      assert forall u :: MarkPosted(u) in tr ==> tr[0] == MarkPosted(u) || MarkPosted(u) in tr[1..];
      ApplyMarks(h1, f, io, tr[1..])
  }

  /**
   * `start`: preview (which may throw), then skip if posted, else run
   * `createAndPostThread`. `checkOk` is the outcome of the check's own read,
   * `io` that of the marks. The result is the run that happened and the host after it.
   */
  function Start(previewOk: bool, h: Host, f: int, t: Stage, checkOk: bool, io: Io, run: Run): (r: (Run, Host))
    ensures IsThreadPosted(h, f, t, checkOk) ==> PublishCount(r.0.effects) == 0 && r.1 == h
    ensures !previewOk ==> r.0 == Run([], true) && r.1 == h
    ensures previewOk && !IsThreadPosted(h, f, t, checkOk) ==> r.0 == run
    ensures KeepsMarks(h, io) ==> forall g, u, ok :: IsThreadPosted(h, g, u, ok) ==> IsThreadPosted(r.1, g, u, ok)
  {
    if !previewOk then (Run([], true), h)
    else if IsThreadPosted(h, f, t, checkOk) then (Run([], false), h)
    else (run, ApplyMarks(h, f, io, run.effects))
  }

  /**
   * With a healthy ledger, a stage whose run marks it is published at most by
   * the first `start`: a second `start` whose check reads the ledger
   * publishes nothing, whatever the first check and the later marks see.
   */
  lemma SecondStartPublishesNothing(h: Host, f: int, t: Stage, check1: bool, io: Io, run: Run,
                                    io2: Io, run2: Run)
    requires Healthy(h, f, io) && MarkPosted(t) in run.effects
    ensures var h1 := Start(true, h, f, t, check1, io, run).1;
      PublishCount(Start(true, h1, f, t, true, io2, run2).0.effects) == 0
  {
  }

  /**
   * With the file ledger, a mark whose read fails loses the other fixtures'
   * flags: after fixture 200's match thread is marked that way, the pre-match
   * thread of fixture 100, which was on file, runs again.
   */
  lemma FileReadFailureRepublishes(t: Stage, run: Run, io2: Io, run2: Run)
    requires MarkPosted(MatchThread) in run.effects
    ensures var h := Host(NoEnv, Stored(map[100 := map[PreMatch := Bool(true)]]));
      var h1 := Start(true, h, 200, MatchThread, true, Io(false, true), run).1;
      && Start(true, h, 100, PreMatch, true, io2, run2).0.effects == []
      && Start(true, h1, 100, PreMatch, true, io2, run2).0 == run2
  {
  }

  /**
   * As written a stage does not see a mark held in the key-value ledger and
   * runs again; with the `env` handed on, the mark is seen and nothing is
   * published.
   */
  lemma StageHostCorrectionDiffers(b: Kv.Binding, disk: Disk, f: int, t: Stage, io: Io, run: Run)
    requires Kv.IsThreadPosted(b, f, t, true) && !File.IsThreadPosted(disk, f, t, true)
    ensures Start(true, StageHostAsWritten(WithEnv(b), disk), f, t, true, io, run).0 == run
    ensures PublishCount(Start(true, StageHost(WithEnv(b), disk), f, t, true, io, run).0.effects) == 0
  {
  }

  /**
   * When the checks' key-value reads fail, the ledger answers "not posted",
   * so every `start` runs the whole stage again, even after a mark that
   * stuck: the backend fails open.
   */
  lemma KvReadFailureRepublishes(b: Kv.Binding, disk: Disk, f: int, t: Stage, io: Io, run: Run, run2: Run)
    ensures var h1 := Start(true, Host(WithEnv(b), disk), f, t, false, io, run).1;
      Start(true, Host(WithEnv(b), disk), f, t, false, io, run).0 == run
      && Start(true, h1, f, t, false, io, run2).0 == run2
  {
  }

  /**
   * `waitUntil`: no timer when the target is not in the future; otherwise one
   * `setTimeout` for the remaining delay, which Node.js cuts to 1 ms when it
   * exceeds the timer range.
   */
  function WaitUntil(target: int, now: int): (tr: seq<Effect>)
    ensures OnlyWaits(tr) && |tr| <= 1
    ensures tr == [] <==> target <= now
    ensures now + TotalWait(tr) == WakeAt(target, now)
    ensures target - now <= MaxTimerDelay ==> now + TotalWait(tr) == if target <= now then now else target
    ensures target - now > MaxTimerDelay ==> tr == [Wait(1)]
  {
    if target <= now then []
    else if target - now > MaxTimerDelay then [Wait(1)]
    else [Wait(target - now)]
  }

  /**
   * A target 30 days ahead is beyond the timer range: the wait that should
   * last a month ends after 1 ms, long before the target.
   */
  lemma FarTargetWakesEarly(now: int)
    ensures var target := now + 30 * 24 * 60 * MinuteMs;
      WaitUntil(target, now) == [Wait(1)] && now + TotalWait(WaitUntil(target, now)) < target
  {
  }

  /**
   * `shouldPostNow` once `getScheduledPostTime` has answered: never when
   * posted, never without a target, otherwise when the target, in minutes from
   * now, lies in (-30, 5].
   */
  function ShouldPostNow(posted: bool, postTime: Option<int>, now: int): (r: bool)
    ensures r <==> !posted && postTime.Some? && -30 * MinuteMs < postTime.value - now <= 5 * MinuteMs
  {
    if posted then false
    else
      match postTime
      case None => false
      case Some(p) =>
        var minutes := (p - now) as real / 60000.0;
        minutes <= 5.0 && minutes > -30.0
  }

  /** The window's edges: five minutes early is in, thirty minutes late is out. */
  lemma ShouldPostNowEdges(now: int)
    ensures ShouldPostNow(false, Some(now + 5 * MinuteMs), now)
    ensures !ShouldPostNow(false, Some(now + 5 * MinuteMs + 1), now)
    ensures ShouldPostNow(false, Some(now - 30 * MinuteMs + 1), now)
    ensures !ShouldPostNow(false, Some(now - 30 * MinuteMs), now)
    ensures !ShouldPostNow(true, Some(now), now)
  {
  }

  /** `getThreadTypeName`. */
  function ThreadTypeName(t: Stage): (r: string)
    ensures r != "Thread"
  {
    match t
    case PreMatch => "Pre-match thread"
    case MatchThread => "Match thread"
    case PostMatch => "Post-match thread"
  }

  /** The three stages have three different names. */
  lemma ThreadTypeNamesDiffer(t: Stage, u: Stage)
    ensures ThreadTypeName(t) == ThreadTypeName(u) <==> t == u
  {
  }
}

=== FILE: common.dfy ===
/** Types shared by every part of the model: optional values and the three thread stages. */
module Common {

  /** A value that may be absent (JavaScript `null` / `undefined`). */
  datatype Option<+T> = None | Some(value: T) {
    function GetOr(default: T): T {
      match this
      case Some(v) => v
      case None => default
    }
  }

  /** The outcome of a call that may throw: its value, or an exception. */
  datatype Result<+T> = Ok(value: T) | Thrown

  /** The three threads posted for one fixture, named after the ledger flag each one owns. */
  datatype Stage = PreMatch | MatchThread | PostMatch


  /** Milliseconds in a minute and in an hour. */
  const MinuteMs: int := 60_000
  const HourMs: int := 3_600_000
}

=== FILE: cron.dfy ===
/**
 * The one-shot cron jobs of the legacy schedulers (`src/scheduler.ts`,
 * `src/schedulerMatchThread.ts`): a UTC date and time to the minute, the
 * five-field cron expression built from it, and the small state machine of
 * `scheduledMatchId` and the scheduled job.
 */
module Cron {
  import opened Common
  import opened Text

  // ---------------------------------------------------------------------------
  // UTC calendar
  // ---------------------------------------------------------------------------

  /** A UTC date and time to the minute, in the proleptic Gregorian calendar; months are 1-based. */
  datatype Moment = Moment(year: int, month: int, day: int, hour: int, minute: int)

  predicate IsLeapYear(y: int) {
    y % 4 == 0 && (y % 100 != 0 || y % 400 == 0)
  }

  function DaysInMonth(y: int, m: int): (n: int)
    requires 1 <= m <= 12
    ensures 28 <= n <= 31
  {
    if m == 2 then (if IsLeapYear(y) then 29 else 28)
    else if m == 4 || m == 6 || m == 9 || m == 11 then 30
    else 31
  }

  predicate Valid(t: Moment) {
    && 1 <= t.month <= 12
    && 1 <= t.day <= DaysInMonth(t.year, t.month)
    && 0 <= t.hour < 24
    && 0 <= t.minute < 60
  }

  function YearLength(y: int): int {
    if IsLeapYear(y) then 366 else 365
  }

  /** Days from 1970-01-01 to January 1 of year `y`. */
  function DaysBeforeYear(y: int): int
    decreases if y >= 1970 then y - 1970 else 1970 - y
  {
    if y == 1970 then 0
    else if y > 1970 then DaysBeforeYear(y - 1) + YearLength(y - 1)
    else DaysBeforeYear(y + 1) - YearLength(y)
  }

  /** Days from January 1 to the first of month `m`. */
  function DaysBeforeMonth(y: int, m: int): (n: int)
    requires 1 <= m <= 12
    ensures 28 * (m - 1) <= n <= 31 * (m - 1)
  {
    if m == 1 then 0 else DaysBeforeMonth(y, m - 1) + DaysInMonth(y, m - 1)
  }

  /** The twelve months fill the year. */
  lemma MonthsFillYear(y: int)
    ensures DaysBeforeMonth(y, 12) + DaysInMonth(y, 12) == YearLength(y)
  {
    var feb := DaysInMonth(y, 2);
    assert DaysBeforeMonth(y, 2) == 31;
    assert DaysBeforeMonth(y, 3) == 31 + feb;
    assert DaysBeforeMonth(y, 4) == 62 + feb;
    assert DaysBeforeMonth(y, 5) == 92 + feb;
    assert DaysBeforeMonth(y, 6) == 123 + feb;
    assert DaysBeforeMonth(y, 7) == 153 + feb;
    assert DaysBeforeMonth(y, 8) == 184 + feb;
    assert DaysBeforeMonth(y, 9) == 215 + feb;
    assert DaysBeforeMonth(y, 10) == 245 + feb;
    assert DaysBeforeMonth(y, 11) == 276 + feb;
    assert DaysBeforeMonth(y, 12) == 306 + feb;
  }

  /** Minutes since 1970-01-01T00:00Z: the instant a moment denotes. */
  function MinuteNumber(t: Moment): int
    requires 1 <= t.month <= 12
  {
    ((DaysBeforeYear(t.year) + DaysBeforeMonth(t.year, t.month) + t.day - 1) * 24 + t.hour) * 60 + t.minute
  }

  /** Two valid moments denoting the same instant are the same moment. */
  lemma {:induction false} MinuteNumberInjective(s: Moment, t: Moment)
    requires Valid(s) && Valid(t) && MinuteNumber(s) == MinuteNumber(t)
    ensures s == t
  {
    var ds := DaysBeforeYear(s.year) + DaysBeforeMonth(s.year, s.month) + s.day - 1;
    var dt := DaysBeforeYear(t.year) + DaysBeforeMonth(t.year, t.month) + t.day - 1;
    assert ds == dt && s.hour == t.hour && s.minute == t.minute by {
      assert (ds * 24 + s.hour) * 60 + s.minute == (dt * 24 + t.hour) * 60 + t.minute;
    }
    DayNumberInjective(s.year, s.month, s.day, t.year, t.month, t.day);
  }

  /** Within a year, day numbers are increasing in (month, day) and stay inside the year. */
  lemma {:induction false} DayOfYearBounds(y: int, m: int, d: int)
    requires 1 <= m <= 12 && 1 <= d <= DaysInMonth(y, m)
    ensures 0 <= DaysBeforeMonth(y, m) + d - 1 < YearLength(y)
    ensures forall m2 :: m < m2 <= 12 ==> DaysBeforeMonth(y, m) + d - 1 < DaysBeforeMonth(y, m2)
  {
    MonthsFillYear(y);
    MonthsIncrease(y, m);
  }

  lemma {:induction false} MonthsIncrease(y: int, m: int)
    requires 1 <= m <= 12
    ensures forall m2 :: m < m2 <= 12 ==> DaysBeforeMonth(y, m) + DaysInMonth(y, m) <= DaysBeforeMonth(y, m2)
    ensures DaysBeforeMonth(y, m) + DaysInMonth(y, m) <= YearLength(y)
    decreases 12 - m
  {
    MonthsFillYear(y);
    if m < 12 {
      MonthsIncrease(y, m + 1);
    }
  }

  /** Years are laid end to end: a later year starts after an earlier one ends. */
  lemma {:induction false} YearsIncrease(y: int, y2: int)
    requires y < y2
    ensures DaysBeforeYear(y) + YearLength(y) <= DaysBeforeYear(y2)
    decreases y2 - y
  {
    if y2 > y + 1 {
      YearsIncrease(y, y2 - 1);
      assert DaysBeforeYear(y2) == DaysBeforeYear(y2 - 1) + YearLength(y2 - 1) by {
        NextYear(y2 - 1);
      }
    } else {
      NextYear(y);
    }
  }

  lemma {:induction false} NextYear(y: int)
    ensures DaysBeforeYear(y + 1) == DaysBeforeYear(y) + YearLength(y)
  {
  }

  lemma {:induction false} DayNumberInjective(y: int, m: int, d: int, y2: int, m2: int, d2: int)
    requires 1 <= m <= 12 && 1 <= d <= DaysInMonth(y, m)
    requires 1 <= m2 <= 12 && 1 <= d2 <= DaysInMonth(y2, m2)
    requires DaysBeforeYear(y) + DaysBeforeMonth(y, m) + d == DaysBeforeYear(y2) + DaysBeforeMonth(y2, m2) + d2
    ensures y == y2 && m == m2 && d == d2
  {
    DayOfYearBounds(y, m, d);
    DayOfYearBounds(y2, m2, d2);
    if y < y2 {
      YearsIncrease(y, y2);
    } else if y2 < y {
      YearsIncrease(y2, y);
    } else if m < m2 {
    } else if m2 < m {
    }
  }

  /**
   * Thirty minutes earlier, borrowing across the hour, the day, the month and
   * the year as needed.
   */
  function MinusThirtyMinutes(t: Moment): (r: Moment)
    requires Valid(t)
    ensures Valid(r)
    ensures MinuteNumber(r) == MinuteNumber(t) - 30
  {
    if t.minute >= 30 then t.(minute := t.minute - 30)
    else if t.hour > 0 then t.(hour := t.hour - 1, minute := t.minute + 30)
    else if t.day > 1 then t.(day := t.day - 1, hour := 23, minute := t.minute + 30)
    else if t.month > 1 then
      Moment(t.year, t.month - 1, DaysInMonth(t.year, t.month - 1), 23, t.minute + 30)
    else
      MonthsFillYear(t.year - 1);
      NextYear(t.year - 1);
      Moment(t.year - 1, 12, 31, 23, t.minute + 30)
  }

  // ---------------------------------------------------------------------------
  // Cron expressions
  // ---------------------------------------------------------------------------

  /** `${minute} ${hour} ${day} ${month} *`: every year on that day of that month, at that time. */
  function CronExpression(t: Moment): (r: string)
    requires Valid(t)
    ensures |r| >= 2 && r[|r| - 2..] == " *"
  {
    NatToString(t.minute) + " " + NatToString(t.hour) + " " + NatToString(t.day) + " " + NatToString(t.month) + " *"
  }

  /** The expression's fields, as a cron parser splits it at the spaces. */
  function CronFields(t: Moment): seq<string>
    requires Valid(t)
  {
    [NatToString(t.minute), NatToString(t.hour), NatToString(t.day), NatToString(t.month), "*"]
  }

  /** The fields contain no space, so the expression is exactly the fields joined by spaces. */
  lemma CronExpressionSplits(t: Moment)
    requires Valid(t)
    ensures CronExpression(t) == Join(" ", CronFields(t))
    ensures forall i :: 0 <= i < 5 ==> forall j :: 0 <= j < |CronFields(t)[i]| ==> CronFields(t)[i][j] != ' '
  {
    var f := CronFields(t);
    assert Join(" ", f) == f[0] + " " + Join(" ", f[1..]);
    assert Join(" ", f[1..]) == f[1] + " " + Join(" ", f[2..]);
    assert Join(" ", f[2..]) == f[2] + " " + Join(" ", f[3..]);
    assert Join(" ", f[3..]) == f[3] + " " + Join(" ", f[4..]);
  }

  /** The expression determines the moment within its year: its fields read back as numbers. */
  lemma CronFieldsReadBack(t: Moment)
    requires Valid(t)
    ensures DigitsValue(CronFields(t)[0]) == t.minute && DigitsValue(CronFields(t)[1]) == t.hour
    ensures DigitsValue(CronFields(t)[2]) == t.day && DigitsValue(CronFields(t)[3]) == t.month
  {
  }

  // ---------------------------------------------------------------------------
  // Scheduling state
  // ---------------------------------------------------------------------------

  /** A scheduled job: for which match, at which moment, and whether it is still running. */
  datatype Job = Job(matchId: int, at: Moment, active: bool)

  /** The module-level `scheduledMatchId` and `scheduledCronJob`. */
  datatype State = State(scheduledMatchId: Option<int>, job: Option<Job>)

  const Idle := State(None, None)

  /** `scheduledCronJob.stop()`, when there is a job. */
  function StopJob(j: Option<Job>): (r: Option<Job>)
    ensures r.Some? <==> j.Some?
    ensures r.Some? ==> r.value == j.value.(active := false)
  {
    match j
    case None => None
    case Some(job) => Some(job.(active := false))
  }

  /**
   * One scheduling round for a fetched match: nothing when there is no match
   * or it is the one already scheduled; otherwise stop the previous job, then
   * schedule a job at `at` and record the match id.
   */
  function Reschedule(s: State, fetched: Option<int>, at: Moment): (r: State)
    ensures fetched.None? || s.scheduledMatchId == fetched ==> r == s
    ensures fetched.Some? && s.scheduledMatchId != fetched ==>
      r == State(fetched, Some(Job(fetched.value, at, true)))
  {
    if fetched.None? || s.scheduledMatchId == fetched then s
    else State(fetched, Some(Job(fetched.value, at, true)))
  }

  /** The job that the round stopped, if it replaced one. */
  function StoppedBy(s: State, fetched: Option<int>): (r: Option<Job>)
    ensures r.Some? ==> s.job.Some? && r.value == s.job.value.(active := false)
    ensures r.Some? <==> fetched.Some? && s.scheduledMatchId != fetched && s.job.Some?
  {
    if fetched.None? || s.scheduledMatchId == fetched then None else StopJob(s.job)
  }

  /** The job's callback, after posting: back to idle. */
  function Fire(s: State): (r: State)
    ensures r == Idle
  {
    Idle
  }

  /** Seeing the same match again never reschedules: the round is idempotent. */
  lemma RescheduleIsIdempotent(s: State, fetched: Option<int>, at: Moment, at2: Moment)
    ensures Reschedule(Reschedule(s, fetched, at), fetched, at2) == Reschedule(s, fetched, at)
    ensures StoppedBy(Reschedule(s, fetched, at), fetched).None?
  {
  }

  /** A match seen again after its job fired is scheduled anew. */
  lemma FiredMatchIsScheduledAgain(s: State, id: int, at: Moment)
    ensures Reschedule(Fire(s), Some(id), at) == State(Some(id), Some(Job(id, at, true)))
  {
  }
}

=== FILE: effects.dfy ===
/**
 * What a scheduler run does to the outside world, as a trace: timer waits,
 * publications (a Reddit submission, or its dry-run stand-in that only logs)
 * and ledger marks. Stating the stage rules over the trace makes "a mark never
 * precedes the publication" and "at most one publication per run" checkable.
 */
module Effects {
  import opened Common

  datatype Effect =
    | Wait(ms: nat)
    | Publish(title: string, body: string, dryRun: bool)
    | MarkPosted(stage: Stage)

  /** A run: its effects in order, and whether it ended by throwing. */
  datatype Run = Run(effects: seq<Effect>, threw: bool)

  /** The number of publications in a trace. */
  function PublishCount(tr: seq<Effect>): (n: nat)
    ensures n <= |tr|
    ensures n == 0 <==> forall i :: 0 <= i < |tr| ==> !tr[i].Publish?
  {
    if tr == [] then 0
    else
      var rest := PublishCount(tr[1..]);
      assert forall i :: 1 <= i < |tr| ==> tr[i] == tr[1..][i - 1];
      (if tr[0].Publish? then 1 else 0) + rest
  }

  lemma {:induction false} PublishCountConcat(a: seq<Effect>, b: seq<Effect>)
    ensures PublishCount(a + b) == PublishCount(a) + PublishCount(b)
  {
    if a != [] {
      assert (a + b)[1..] == a[1..] + b;
      PublishCountConcat(a[1..], b);
    } else {
      assert a + b == b;
    }
  }

  /** Every mark in the trace comes after some publication. */
  predicate MarkAfterPublish(tr: seq<Effect>) {
    forall i :: 0 <= i < |tr| && tr[i].MarkPosted? ==> PublishCount(tr[..i]) > 0
  }

  /** A trace of waits only. */
  predicate OnlyWaits(tr: seq<Effect>) {
    forall i :: 0 <= i < |tr| ==> tr[i].Wait?
  }

  /** The total time a trace spends waiting. */
  function TotalWait(tr: seq<Effect>): (ms: nat)
    ensures OnlyWaits(tr) && |tr| == 1 ==> ms == tr[0].ms
  {
    if tr == [] then 0
    else (if tr[0].Wait? then tr[0].ms else 0) + TotalWait(tr[1..])
  }

  lemma {:induction false} TotalWaitConcat(a: seq<Effect>, b: seq<Effect>)
    ensures TotalWait(a + b) == TotalWait(a) + TotalWait(b)
  {
    if a != [] {
      assert (a + b)[1..] == a[1..] + b;
      TotalWaitConcat(a[1..], b);
    } else {
      assert a + b == b;
    }
  }

  /**
   * The longest delay a Node.js timer honours: `setTimeout` with a larger
   * delay warns and fires after 1 ms instead.
   */
  const MaxTimerDelay: int := 2147483647

  /**
   * When a timer armed at `now` for `target` wakes: at once when the target is
   * not in the future, at the target when it is in timer range, and 1 ms later
   * when it is beyond that range.
   */
  function WakeAt(target: int, now: int): int {
    if target <= now then now
    else if target - now > MaxTimerDelay then now + 1
    else target
  }

  /** The tail every stage shares: publish, then record the stage as posted. */
  function PostAndMark(title: string, body: string, dryRun: bool, t: Stage): (tr: seq<Effect>)
    ensures PublishCount(tr) == 1 && MarkAfterPublish(tr)
    ensures tr[|tr| - 1] == MarkPosted(t)
  {
    var tr := [Publish(title, body, dryRun), MarkPosted(t)];
    assert tr[..1] == [Publish(title, body, dryRun)];
    tr
  }

  /** Waiting first, then publishing and marking, keeps one publication and the mark after it. */
  lemma {:induction false} WaitsThenPostAndMark(waits: seq<Effect>, title: string, body: string, dryRun: bool, t: Stage)
    requires OnlyWaits(waits)
    ensures var tr := waits + PostAndMark(title, body, dryRun, t);
      PublishCount(tr) == 1 && MarkAfterPublish(tr) && tr[|tr| - 1] == MarkPosted(t)
  {
    var tail := PostAndMark(title, body, dryRun, t);
    var tr := waits + tail;
    PublishCountConcat(waits, tail);
    assert PublishCount(waits) == 0;
    forall i | 0 <= i < |tr| && tr[i].MarkPosted? ensures PublishCount(tr[..i]) > 0 {
      assert i == |waits| + 1;
      assert tr[..i] == waits + [tail[0]];
      PublishCountConcat(waits, [tail[0]]);
    }
  }

  /** No effect of a trace marks a stage as posted. */
  predicate NoMarks(tr: seq<Effect>) {
    forall i :: 0 <= i < |tr| ==> !tr[i].MarkPosted?
  }

  /** Waits followed by one publication: one publication, no mark, the waits in front. */
  lemma {:induction false} WaitsThenPublish(wait: seq<Effect>, p: Effect)
    requires OnlyWaits(wait) && p.Publish?
    ensures var tr := wait + [p];
      && PublishCount(tr) == 1 && NoMarks(tr)
      && tr[|tr| - 1] == p && tr[..|tr| - 1] == wait
  {
    var tr := wait + [p];
    PublishCountConcat(wait, [p]);
    assert PublishCount(wait) == 0;
    assert tr[..|tr| - 1] == wait;
    assert forall i :: 0 <= i < |wait| ==> tr[i] == wait[i];
  }
}

=== FILE: file_thread_state.dfy ===
/**
 * The file-backed posted-thread ledger of the Node.js schedulers
 * (`src/utils/threadState.ts`). Every read and write failure is logged and
 * swallowed: a file that is missing or cannot be read or parsed reads as the
 * empty ledger, and a failed write leaves the file as it was. A mark is a
 * read followed by a write, so a read that fails on a good file makes the
 * write replace the whole ledger with the one new flag.
 */
module FileThreadState {
  import opened Common
  import opened Ledger

  /**
   * `readState`: the stored ledger, or the empty ledger on any failure.
   * `readOk` is whether this read of a stored file succeeds; an `Unreadable`
   * file fails every read.
   */
  function ReadState(d: Disk, readOk: bool): (r: Ledger)
    ensures d.Stored? && readOk ==> r == d.ledger
    ensures !(d.Stored? && readOk) ==> forall f, t :: Cell(r, f, t).None?
  {
    match d
    case Stored(l) => if readOk then l else map[]
    case _ => map[]
  }

  /** `writeState`: a successful write replaces the file; a failed one is swallowed. */
  function WriteState(d: Disk, state: Ledger, writeOk: bool): (r: Disk)
    ensures writeOk ==> ReadState(r, true) == state
    ensures !writeOk ==> r == d
  {
    if writeOk then Stored(state) else d
  }

  /**
   * `isThreadPosted`: the stored flag read with `Boolean(...)`, so only a
   * flag stored under the fixture, and truthy, reads as posted, and a failed
   * read answers "not posted".
   */
  function IsThreadPosted(d: Disk, f: int, t: Stage, readOk: bool): (r: bool)
    ensures r <==> readOk && d.Stored? && f in d.ledger && t in d.ledger[f] && Truthy(d.ledger[f][t])
  {
    PostedLoose(ReadState(d, readOk), f, t)
  }

  /** A missing or unreadable file, or a failed read, answers "not posted" for every fixture and stage. */
  lemma NoFileMeansNothingPosted(d: Disk, f: int, t: Stage, readOk: bool)
    requires !d.Stored? || !readOk
    ensures !IsThreadPosted(d, f, t, readOk)
  {
  }

  /**
   * `markThreadPosted`: read, set the one flag, write back. After a good read
   * nothing else changes; after a failed one the write keeps only the new flag.
   */
  function MarkThreadPosted(d: Disk, f: int, t: Stage, readOk: bool, writeOk: bool): (r: Disk)
    ensures writeOk ==> r.Stored? && Cell(r.ledger, f, t) == Some(Bool(true))
    ensures writeOk ==> IsThreadPosted(r, f, t, true)
    ensures !writeOk ==> r == d
    ensures readOk ==> forall g, u :: (g != f || u != t) ==> Cell(ReadState(r, true), g, u) == Cell(ReadState(d, true), g, u)
    ensures readOk ==> forall g, u :: IsThreadPosted(d, g, u, true) ==> IsThreadPosted(r, g, u, true)
    ensures !readOk && writeOk ==> r == Stored(map[f := map[t := Bool(true)]])
  {
    MarkIsMonotone(ReadState(d, readOk), f, t);
    WriteState(d, Mark(ReadState(d, readOk), f, t), writeOk)
  }

  /**
   * A mark whose read fails erases every other flag: with fixture 100's
   * pre-match thread on file, marking fixture 200 after a failed read leaves
   * fixture 100 unposted.
   */
  lemma FailedReadErasesOtherFlags()
    ensures var d := Stored(map[100 := map[PreMatch := Bool(true)]]);
      && IsThreadPosted(d, 100, PreMatch, true)
      && !IsThreadPosted(MarkThreadPosted(d, 200, MatchThread, false, true), 100, PreMatch, true)
      && IsThreadPosted(MarkThreadPosted(d, 200, MatchThread, true, true), 100, PreMatch, true)
  {
  }

  /** A fixture that was absent gets an entry holding just the new flag. */
  lemma MarkCreatesEntry(d: Disk, f: int, t: Stage)
    requires f !in ReadState(d, true)
    ensures MarkThreadPosted(d, f, t, true, true) == Stored(ReadState(d, true)[f := map[t := Bool(true)]])
  {
  }

  /** Marking twice leaves the same file as marking once. */
  lemma MarkThreadPostedIsIdempotent(d: Disk, f: int, t: Stage)
    ensures MarkThreadPosted(MarkThreadPosted(d, f, t, true, true), f, t, true, true) == MarkThreadPosted(d, f, t, true, true)
  {
    MarkIsIdempotent(ReadState(d, true), f, t);
  }
}

=== FILE: fixture.dfy ===
/**
 * The parts of an API-Football fixture record that the bot reads. Optional
 * fields are those the code reads through `?.`, `??` or `||`.
 */
module Fixture {
  import opened Common
  import opened Text

  datatype Team = Team(id: int, name: string)

  datatype Venue = Venue(name: Option<string>, city: Option<string>)

  /** `match.league`: the competition's name and round label, either of which may be `null`. */
  datatype League = League(name: Option<string>, round: Option<string>)

  /**
   * One fixture: its id, kickoff instant in UTC milliseconds, the two teams,
   * the league (absent when the record has none), the venue and the referee.
   */
  datatype Match = Match(
    id: int,
    kickoff: int,
    home: Team,
    away: Team,
    league: Option<League>,
    venue: Option<Venue>,
    referee: Option<string>)
  {
    /** `match.league?.name`: absent when the league or its name is. */
    const leagueName: Option<string> := if league.Some? then league.value.name else None

    /** `match.league?.round`: absent when the league or its round is. */
    const round: Option<string> := if league.Some? then league.value.round else None
  }

  /** The score of one side; `null` until the API fills it in. */
  type Goals = Option<int>

  /** `String(x)` for a score: the digits, or "null". */
  function GoalsText(g: Goals): (r: string)
    ensures r != []
  {
    match g
    case Some(n) => IntToString(n)
    case None => "null"
  }

  /**
   * `venue?.city ?? "Unknown City"`, shared by both match-thread formatters:
   * only a missing venue or city is replaced, so an empty city is kept.
   */
  function City(v: Option<Venue>): (r: string)
    ensures v.Some? && v.value.city.Some? ==> r == v.value.city.value
    ensures v.None? || v.value.city.None? ==> r == "Unknown City"
  {
    OrNullish(if v.Some? then v.value.city else None, "Unknown City")
  }
}

=== FILE: job_mode.dfy ===
/**
 * The job-based decision of `BaseScheduler.shouldPostNow`, across the three
 * stages. The base class leaves `getScheduledPostTime` to its subclasses, but
 * the pre-match and match-thread schedulers do not define it and the
 * post-match one answers `null`; so, as written, a call on an unposted stage
 * either throws (the method is missing) or answers false, and never true.
 * The corrected reading gives the two timed stages their own targets.
 */
module JobMode {
  import opened Common
  import opened Fixture
  import opened BaseScheduler
  import PreStage = PreMatch
  import MatchStage = MatchThread
  import PostStage = PostMatch

  /** What calling `this.getScheduledPostTime()` does: the method is missing, or it returns a target. */
  datatype PostTimeHook = Missing | Returns(target: Option<int>)

  /** The hook as the three subclasses define it. */
  function HookAsWritten(t: Stage, m: Match): (r: PostTimeHook)
    ensures r.Missing? <==> t != PostMatch
    ensures r.Returns? ==> r.target == PostStage.ScheduledPostTime(m)
  {
    match t
    case PreMatch => Missing
    case MatchThread => Missing
    case PostMatch => Returns(PostStage.ScheduledPostTime(m))
  }

  /** `shouldPostNow` as written: the ledger first, then the hook, then the window. */
  function ShouldPostNowAsWritten(t: Stage, m: Match, posted: bool, now: int): (r: Result<bool>)
    ensures posted ==> r == Ok(false)
    ensures !posted && t != PostMatch ==> r.Thrown?
    ensures !posted && t == PostMatch ==> r == Ok(false)
  {
    if posted then Ok(false)
    else
      match HookAsWritten(t, m)
      case Missing => Thrown
      case Returns(target) => Ok(ShouldPostNow(false, target, now))
  }

  /** As written, no stage is ever due: not even at its own target instant. */
  lemma NeverDueAsWritten(t: Stage, m: Match, posted: bool, now: int)
    ensures ShouldPostNowAsWritten(t, m, posted, now) != Ok(true)
  {
  }

  /** The pre-match thread, unposted, at its target and one minute before it: the call throws. */
  lemma PreMatchAtTargetThrows(m: Match)
    ensures ShouldPostNowAsWritten(PreMatch, m, false, PreStage.PostAt(m)).Thrown?
    ensures ShouldPostNowAsWritten(PreMatch, m, false, PreStage.PostAt(m) - MinuteMs).Thrown?
  {
  }

  /**
   * The target each stage's own `createAndPostThread` waits for: 24 hours
   * before kickoff, 8 minutes before kickoff; the post-match stage has none,
   * since it is driven by the match status.
   */
  function IntendedPostTime(t: Stage, m: Match): (r: Option<int>)
    ensures t == PreMatch ==> r == Some(m.kickoff - 24 * HourMs)
    ensures t == MatchThread ==> r == Some(m.kickoff - 8 * MinuteMs)
    ensures t == PostMatch ==> r.None?
  {
    match t
    case PreMatch => Some(PreStage.PostAt(m))
    case MatchThread => Some(MatchStage.PostAt(m))
    case PostMatch => PostStage.ScheduledPostTime(m)
  }

  /** `shouldPostNow` with the hook the base class asks for. */
  function ShouldPostNowIntended(t: Stage, m: Match, posted: bool, now: int): (r: bool)
    ensures r ==> !posted && t != PostMatch
    ensures t != PostMatch && !posted ==>
      (r <==> -30 * MinuteMs < IntendedPostTime(t, m).value - now <= 5 * MinuteMs)
  {
    ShouldPostNow(posted, IntendedPostTime(t, m), now)
  }

  /**
   * Corrected, a timed stage is due from five minutes before its target until
   * just under thirty minutes after it, and never once posted.
   */
  lemma DueAroundTarget(t: Stage, m: Match, now: int)
    requires t != PostMatch
    ensures var target := IntendedPostTime(t, m).value;
      && ShouldPostNowIntended(t, m, false, target)
      && ShouldPostNowIntended(t, m, false, target - 5 * MinuteMs)
      && !ShouldPostNowIntended(t, m, false, target - 5 * MinuteMs - 1)
      && ShouldPostNowIntended(t, m, false, target + 30 * MinuteMs - 1)
      && !ShouldPostNowIntended(t, m, false, target + 30 * MinuteMs)
      && !ShouldPostNowIntended(t, m, true, now)
  {
  }

  /** Where the corrected call answers, the call as written does not agree for the timed stages. */
  lemma CorrectionDiffers(t: Stage, m: Match, now: int)
    requires ShouldPostNowIntended(t, m, false, now)
    ensures ShouldPostNowAsWritten(t, m, false, now).Thrown?
  {
  }
}

=== FILE: kv_refresh_state.dfy ===
/**
 * The refresh throttle on the key-value store (`src/utils/kvRefreshState.ts`):
 * one key holds the last refresh instant as a decimal count of milliseconds.
 * Without the binding, with no key, or on a read error the instant is the
 * epoch; write errors are logged and swallowed.
 */
module KvRefreshState {
  import opened Common
  import opened Text
  import opened RefreshState

  const RefreshKey := "last-refresh-time"

  /** The `REFRESH_STATE` binding: missing, or a store whose `RefreshKey` entry may be absent. */
  datatype Binding = Unbound | Bound(stored: Option<string>)

  /** `getLastRefreshTime(env)`: `parseInt(value, 10)` of the stored text, the epoch when nothing usable is read. */
  function GetLastRefreshTime(b: Binding, readOk: bool): (r: Instant)
    ensures b.Unbound? || !readOk ==> r == Valid(0)
    ensures b.Bound? && readOk && (b.stored.None? || b.stored.value == "") ==> r == Valid(0)
    ensures b.Bound? && readOk && b.stored.Some? && b.stored.value != "" ==>
      (r.NaN? <==> ParseInt10(b.stored.value).None?)
  {
    match b
    case Unbound => Valid(0)
    case Bound(stored) =>
      if !readOk || stored.None? || stored.value == [] then Valid(0)
      else
        match ParseInt10(stored.value)
        case Some(ms) => Valid(ms)
        case None => NaN
  }

  /** `updateRefreshTime(env)`: store `now` in decimal; no binding, or a failed write, changes nothing. */
  function UpdateRefreshTime(b: Binding, now: int, writeOk: bool): (r: Binding)
    ensures b.Unbound? || !writeOk ==> r == b
    ensures b.Bound? && writeOk ==> r == Bound(Some(IntToString(now)))
  {
    match b
    case Unbound => Unbound
    case Bound(_) => if writeOk then Bound(Some(IntToString(now))) else b
  }

  /**
   * `isRefreshNeeded(hours, env)`: measured from the epoch when nothing
   * usable is read, from the parsed instant otherwise, and never when the
   * stored text does not parse (the comparison with `NaN` is false).
   */
  function IsRefreshNeeded(b: Binding, readOk: bool, now: int, hours: int): (r: bool)
    ensures b.Unbound? || !readOk || b.stored.None? || b.stored.value == "" ==> (r <==> now >= hours * HourMs)
    ensures b.Bound? && readOk && b.stored.Some? && b.stored.value != "" ==>
      (r <==> ParseInt10(b.stored.value).Some? && now - ParseInt10(b.stored.value).value >= hours * HourMs)
  {
    HoursPassed(GetLastRefreshTime(b, readOk), now, hours)
  }

  /** The decimal encoding round-trips: after a successful update the stored instant reads back exactly. */
  lemma UpdateThenGet(b: Binding, now: int)
    requires b.Bound?
    ensures GetLastRefreshTime(UpdateRefreshTime(b, now, true), true) == Valid(now)
  {
    ParseIntRoundTrip(now);
  }

  /** So, after a successful update, a refresh is needed exactly once the threshold has passed. */
  lemma UpdateDefersRefresh(b: Binding, t: int, now: int, hours: int)
    requires b.Bound?
    ensures IsRefreshNeeded(UpdateRefreshTime(b, t, true), true, now, hours) <==> now - t >= hours * HourMs
  {
    UpdateThenGet(b, t);
  }

  /** Without the binding an update is lost, and a refresh is needed whenever the epoch is far enough back. */
  lemma UnboundAlwaysRefreshes(t: int, now: int, hours: int)
    requires now >= hours * HourMs
    ensures UpdateRefreshTime(Unbound, t, true) == Unbound
    ensures IsRefreshNeeded(UpdateRefreshTime(Unbound, t, true), true, now, hours)
  {
  }

  /** A failed read also means the epoch, so the stored instant is ignored. */
  lemma ReadFailureRefreshes(b: Binding, now: int, hours: int)
    requires now >= hours * HourMs
    ensures IsRefreshNeeded(b, false, now, hours)
  {
  }

  /** The store and the file agree once each holds the same instant. */
  lemma AgreesWithFile(b: Binding, t: int, now: int, hours: int)
    requires b.Bound?
    ensures IsRefreshNeeded(UpdateRefreshTime(b, t, true), true, now, hours)
      == RefreshState.IsRefreshNeeded(RefreshState.UpdateRefreshTime(RefreshState.Absent, t, true), now, hours)
  {
    UpdateThenGet(b, t);
  }
}

=== FILE: kv_thread_state.dfy ===
/**
 * The posted-thread ledger of the Cloudflare Worker (`src/utils/kvThreadState.ts`):
 * one JSON record per fixture in a key-value namespace, under the key
 * `fixture-<id>`. Both operations fail open: a missing binding, a read error or
 * a record that does not parse answers "not posted", and a failed mark changes
 * nothing and throws nothing.
 */
module KvThreadState {
  import opened Common
  import opened Text
  import opened Ledger

  /**
   * A stored value: an empty string (falsy, treated like a missing key), a JSON
   * object of flags, or text whose `JSON.parse` throws or yields `null` (any
   * property access on it throws).
   */
  datatype KvValue = EmptyText | Record(flags: Flags) | Malformed

  /** The `THREAD_STATE` binding of the environment, if present. */
  datatype Binding = Unbound | Bound(store: map<string, KvValue>)

  /** The key of a fixture's record. */
  function Key(f: int): (k: string)
    ensures |k| > 8 && k[..8] == "fixture-"
  {
    "fixture-" + IntToString(f)
  }

  /** Distinct fixtures never share a record. */
  lemma KeyIsInjective(f: int, g: int)
    ensures Key(f) == Key(g) <==> f == g
  {
    if Key(f) == Key(g) {
      assert IntToString(f) == Key(f)[8..];
      assert IntToString(g) == Key(g)[8..];
      IntToStringInjective(f, g);
    }
  }

  /** `isThreadPosted(f, t, env)`; `readOk` is whether the `get` call succeeds. */
  function IsThreadPosted(b: Binding, f: int, t: Stage, readOk: bool): (r: bool)
    ensures r <==> b.Bound? && readOk && Key(f) in b.store && b.store[Key(f)].Record?
                   && t in b.store[Key(f)].flags && b.store[Key(f)].flags[t] == Bool(true)
  {
    if b.Unbound? || !readOk || Key(f) !in b.store then false
    else
      match b.store[Key(f)]
      case EmptyText => false
      case Malformed => false
      case Record(flags) => t in flags && flags[t] == Bool(true)
  }

  /**
   * `markThreadPosted(f, t, env)`: read the record, set one flag, write it back.
   * `readOk` and `writeOk` say whether the `get` and the `put` succeed.
   */
  function MarkThreadPosted(b: Binding, f: int, t: Stage, readOk: bool, writeOk: bool): (r: Binding)
    ensures b.Unbound? ==> r == b
    ensures !readOk || !writeOk ==> r == b
    ensures b.Bound? ==> r.Bound? && forall k :: k != Key(f) ==> (k in r.store <==> k in b.store)
    ensures b.Bound? ==> forall k :: k != Key(f) && k in b.store ==> r.store[k] == b.store[k]
  {
    if b.Unbound? || !readOk then b
    else
      var stored := if Key(f) in b.store then b.store[Key(f)] else EmptyText;
      match stored
      case Malformed => b
      case EmptyText =>
        if writeOk then Bound(b.store[Key(f) := Record(map[t := Bool(true)])]) else b
      case Record(flags) =>
        if writeOk then Bound(b.store[Key(f) := Record(flags[t := Bool(true)])]) else b
  }

  /** A mark that goes through is read back as posted. */
  lemma MarkThenCheck(b: Binding, f: int, t: Stage)
    requires b.Bound? && (Key(f) in b.store ==> !b.store[Key(f)].Malformed?)
    ensures IsThreadPosted(MarkThreadPosted(b, f, t, true, true), f, t, true)
  {
  }

  /** The other flags already stored for the fixture survive the read-modify-write. */
  lemma MarkKeepsOtherFlags(b: Binding, f: int, t: Stage, u: Stage, ok: bool)
    requires u != t
    ensures IsThreadPosted(MarkThreadPosted(b, f, t, true, true), f, u, ok) == IsThreadPosted(b, f, u, ok)
  {
  }

  /** Marking one fixture never changes the answer for another. */
  lemma MarkIsolatesFixtures(b: Binding, f: int, t: Stage, g: int, u: Stage, readOk: bool, writeOk: bool, ok: bool)
    requires g != f
    ensures IsThreadPosted(MarkThreadPosted(b, f, t, readOk, writeOk), g, u, ok) == IsThreadPosted(b, g, u, ok)
  {
    KeyIsInjective(f, g);
  }

  /** No posted flag is ever cleared by a mark, whatever fails. */
  lemma MarkIsMonotone(b: Binding, f: int, t: Stage, g: int, u: Stage, readOk: bool, writeOk: bool, ok: bool)
    requires IsThreadPosted(b, g, u, ok)
    ensures IsThreadPosted(MarkThreadPosted(b, f, t, readOk, writeOk), g, u, ok)
  {
    KeyIsInjective(f, g);
  }

  /**
   * A record that does not parse is never repaired: it reads as "not posted"
   * before and after every mark, so every later run posts again.
   */
  lemma MalformedRecordStaysUnposted(b: Binding, f: int, t: Stage, readOk: bool, writeOk: bool, ok: bool)
    requires b.Bound? && Key(f) in b.store && b.store[Key(f)] == Malformed
    ensures MarkThreadPosted(b, f, t, readOk, writeOk) == b
    ensures !IsThreadPosted(MarkThreadPosted(b, f, t, readOk, writeOk), f, t, ok)
  {
  }
}

=== FILE: ledger.dfy ===
/**
 * The posted-thread ledger shared by the three storage backends: for every
 * fixture id, the flags `preMatchPosted`, `matchThreadPosted` and
 * `postMatchPosted`.
 *
 * The ledger is parsed JSON, so a flag need not hold a boolean; `NonBool`
 * records any other JSON value together with its JavaScript truthiness. This is
 * what separates the file backend (which reads flags with `Boolean(...)`) from
 * the key-value and legacy backends (which compare with `=== true`).
 */
module Ledger {
  import opened Common

  datatype StoredFlag = Bool(b: bool) | NonBool(truthy: bool)

  type Flags = map<Stage, StoredFlag>
  type Ledger = map<int, Flags>

  /** The JSON file holding a ledger: missing, present but unreadable or unparsable, or parsed. */
  datatype Disk = Absent | Unreadable | Stored(ledger: Ledger)

  predicate Truthy(v: StoredFlag) {
    match v
    case Bool(b) => b
    case NonBool(t) => t
  }

  /** The stored value of one (fixture, stage) cell, if any. */
  function Cell(l: Ledger, f: int, t: Stage): Option<StoredFlag> {
    if f in l && t in l[f] then Some(l[f][t]) else None
  }

  /** `Boolean(state[f]?.[t])` */
  predicate PostedLoose(l: Ledger, f: int, t: Stage) {
    Cell(l, f, t).Some? && Truthy(Cell(l, f, t).value)
  }

  /** `state[f]?.[t] === true` */
  predicate PostedStrict(l: Ledger, f: int, t: Stage) {
    Cell(l, f, t) == Some(Bool(true))
  }

  /** A flag that is strictly true is also truthy. */
  lemma StrictImpliesLoose(l: Ledger, f: int, t: Stage)
    ensures PostedStrict(l, f, t) ==> PostedLoose(l, f, t)
  {
  }

  /**
   * `if (!state[f]) state[f] = {}; state[f][t] = true;` -- the entry for `f` is
   * created when missing, and exactly the cell (f, t) changes.
   */
  function Mark(l: Ledger, f: int, t: Stage): (r: Ledger)
    ensures r.Keys == l.Keys + {f}
    ensures f in l ==> r[f].Keys == l[f].Keys + {t}
    ensures f !in l ==> r[f] == map[t := Bool(true)]
    ensures Cell(r, f, t) == Some(Bool(true))
    ensures forall g, u :: (g != f || u != t) ==> Cell(r, g, u) == Cell(l, g, u)
  {
    var entry := if f in l then l[f] else map[];
    l[f := entry[t := Bool(true)]]
  }

  /** Marking never clears a posted flag, under either reading of a flag. */
  lemma MarkIsMonotone(l: Ledger, f: int, t: Stage)
    ensures forall g, u :: PostedLoose(l, g, u) ==> PostedLoose(Mark(l, f, t), g, u)
    ensures forall g, u :: PostedStrict(l, g, u) ==> PostedStrict(Mark(l, f, t), g, u)
  {
  }

  /** Marking the same cell twice leaves the same ledger as marking it once. */
  lemma MarkIsIdempotent(l: Ledger, f: int, t: Stage)
    ensures Mark(Mark(l, f, t), f, t) == Mark(l, f, t)
  {
    var e := if f in l then l[f] else map[];
    assert e[t := Bool(true)][t := Bool(true)] == e[t := Bool(true)];
  }
}

=== FILE: legacy_match_thread.dfy ===
/**
 * The match-thread scheduler of `src/schedulerMatchThread.ts`: like the
 * oldest scheduler, but the job runs 30 minutes before kickoff, and the round
 * fetches the lineups and previews the thread before it schedules. The
 * previous job is stopped before that fetch, so a fetch or preview that throws
 * leaves the old match recorded with its job stopped.
 *
 * The job's callback is the oldest scheduler's (`LegacyScheduler.JobCallback`):
 * the same formatters and the same reset. The fetched lineups are passed to
 * `formatMatchThread`, which takes no such argument and ignores them.
 *
 * The kickoff is shifted in the Amsterdam zone and converted back to UTC;
 * shifting by a fixed number of minutes does not depend on the zone, so the
 * target is the kickoff's UTC minute less 30 minutes.
 */
module LegacyMatchThread {
  import opened Common
  import opened Fixture
  import opened Effects
  import opened Cron
  import opened LegacyScheduler
  import MatchStage = MatchThread
  import SimpleFormat

  /** The job's moment: thirty minutes before the kickoff minute. */
  function Target(f: Fetched): (t: Moment)
    requires Valid(f.at)
    ensures Valid(t)
    ensures FieldsOf(f.at, f.m.kickoff) ==> MinuteNumber(t) == f.m.kickoff / MinuteMs - 30
  {
    MinusThirtyMinutes(f.at)
  }

  /** This job runs 22 minutes before the minute the newer match-thread stage aims at. */
  lemma TwentyTwoMinutesEarlier(f: Fetched)
    requires FieldsOf(f.at, f.m.kickoff)
    ensures MatchStage.PostAt(f.m) / MinuteMs - MinuteNumber(Target(f)) == 22
  {
    assert MatchStage.PostAt(f.m) == f.m.kickoff - 8 * MinuteMs;
    assert (f.m.kickoff - 8 * MinuteMs) / MinuteMs == f.m.kickoff / MinuteMs - 8;
  }

  /**
   * One round of `scheduleNextMatchThread`. Nothing without a match or for the
   * match already scheduled. Otherwise the previous job is stopped; then the
   * lineups are fetched and the preview formatted, and if either throws the
   * round ends there with the old match id and the stopped job. Else a job
   * at the target replaces the old one and the new match id is recorded.
   */
  function ScheduleNextMatchThread(s: State, fetched: Option<Fetched>, lineupsOk: bool): (r: (State, bool))
    requires fetched.Some? ==> Valid(fetched.value.at)
    ensures fetched.None? || s.scheduledMatchId == Some(fetched.value.m.id) ==> r == (s, false)
    ensures fetched.Some? && s.scheduledMatchId != Some(fetched.value.m.id) ==>
      var f := fetched.value;
      && (r.1 <==> !lineupsOk || f.m.league.None?)
      && (r.1 ==> r.0 == State(s.scheduledMatchId, StoppedBy(s, Some(f.m.id))))
      && (!r.1 ==> r.0 == Reschedule(s, Some(f.m.id), Target(f)))
  {
    match fetched
    case None => (s, false)
    case Some(f) =>
      if s.scheduledMatchId == Some(f.m.id) then (s, false)
      else
        var stopped := StopJob(s.job);
        if !lineupsOk || SimpleFormat.FormatMatchTitle(f.m).Thrown? then (State(s.scheduledMatchId, stopped), true)
        else (State(Some(f.m.id), Some(Job(f.m.id, Target(f), true))), false)
  }

  /**
   * A failed round orphans the old match: if the lineups fetch for a new match
   * throws, the old match keeps its id but its job is stopped, and when the
   * old match is fetched again the round takes it as already scheduled, so
   * its thread is never posted.
   */
  lemma FailedRoundOrphansOldMatch(prev: Fetched, next: Fetched)
    requires Valid(prev.at) && Valid(next.at) && prev.m.id != next.m.id
    ensures var s0 := Reschedule(Idle, Some(prev.m.id), Target(prev));
      var s1 := ScheduleNextMatchThread(s0, Some(next), false);
      && s1.1
      && s1.0.scheduledMatchId == Some(prev.m.id)
      && s1.0.job == Some(Job(prev.m.id, Target(prev), false))
      && ScheduleNextMatchThread(s1.0, Some(prev), true) == (s1.0, false)
  {
  }

  /** A successful round schedules the same state as the oldest scheduler, at the earlier target. */
  lemma AgreesWithOldestScheduler(s: State, f: Fetched)
    requires Valid(f.at) && f.m.league.Some?
    ensures var r := ScheduleNextMatchThread(s, Some(f), true);
      var o := LegacyScheduler.ScheduleNextMatchThread(s, Some(f));
      && !r.1
      && r.0.scheduledMatchId == o.scheduledMatchId
      && (s.scheduledMatchId != Some(f.m.id) ==> r.0.job == Some(o.job.value.(at := Target(f))))
  {
  }
}

=== FILE: legacy_post_match.dfy ===
/**
 * The older stand-alone post-match scheduler (`src/schedulerPostMatchThread.ts`):
 * fetch the next match, wait until two hours after kickoff, then poll the
 * match status every two minutes; at the first finished status stop polling,
 * fetch the final data and post a result thread. It keeps no ledger.
 *
 * The status poll goes through a `fetchMatchStatus` that `src/api.ts` does not
 * export; its answers are an input here, one per tick, each either a short
 * status code or a thrown error (which rejects that tick's callback and
 * leaves polling running). The goal list is the same code as
 * `PostMatch.FormatGoals` and is reused from there.
 */
module LegacyPostMatch {
  import opened Common
  import opened Text
  import opened Fixture
  import opened Effects
  import opened BaseScheduler
  import PostStage = PostMatch

  /** The polling period: two minutes. */
  const PollMs := 2 * 60 * 1000

  /** Polling starts two hours after kickoff. */
  function PollingStart(m: Match): (t: int)
    ensures t - m.kickoff == 2 * HourMs
    ensures t == PostStage.EstimatedEnd(m)
  {
    m.kickoff + 2 * HourMs
  }

  /** One statistics line: the raw label, the home value and the away value (or "-"). */
  function StatLine(home: seq<PostStage.StatEntry>, away: seq<PostStage.StatEntry>, i: nat): (r: string)
    requires i < |home|
    ensures var lead := home[i].kind + ": " + PostStage.ValueText(home[i].value) + " - ";
      |r| >= |lead| && r[..|lead|] == lead
      && r[|lead|..] == PostStage.AwayText(away, i)
  {
    var lead := home[i].kind + ": " + PostStage.ValueText(home[i].value) + " - ";
    var r := lead + PostStage.AwayText(away, i);
    assert r[..|lead|] == lead;
    assert r[|lead|..] == PostStage.AwayText(away, i);
    r
  }

  /** The statistics lines, one per home statistic, paired by position. */
  function StatLines(homeStats: PostStage.TeamStats, awayStats: PostStage.TeamStats): (r: seq<string>)
    ensures |r| == |homeStats.statistics|
    ensures forall i :: 0 <= i < |r| ==> r[i] == StatLine(homeStats.statistics, awayStats.statistics, i)
  {
    var home := homeStats.statistics;
    seq(|home|, i requires 0 <= i < |home| => StatLine(home, awayStats.statistics, i))
  }

  /** The placeholder contains no colon. */
  lemma NoColonInPlaceholder()
    ensures forall i :: 0 <= i < |PostStage.NoStats| ==> PostStage.NoStats[i] != ':'
  {
  }

  /**
   * `formatStats`: the placeholder without two teams; otherwise the lines,
   * joined by newlines, which is never the placeholder (every line holds a
   * colon) and is empty when the home side has no statistics.
   */
  function FormatStats(stats: Option<seq<PostStage.TeamStats>>): (r: string)
    ensures r == PostStage.NoStats <==> stats.None? || |stats.value| < 2
    ensures stats.Some? && |stats.value| >= 2 ==> r == Join("\n", StatLines(stats.value[0], stats.value[1]))
    ensures stats.Some? && |stats.value| >= 2 ==> (r == [] <==> stats.value[0].statistics == [])
  {
    match stats
    case None => PostStage.NoStats
    case Some(s) =>
      if |s| < 2 then PostStage.NoStats
      else
        var lines := StatLines(s[0], s[1]);
        var r := Join("\n", lines);
        if lines == [] then r
        else
          var first := lines[0];
          var home := s[0].statistics;
          var k := |home[0].kind|;
          assert first == StatLine(home, s[1].statistics, 0);
          assert first[k] == ':' by {
            var lead := home[0].kind + ": " + PostStage.ValueText(home[0].value) + " - ";
            assert first[..|lead|] == lead;
            assert lead[k] == ':';
          }
          assert r[k] == ':';
          NoColonInPlaceholder();
          r
  }

  /** The score line from the polled status: raw team names, the extra-time or shoot-out suffix. */
  function ScoreLine(status: string, d: PostStage.FinalData): (r: Result<string>)
    ensures var base := d.home + " " + GoalsText(d.homeGoals) + " x " + GoalsText(d.awayGoals) + " " + d.away;
      && (status == "AET" ==> r == Ok(base + " (após prorrogação)"))
      && (status == "PEN" && d.penalty.Some? ==>
            r == Ok(base + " (pênaltis: " + GoalsText(d.penalty.value.0) + " x " + GoalsText(d.penalty.value.1) + ")"))
      && (status == "PEN" && d.penalty.None? ==> r.Thrown?)
      && (status != "AET" && status != "PEN" ==> r == Ok(base))
  {
    var base := d.home + " " + GoalsText(d.homeGoals) + " x " + GoalsText(d.awayGoals) + " " + d.away;
    if status == "AET" then Ok(base + " (após prorrogação)")
    else if status == "PEN" then
      match d.penalty
      case None => Thrown
      case Some(p) => Ok(base + " (pênaltis: " + GoalsText(p.0) + " x " + GoalsText(p.1) + ")")
    else Ok(base)
  }

  /** The body without the newline the template opens with and the white space it closes with. */
  function Inner(scoreLine: string, d: PostStage.FinalData): (r: string)
    ensures r != [] && r[0] == '#' && r[|r| - 1] == ')'
    ensures var lead := "## 📊 Resultado Final\n\n**" + scoreLine + "**";
      |r| > |lead| && r[..|lead|] == lead
  {
    var lead := "## 📊 Resultado Final\n\n**" + scoreLine + "**";
    var sections := "\n\n---\n\n### ⚽ Gols\n" + PostStage.FormatGoals(d.events)
      + "\n\n---\n\n### 📈 Estatísticas\n" + FormatStats(d.statistics);
    var r := lead + sections + PostStage.Footer;
    assert r[..|lead|] == lead;
    assert r[|r| - 1] == PostStage.Footer[|PostStage.Footer| - 1];
    r
  }

  /** The template's trailing white space, up to the closing backquote. */
  const TemplateEnd := "\n      "

  /** The rendered body is the template trimmed of the white space around it. */
  lemma BodyIsTrimmed(scoreLine: string, d: PostStage.FinalData)
    ensures Trim("\n" + Inner(scoreLine, d) + TemplateEnd) == Inner(scoreLine, d)
  {
    TrimBody(Inner(scoreLine, d), TemplateEnd);
  }

  /** The title and the body posted for a finished status; a missing shoot-out score throws. */
  function Content(status: string, d: PostStage.FinalData): (r: Result<(string, string)>)
    ensures r.Thrown? <==> status == "PEN" && d.penalty.None?
    ensures r.Ok? ==> r.value.0 == "[PÓS-JOGO] " + ScoreLine(status, d).value
    ensures r.Ok? ==> r.value.1 == Inner(ScoreLine(status, d).value, d)
  {
    var line := ScoreLine(status, d);
    if line.Thrown? then Thrown else Ok(("[PÓS-JOGO] " + line.value, Inner(line.value, d)))
  }

  /** A poll's answer counts as finished when it is one of the three final statuses. */
  predicate FinishedAnswer(a: Result<string>) {
    a.Ok? && PostStage.IsFinished(a.value)
  }

  /** The tick at which polling stops: the first finished answer, if any. */
  function FirstFinished(answers: seq<Result<string>>): (k: Option<nat>)
    ensures k.Some? ==>
      && k.value < |answers| && FinishedAnswer(answers[k.value])
      && forall j :: 0 <= j < k.value ==> !FinishedAnswer(answers[j])
    ensures k.None? ==> forall j :: 0 <= j < |answers| ==> !FinishedAnswer(answers[j])
  {
    if answers == [] then None
    else if FinishedAnswer(answers[0]) then Some(0)
    else
      match FirstFinished(answers[1..])
      case None => None
      case Some(k) => Some(k + 1)
  }

  /** Answers after the first finished one are never asked for: extending the sequence changes nothing. */
  lemma {:induction false} FirstFinishedIgnoresLater(answers: seq<Result<string>>, more: seq<Result<string>>)
    requires FirstFinished(answers).Some?
    ensures FirstFinished(answers + more) == FirstFinished(answers)
  {
    if !FinishedAnswer(answers[0]) {
      assert (answers + more)[1..] == answers[1..] + more;
      FirstFinishedIgnoresLater(answers[1..], more);
    }
  }

  /** `n` ticks of the polling interval. */
  function Ticks(n: nat): (tr: seq<Effect>)
    ensures |tr| == n && OnlyWaits(tr) && TotalWait(tr) == n * PollMs
  {
    if n == 0 then [] else [Wait(PollMs)] + Ticks(n - 1)
  }

  /** The waits up to the `n`-th tick: until polling starts, then `n` periods. */
  function Polled(m: Match, now: int, n: nat): (tr: seq<Effect>)
    ensures OnlyWaits(tr) && PublishCount(tr) == 0 && NoMarks(tr)
  {
    WaitUntil(PollingStart(m), now) + Ticks(n)
  }

  /**
   * The `n`-th tick comes `n` periods after the first timer, which ends at
   * the polling start within the timer range (at once when that has passed)
   * and after 1 ms beyond it.
   */
  lemma PolledEndsAt(m: Match, now: int, n: nat)
    ensures now + TotalWait(Polled(m, now, n)) == WakeAt(PollingStart(m), now) + n * PollMs
    ensures PollingStart(m) - now <= MaxTimerDelay ==>
      now + TotalWait(Polled(m, now, n)) == (if PollingStart(m) <= now then now else PollingStart(m)) + n * PollMs
  {
    TotalWaitConcat(WaitUntil(PollingStart(m), now), Ticks(n));
  }

  /** What the tick with a finished answer ends with: the content, or a throw when the final data is missing. */
  function Outcome(status: string, finalData: Result<PostStage.FinalData>): (r: Result<(string, string)>)
    ensures r.Thrown? <==> finalData.Thrown? || Content(status, finalData.value).Thrown?
    ensures r.Ok? ==> r == Content(status, finalData.value)
  {
    if finalData.Thrown? then Thrown else Content(status, finalData.value)
  }

  /** The tick that finds the match finished: after the waits, publish the content, or throw without it. */
  function Finish(polled: seq<Effect>, outcome: Result<(string, string)>, dryRun: bool): (r: Run)
    requires OnlyWaits(polled)
    ensures PublishCount(r.effects) <= 1 && NoMarks(r.effects)
    ensures PublishCount(r.effects) == 1 <==> outcome.Ok?
    ensures r.threw <==> outcome.Thrown?
    ensures |polled| <= |r.effects| <= |polled| + 1 && r.effects[..|polled|] == polled
    ensures outcome.Ok? ==> r.effects == polled + [Publish(outcome.value.0, outcome.value.1, dryRun)]
  {
    match outcome
    case Thrown => Run(polled, true)
    case Ok(c) =>
      var p := Publish(c.0, c.1, dryRun);
      WaitsThenPublish(polled, p);
      Run(polled + [p], false)
  }

  /** The number of ticks polled when some answer is finished: up to and including that one. */
  function StopTick(answers: seq<Result<string>>): (n: nat)
    requires FirstFinished(answers).Some?
    ensures n == FirstFinished(answers).value + 1
  {
    FirstFinished(answers).value + 1
  }

  /**
   * The polling for a fetched match over the answers that arrive: it stops
   * at the first finished answer and ends that tick with its outcome.
   */
  function Polling(m: Match, now: int, answers: seq<Result<string>>,
                   finalData: Result<PostStage.FinalData>, dryRun: bool): (r: Run)
    ensures PublishCount(r.effects) <= 1 && NoMarks(r.effects)
    ensures PublishCount(r.effects) == 1 <==>
      FirstFinished(answers).Some? && Outcome(answers[FirstFinished(answers).value].value, finalData).Ok?
    ensures r.threw <==>
      FirstFinished(answers).Some? && Outcome(answers[FirstFinished(answers).value].value, finalData).Thrown?
    ensures FirstFinished(answers).None? ==> r == Run(Polled(m, now, |answers|), false)
    ensures FirstFinished(answers).Some? ==>
      var polled := Polled(m, now, StopTick(answers));
      |polled| <= |r.effects| <= |polled| + 1 && r.effects[..|polled|] == polled
  {
    match FirstFinished(answers)
    case None => Run(Polled(m, now, |answers|), false)
    case Some(k) => Finish(Polled(m, now, k + 1), Outcome(answers[k].value, finalData), dryRun)
  }

  /**
   * `startPostMatchScheduler` after `fetchNextMatch` has answered, over the
   * poll answers that arrive. Nothing without a match. Otherwise it waits for
   * the polling start, then ticks; at the first finished answer it stops,
   * fetches the final data and publishes. A failed final-data fetch or a
   * missing shoot-out score throws after polling has stopped, so nothing is
   * ever posted for that match. Without a finished answer it is still
   * polling.
   */
  function StartPostMatchScheduler(fetched: Option<Match>, now: int, answers: seq<Result<string>>,
                                   finalData: Result<PostStage.FinalData>, dryRun: bool): (r: Run)
    ensures fetched.None? ==> r == Run([], false)
    ensures PublishCount(r.effects) <= 1 && NoMarks(r.effects)
    ensures PublishCount(r.effects) == 1 <==>
      fetched.Some? && FirstFinished(answers).Some? && Outcome(answers[FirstFinished(answers).value].value, finalData).Ok?
    ensures r.threw <==>
      fetched.Some? && FirstFinished(answers).Some? && Outcome(answers[FirstFinished(answers).value].value, finalData).Thrown?
    ensures fetched.Some? && FirstFinished(answers).None? ==> OnlyWaits(r.effects)
    ensures fetched.Some? && FirstFinished(answers).Some? ==>
      var polled := Polled(fetched.value, now, StopTick(answers));
      |polled| <= |r.effects| <= |polled| + 1 && r.effects[..|polled|] == polled
  {
    match fetched
    case None => Run([], false)
    case Some(m) => Polling(m, now, answers, finalData, dryRun)
  }

  /** Once a finished answer has arrived, later answers change nothing: polling has stopped. */
  lemma PollingStopsAtFinish(m: Match, now: int, answers: seq<Result<string>>, more: seq<Result<string>>,
                             finalData: Result<PostStage.FinalData>, dryRun: bool)
    requires FirstFinished(answers).Some?
    ensures StartPostMatchScheduler(Some(m), now, answers + more, finalData, dryRun)
         == StartPostMatchScheduler(Some(m), now, answers, finalData, dryRun)
  {
    FirstFinishedIgnoresLater(answers, more);
    var k := FirstFinished(answers).value;
    assert (answers + more)[k] == answers[k];
  }
}

=== FILE: legacy_pre_match.dfy ===
/**
 * The older stand-alone pre-match scheduler (`src/schedulePreMatchThread.ts`):
 * fetch the next match, wait until 12 hours before kickoff, then post. It
 * keeps no ledger, so every start posts again. With both dry-run and mock
 * data on, it previews at once without waiting.
 *
 * Its competition and round formatters are the same code as the ones modelled
 * in `PreMatch.FormatCompetitionName` and `MatchFormatters.FormatOrdinalRound`,
 * and are reused from there.
 */
module LegacyPreMatch {
  import opened Common
  import opened Text
  import opened Fixture
  import opened Effects
  import opened BaseScheduler
  import PreStage = PreMatch
  import MatchFormatters

  /** The target instant: kickoff minus 12 hours. */
  function PostAt(m: Match): (t: int)
    ensures m.kickoff - t == 12 * HourMs
  {
    m.kickoff - 12 * HourMs
  }

  /** This scheduler posts twelve hours after the instant the newer pre-match stage aims at. */
  lemma LegacyPostsTwelveHoursLater(m: Match)
    ensures PostAt(m) == PreStage.PostAt(m) + 12 * HourMs
  {
  }

  /** The title: "[PRÉ-JOGO] | competition | HOME X AWAY | round", with no nicknames. */
  function Title(m: Match): (r: string)
    ensures var lead := "[PRÉ-JOGO] | " + PreStage.FormatCompetitionName(OrNullish(m.leagueName, "")) + " | ";
      |r| >= |lead| && r[..|lead|] == lead
    ensures var tail := " | " + MatchFormatters.FormatOrdinalRound(OrFalsy(m.round, ""));
      |r| >= |tail| && r[|r| - |tail|..] == tail
    ensures var lead := "[PRÉ-JOGO] | " + PreStage.FormatCompetitionName(OrNullish(m.leagueName, "")) + " | ";
      var tail := " | " + MatchFormatters.FormatOrdinalRound(OrFalsy(m.round, ""));
      |r| == |lead| + |Upper(m.home.name) + " X " + Upper(m.away.name)| + |tail|
      && r[|lead|..|r| - |tail|] == Upper(m.home.name) + " X " + Upper(m.away.name)
  {
    var lead := "[PRÉ-JOGO] | " + PreStage.FormatCompetitionName(OrNullish(m.leagueName, "")) + " | ";
    var tail := " | " + MatchFormatters.FormatOrdinalRound(OrFalsy(m.round, ""));
    var mid := Upper(m.home.name) + " X " + Upper(m.away.name);
    Framed(lead, mid, tail);
    lead + mid + tail
  }

  /**
   * Unlike the newer stage, this round formatter knows nothing of the
   * Libertadores: a numbered group keeps its number instead of becoming a
   * letter.
   */
  lemma LibertadoresGroupKeepsNumber(n: nat, competitionName: string)
    requires 1 <= n <= 8 && PreStage.IsLibertadores(competitionName)
    ensures MatchFormatters.FormatOrdinalRound("Group Stage - " + NatToString(n)) == "GRUPO " + NatToString(n)
    ensures PreStage.FormatOrdinalRound("Group Stage - " + NatToString(n), competitionName) == "GRUPO " + ["ABCDEFGH"[n - 1]]
    ensures "GRUPO " + NatToString(n) != "GRUPO " + ["ABCDEFGH"[n - 1]]
  {
    LegacyGroupLabel(n);
    PreStage.LibertadoresGroupLabel(n, competitionName);
  }

  /** Here, "Group Stage - N" keeps its number whatever the competition. */
  lemma LegacyGroupLabel(n: nat)
    requires 1 <= n <= 8
    ensures MatchFormatters.FormatOrdinalRound("Group Stage - " + NatToString(n)) == "GRUPO " + NatToString(n)
    ensures "GRUPO " + NatToString(n) != "GRUPO " + ["ABCDEFGH"[n - 1]]
  {
    SingleDigit(n);
    MatchFormatters.OrdinalGroupLabel(NatToString(n));
    NumberIsNotLetter(NatToString(n), ["ABCDEFGH"[n - 1]]);
  }

  /** "GRUPO" and a digit differs from "GRUPO" and a letter. */
  lemma NumberIsNotLetter(w: string, l: string)
    requires |w| == 1 && IsDigit(w[0])
    requires |l| == 1 && IsUpperLetter(l[0])
    ensures "GRUPO " + w != "GRUPO " + l
  {
    assert ("GRUPO " + w)[6] == w[0];
    assert ("GRUPO " + l)[6] == l[0];
  }

  /** A number from 1 to 8 is written as one digit. */
  lemma SingleDigit(n: nat)
    requires 1 <= n <= 8
    ensures |NatToString(n)| == 1 && IsDigit(NatToString(n)[0])
    ensures forall i :: 0 <= i < |NatToString(n)| ==> IsWordChar(NatToString(n)[i])
  {
  }

  /** The body without the newline the template opens with and the "\n  " it closes with. */
  function Inner(venue: Venue, kickoffText: string): (r: string)
    ensures r != [] && r[0] == '#' && r[|r| - 1] == ')'
    ensures var lead := "## 📝 Informações da Partida\n\n🏟️ *" + Interpolated(venue.name) + ", " + Interpolated(venue.city) + "*  ";
      |r| > |lead| && r[..|lead|] == lead
  {
    var lead := "## 📝 Informações da Partida\n\n🏟️ *" + Interpolated(venue.name) + ", " + Interpolated(venue.city) + "*  ";
    var rest := "\n🕓 *Data: " + kickoffText + " (Brasília)*"
      + "\n\n---\n\n⚽️ Vamo Inter! ❤️\n\n---\n^(*Esse post foi criado automaticamente por um bot.*)";
    var r := lead + rest;
    assert r[..|lead|] == lead;
    assert r[|r| - 1] == rest[|rest| - 1];
    r
  }

  /**
   * The rendered body: the template trimmed. `match.fixture.venue` missing
   * makes the render throw. `kickoffText` stands for the kickoff written out
   * in Portuguese in the São Paulo zone.
   */
  function Body(m: Match, kickoffText: string): (r: Result<string>)
    ensures r.Thrown? <==> m.venue.None?
    ensures r.Ok? ==> r.value == Inner(m.venue.value, kickoffText)
  {
    match m.venue
    case None => Thrown
    case Some(v) =>
      var inner := Inner(v, kickoffText);
      TrimAround("\n", inner, "\n  ");
      Ok(Trim("\n" + inner + "\n  "))
  }

  /**
   * The wait before rendering: none when previewing mock data in dry-run
   * mode; otherwise a timer, which ends 1 ms later when the target is beyond
   * the timer range.
   */
  function Delay(m: Match, now: int, dryRun: bool, useMock: bool): (tr: seq<Effect>)
    ensures OnlyWaits(tr)
    ensures now + TotalWait(tr) == if dryRun && useMock then now else WakeAt(PostAt(m), now)
    ensures PostAt(m) - now <= MaxTimerDelay ==>
      now + TotalWait(tr) == if (dryRun && useMock) || PostAt(m) <= now then now else PostAt(m)
  {
    if dryRun && useMock then [] else WaitUntil(PostAt(m), now)
  }

  /**
   * `startPreMatchScheduler` after `fetchNextMatch` has answered: nothing
   * without a match; otherwise wait for the target (not at all when previewing
   * mock data in dry-run mode), render and publish. Nothing is ever marked.
   */
  function StartPreMatchScheduler(fetched: Option<Match>, now: int, dryRun: bool, useMock: bool,
                                  kickoffText: string): (r: Run)
    ensures fetched.None? ==> r == Run([], false)
    ensures PublishCount(r.effects) <= 1 && NoMarks(r.effects)
    ensures fetched.Some? ==> (r.threw <==> fetched.value.venue.None?)
    ensures r.threw ==> OnlyWaits(r.effects)
    ensures fetched.Some? && !r.threw ==>
      var m := fetched.value;
      && |r.effects| >= 1
      && r.effects[|r.effects| - 1] == Publish(Title(m), Body(m, kickoffText).value, dryRun)
      && r.effects[..|r.effects| - 1] == Delay(m, now, dryRun, useMock)
      && now + TotalWait(r.effects[..|r.effects| - 1])
         == (if dryRun && useMock then now else WakeAt(PostAt(m), now))
      && (PostAt(m) - now <= MaxTimerDelay ==>
            now + TotalWait(r.effects[..|r.effects| - 1])
            == if (dryRun && useMock) || PostAt(m) <= now then now else PostAt(m))
  {
    match fetched
    case None => Run([], false)
    case Some(m) =>
      var wait := Delay(m, now, dryRun, useMock);
      var body := Body(m, kickoffText);
      if body.Thrown? then Run(wait, true)
      else
        var p := Publish(Title(m), body.value, dryRun);
        WaitsThenPublish(wait, p);
        Run(wait + [p], false)
  }

  /**
   * A target beyond the timer range is published 1 ms after the start, long
   * before its target: one 1 ms wait, then the post.
   */
  lemma FarTargetPublishesEarly(m: Match, now: int, kickoffText: string)
    requires m.venue.Some? && PostAt(m) - now > MaxTimerDelay
    ensures var r := StartPreMatchScheduler(Some(m), now, false, false, kickoffText);
      && |r.effects| == 2 && r.effects[0] == Wait(1)
      && r.effects[1] == Publish(Title(m), Body(m, kickoffText).value, false)
  {
    var r := StartPreMatchScheduler(Some(m), now, false, false, kickoffText);
    assert Delay(m, now, false, false) == [Wait(1)];
    assert !r.threw;
    assert r.effects[..|r.effects| - 1] == [Wait(1)];
  }

  /** With no ledger, every start that finds a renderable match publishes again. */
  lemma EveryStartPublishes(m: Match, now: int, later: int, dryRun: bool, useMock: bool, kickoffText: string)
    requires m.venue.Some?
    ensures PublishCount(StartPreMatchScheduler(Some(m), now, dryRun, useMock, kickoffText).effects) == 1
    ensures PublishCount(StartPreMatchScheduler(Some(m), later, dryRun, useMock, kickoffText).effects) == 1
  {
    var tr := StartPreMatchScheduler(Some(m), now, dryRun, useMock, kickoffText).effects;
    var tr2 := StartPreMatchScheduler(Some(m), later, dryRun, useMock, kickoffText).effects;
    assert tr[|tr| - 1].Publish? && tr2[|tr2| - 1].Publish?;
  }
}

=== FILE: legacy_scheduler.dfy ===
/**
 * The oldest match-thread scheduler (`src/scheduler.ts`): every six hours it
 * fetches the next match and, unless that match is already scheduled, stops
 * the previous job and schedules a cron job at the kickoff minute (UTC). The
 * job formats with the plain formatters of `src/format.ts`, publishes, and
 * clears the scheduling state.
 */
module LegacyScheduler {
  import opened Common
  import opened Fixture
  import opened Effects
  import opened Cron
  import SimpleFormat

  /** `at` holds the UTC calendar fields of the instant `kickoff`, to the minute. */
  predicate FieldsOf(at: Moment, kickoff: int) {
    Valid(at) && MinuteNumber(at) == kickoff / MinuteMs
  }

  /** A fetched match with the UTC calendar fields of its kickoff. */
  datatype Fetched = Fetched(m: Match, at: Moment)

  /**
   * One round of `scheduleNextMatchThread`: nothing without a match or for the
   * match already scheduled; otherwise the previous job is stopped and a job at
   * the kickoff minute replaces it.
   */
  function ScheduleNextMatchThread(s: State, fetched: Option<Fetched>): (r: State)
    requires fetched.Some? ==> Valid(fetched.value.at)
    ensures fetched.None? ==> r == s
    ensures fetched.Some? && s.scheduledMatchId == Some(fetched.value.m.id) ==> r == s
    ensures fetched.Some? && s.scheduledMatchId != Some(fetched.value.m.id) ==>
      r.scheduledMatchId == Some(fetched.value.m.id)
      && r.job == Some(Job(fetched.value.m.id, fetched.value.at, true))
  {
    match fetched
    case None => s
    case Some(f) => Reschedule(s, Some(f.m.id), f.at)
  }

  /** The cron expression of the job a round schedules. */
  function CronTime(f: Fetched): (r: string)
    requires Valid(f.at)
    ensures r == Text.Join(" ", CronFields(f.at))
  {
    CronExpressionSplits(f.at);
    CronExpression(f.at)
  }

  /**
   * The job's moment is the kickoff's minute: it fires at an instant no later
   * than the kickoff and less than a minute before it.
   */
  lemma JobFiresAtKickoff(s: State, f: Fetched)
    requires FieldsOf(f.at, f.m.kickoff)
    requires s.scheduledMatchId != Some(f.m.id)
    ensures var j := ScheduleNextMatchThread(s, Some(f)).job.value;
      j.at == f.at && j.active
      && MinuteNumber(j.at) * MinuteMs <= f.m.kickoff < MinuteNumber(j.at) * MinuteMs + MinuteMs
  {
  }

  /**
   * The job's callback once the title and the body are formatted: publish and
   * clear the state. When either formatter throws, the callback ends before
   * the reset, so nothing is published and the state is kept.
   */
  function FireJob(s: State, title: Result<string>, body: Result<string>, dryRun: bool): (r: (State, Run))
    ensures title.Thrown? || body.Thrown? ==> r == (s, Run([], true))
    ensures title.Ok? && body.Ok? ==>
      r.0 == Idle && r.1 == Run([Publish(title.value, body.value, dryRun)], false)
  {
    match (title, body)
    case (Ok(t), Ok(b)) => (Fire(s), Run([Publish(t, b, dryRun)], false))
    case _ => (s, Run([], true))
  }

  /**
   * The callback of `scheduler.ts`, with the plain formatters of `format.ts`.
   * They read `match.venue`, which the fetched fixture does not carry, so the
   * venue is absent. `kickoffText` stands for the kickoff rendered by
   * `toLocaleString`.
   */
  function JobCallback(s: State, m: Match, kickoffText: string, dryRun: bool): (r: (State, Run))
    ensures r.1.threw <==> m.league.None?
    ensures r.1.threw ==> r.0 == s && r.1.effects == []
    ensures !r.1.threw ==> r.0 == Idle && |r.1.effects| == 1 && r.1.effects[0].Publish?
  {
    FireJob(s, SimpleFormat.FormatMatchTitle(m), SimpleFormat.FormatMatchThread(m, None, kickoffText), dryRun)
  }

  /**
   * A match without league data is stuck: its job's callback throws before the
   * reset, so the match stays recorded as scheduled and every later round
   * leaves it alone, while nothing is ever published for it.
   */
  lemma LeaguelessMatchStaysScheduled(s: State, f: Fetched, kickoffText: string, dryRun: bool)
    requires Valid(f.at) && f.m.league.None?
    ensures var s1 := ScheduleNextMatchThread(s, Some(f));
      var fired := JobCallback(s1, f.m, kickoffText, dryRun);
      && PublishCount(fired.1.effects) == 0
      && fired.0.scheduledMatchId == Some(f.m.id)
      && ScheduleNextMatchThread(fired.0, Some(f)) == fired.0
  {
  }

  /** After a successful post the state is clear, so the next round schedules whatever it fetches. */
  lemma PostClearsSchedule(s: State, m: Match, kickoffText: string, dryRun: bool, next: Fetched)
    requires m.league.Some? && Valid(next.at)
    ensures var fired := JobCallback(s, m, kickoffText, dryRun);
      && PublishCount(fired.1.effects) == 1
      && ScheduleNextMatchThread(fired.0, Some(next)) == State(Some(next.m.id), Some(Job(next.m.id, next.at, true)))
  {
    var e := JobCallback(s, m, kickoffText, dryRun).1.effects;
    assert e == [e[0]] && [e[0]][1..] == [];
  }
}

=== FILE: legacy_thread_state.dfy ===
/**
 * The original file ledger (`src/threadState.ts`). It has no error handling: a
 * file that cannot be read or parsed makes both operations throw, and so does a
 * failed write.
 */
module LegacyThreadState {
  import opened Common
  import opened Ledger

  /** `readState`: a missing file is the empty ledger; an unreadable one throws. */
  function ReadState(d: Disk): (r: Result<Ledger>)
    ensures d.Absent? ==> r == Ok(map[])
    ensures d.Unreadable? <==> r.Thrown?
    ensures d.Stored? ==> r == Ok(d.ledger)
  {
    match d
    case Absent => Ok(map[])
    case Unreadable => Thrown
    case Stored(l) => Ok(l)
  }

  /** `isThreadPosted`: the flag compared with `=== true`. */
  function IsThreadPosted(d: Disk, f: int, t: Stage): (r: Result<bool>)
    ensures r.Ok? <==> !d.Unreadable?
    ensures r == Ok(true) <==> d.Stored? && PostedStrict(d.ledger, f, t)
  {
    match ReadState(d)
    case Thrown => Thrown
    case Ok(l) => Ok(PostedStrict(l, f, t))
  }

  /** `markThreadPosted`: read, set the one flag, write back; every failure propagates. */
  function MarkThreadPosted(d: Disk, f: int, t: Stage, writeOk: bool): (r: Result<Disk>)
    ensures r.Ok? <==> !d.Unreadable? && writeOk
    ensures r.Ok? ==> r.value.Stored? && PostedStrict(r.value.ledger, f, t)
    ensures r.Ok? && d.Stored? ==>
      forall g, u :: (g != f || u != t) ==> Cell(r.value.ledger, g, u) == Cell(d.ledger, g, u)
    ensures r.Ok? && d.Absent? ==> r.value.ledger == map[f := map[t := Bool(true)]]
  {
    match ReadState(d)
    case Thrown => Thrown
    case Ok(l) => if writeOk then Ok(Stored(Mark(l, f, t))) else Thrown
  }

  /** Mark followed by check answers true. */
  lemma MarkThenCheck(d: Disk, f: int, t: Stage)
    requires !d.Unreadable?
    ensures IsThreadPosted(MarkThreadPosted(d, f, t, true).value, f, t) == Ok(true)
  {
  }

  /** Marking twice gives the same file as marking once. */
  lemma MarkThreadPostedIsIdempotent(d: Disk, f: int, t: Stage)
    requires !d.Unreadable?
    ensures MarkThreadPosted(MarkThreadPosted(d, f, t, true).value, f, t, true) == MarkThreadPosted(d, f, t, true)
  {
    MarkIsIdempotent(ReadState(d).value, f, t);
  }

  /** A flag that is truthy but not `true` counts for the file backend and not for this one. */
  lemma StrictnessDiffers(f: int, t: Stage)
    ensures IsThreadPosted(Stored(map[f := map[t := NonBool(true)]]), f, t) == Ok(false)
    ensures PostedLoose(map[f := map[t := NonBool(true)]], f, t)
  {
  }
}

=== FILE: match_formatters.dfy ===
/**
 * The match-thread formatters (`src/formatters/matchFormatters.ts`): the
 * competition and round labels, the lineup blocks, the title with the
 * opponent's nickname, the last-five results, and the venue and referee
 * defaults of the thread body.
 */
module MatchFormatters {
  import opened Common
  import opened Text
  import opened Patterns
  import opened Fixture
  import opened Nicknames

  // ---------------------------------------------------------------------------
  // Competition
  // ---------------------------------------------------------------------------

  const Brasileirao := "BRASILEIRÃO"

  /** The accent-free spelling of the national league's label. */
  lemma NormalizedBrasileirao()
    ensures Normalized(Brasileirao) == "BRASILEIRAO"
    ensures Contains(Normalized(Brasileirao), "BRASILEIRAO")
  {
    NormalizedSpelling(Brasileirao);
    ContainsWitness("BRASILEIRAO", "BRASILEIRAO", 0);
  }

  lemma NormalizedSpelling(s: string)
    requires s == "BRASILEIRÃO"
    ensures Normalized(s) == "BRASILEIRAO"
  {
    var a := "BRASILEIRAO";
    assert s == a[..9] + ['\U{00C3}'] + a[10..];
    StripAccentsPointwise(s);
    var t := StripAccents(s);
    assert t == a by {
      forall i | 0 <= i < |s|
        ensures t[i] == a[i]
      {
        if i != 9 {
          assert s[i] == a[i];
        }
      }
    }
    assert forall i :: 0 <= i < |a| ==> !IsLowerLetter(a[i]);
  }

  /** Whether a competition name denotes the national league, accents and case aside. */
  predicate IsNationalLeague(name: string) {
    Contains(Normalized(name), "SERIE A") || Contains(Normalized(name), "BRASILEIRAO")
  }

  /**
   * `formatCompetition`: the national league under its one label, every other
   * name upper-cased with its accents kept.
   */
  function FormatCompetition(name: string): (r: string)
    ensures r == Brasileirao <==> IsNationalLeague(name)
    ensures !IsNationalLeague(name) ==> r == Upper(name)
  {
    if IsNationalLeague(name) then Brasileirao
    else
      NormalizedIgnoresCase(name);
      NormalizedBrasileirao();
      Upper(name)
  }

  /** Formatting a formatted name changes nothing. */
  lemma FormatCompetitionIsIdempotent(name: string)
    ensures FormatCompetition(FormatCompetition(name)) == FormatCompetition(name)
  {
    if IsNationalLeague(name) {
      NormalizedBrasileirao();
    } else {
      NormalizedIgnoresCase(name);
      UpperIsIdempotent(name);
    }
  }

  // ---------------------------------------------------------------------------
  // Rounds
  // ---------------------------------------------------------------------------

  /** `formatOrdinalRound`: the season pattern first, then the one-letter group pattern. */
  function FormatOrdinalRound(round: string): (r: string)
    ensures Search(Season, round).None? && Search(GroupLetter, round).None? ==> r == Upper(round)
  {
    match Search(Season, round)
    case Some(f) => f.group + "ª RODADA"
    case None =>
      match Search(GroupLetter, round)
      case Some(g) => "GRUPO " + g.group
      case None => Upper(round)
  }

  /** "Regular Season - N" and "Temporada Regular - N" become "Nª RODADA". */
  lemma OrdinalSeasonLabel(d: string)
    requires d != [] && AllDigits(d)
    ensures FormatOrdinalRound("Regular Season - " + d) == d + "ª RODADA"
    ensures FormatOrdinalRound("Temporada Regular - " + d) == d + "ª RODADA"
  {
    RegularSeasonLabel(d);
    TemporadaRegularLabel(d);
  }

  /** "Group Stage - W" keeps only W's first character. */
  lemma OrdinalGroupLabel(w: string)
    requires w != [] && forall i :: 0 <= i < |w| ==> IsWordChar(w[i])
    ensures FormatOrdinalRound("Group Stage - " + w) == "GRUPO " + [w[0]]
  {
    GroupLabelIsNotSeason(w);
    GroupStageLabel(w);
  }

  /** The knock-out names, each replaced at its first occurrence, case-sensitively. */
  function KnockoutLabel(round: string): string {
    Upper(ReplaceFirst(ReplaceFirst(ReplaceFirst(round, "Quarter-finals", "QUARTAS DE FINAL"),
      "Semi-finals", "SEMIFINAL"), "Final", "FINAL"))
  }

  /** `formatRound`: the group pattern first, then the season pattern, then the knock-out names. */
  function FormatRound(round: string): (r: string)
    ensures Search(GroupLetter, round).None? && Search(Season, round).None? ==> r == KnockoutLabel(round)
  {
    match Search(GroupLetter, round)
    case Some(g) => "GRUPO " + g.group
    case None =>
      match Search(Season, round)
      case Some(f) => "RODADA " + f.group
      case None => KnockoutLabel(round)
  }

  /** "Regular Season - N" and "Temporada Regular - N" become "RODADA N". */
  lemma RoundSeasonLabel(d: string)
    requires d != [] && AllDigits(d)
    ensures FormatRound("Regular Season - " + d) == "RODADA " + d
    ensures FormatRound("Temporada Regular - " + d) == "RODADA " + d
  {
    SeasonLabelIsNotGroup(d);
    RegularSeasonLabel(d);
    TemporadaRegularLabel(d);
  }

  /** "Group Stage - W" becomes "GRUPO" and W's first character, as in `formatOrdinalRound`. */
  lemma RoundGroupLabel(w: string)
    requires w != [] && forall i :: 0 <= i < |w| ==> IsWordChar(w[i])
    ensures FormatRound("Group Stage - " + w) == "GRUPO " + [w[0]]
    ensures FormatRound("Group Stage - " + w) == FormatOrdinalRound("Group Stage - " + w)
  {
    GroupLabelIsNotSeason(w);
    GroupStageLabel(w);
  }

  /**
   * The last knock-out replacement is invisible: replacing "Final" by "FINAL"
   * before upper-casing gives what upper-casing alone gives.
   */
  lemma FinalReplacementIsInvisible(s: string)
    ensures Upper(ReplaceFirst(s, "Final", "FINAL")) == Upper(s)
  {
    var r := ReplaceFirst(s, "Final", "FINAL");
    if Contains(s, "Final") {
      var k := FindFrom(s, "Final", 0).value;
      assert s[k..k + 5] == "Final";
      forall i | 0 <= i < |s| ensures UpperChar(r[i]) == UpperChar(s[i]) {
        if k <= i < k + 5 {
          assert r[i] == r[k..k + 5][i - k] == "FINAL"[i - k];
          assert s[i] == s[k..k + 5][i - k] == "Final"[i - k];
        } else if i < k {
          assert r[i] == r[..k][i];
        } else {
          assert r[i] == r[k + 5..][i - k - 5];
        }
      }
    }
  }

  /** So the knock-out label is the first two replacements, upper-cased. */
  lemma KnockoutIgnoresFinal(round: string)
    ensures KnockoutLabel(round) ==
      Upper(ReplaceFirst(ReplaceFirst(round, "Quarter-finals", "QUARTAS DE FINAL"), "Semi-finals", "SEMIFINAL"))
  {
    FinalReplacementIsInvisible(
      ReplaceFirst(ReplaceFirst(round, "Quarter-finals", "QUARTAS DE FINAL"), "Semi-finals", "SEMIFINAL"));
  }

  // ---------------------------------------------------------------------------
  // Lineups
  // ---------------------------------------------------------------------------

  const LineupsUnavailable := "Escalações indisponíveis no momento."
  const InvalidTeam := "**Dados de escalação inválidos**"
  const Unknown := "Desconhecido"

  /** One entry of `startXI` or `substitutes`: `p.player?.name`. */
  datatype LineupPlayer = LineupPlayer(name: Option<string>)

  /**
   * One team of the lineups response. `teamName` is `None` when the `team`
   * field is missing; the player lists hold `None` for the null entries that
   * `filter(Boolean)` removes.
   */
  datatype TeamLineup = TeamLineup(
    teamName: Option<string>,
    coach: Option<string>,
    startXI: Option<seq<Option<LineupPlayer>>>,
    substitutes: Option<seq<Option<LineupPlayer>>>)

  /** `filter(Boolean)`: the non-null entries, in order. */
  function Present(ps: seq<Option<LineupPlayer>>): (r: seq<LineupPlayer>)
    ensures |r| <= |ps|
    ensures forall p :: p in r <==> Some(p) in ps
  {
    if ps == [] then []
    else
      assert forall x :: x in ps <==> x == ps[0] || x in ps[1..];
      (if ps[0].Some? then [ps[0].value] else []) + Present(ps[1..])
  }

  /** Each player's name, "Desconhecido" when missing or empty. */
  function PlayerNames(ps: seq<LineupPlayer>): (r: seq<string>)
    ensures |r| == |ps|
    ensures forall i :: 0 <= i < |ps| ==> r[i] != [] && (r[i] == Unknown || Some(r[i]) == ps[i].name)
  {
    seq(|ps|, i requires 0 <= i < |ps| => OrFalsy(ps[i].name, Unknown))
  }

  /** A starter or bench list: the names joined by ", ", or "N/A" when there are none. */
  function PlayerList(ps: Option<seq<Option<LineupPlayer>>>): (r: string)
    ensures r != []
    ensures ps.None? || Present(ps.value) == [] ==> r == "N/A"
    ensures ps.Some? && Present(ps.value) != [] ==> r == Join(", ", PlayerNames(Present(ps.value)))
  {
    match ps
    case None => "N/A"
    case Some(l) =>
      var names := PlayerNames(Present(l));
      assert names != [] ==> Join(", ", names) != [] by {
        if names != [] { JoinNonEmpty(", ", names); }
      }
      OrFalsy(Some(Join(", ", names)), "N/A")
  }

  /**
   * The block of one team: its name in bold, then the coach ("Desconhecido"
   * when missing or empty), the starting eleven and the bench, one line each.
   */
  function TeamBlock(t: Option<TeamLineup>): (r: string)
    ensures r == InvalidTeam <==> t.None? || t.value.teamName.None?
    ensures r != []
    ensures t.Some? && t.value.teamName.Some? ==>
      var lead := "\n**" + t.value.teamName.value + "**\n👔 Técnico: " + OrFalsy(t.value.coach, Unknown);
      var starters := "  \n🔴 Titulares: " + PlayerList(t.value.startXI);
      var bench := "  \n⚪ Banco: " + PlayerList(t.value.substitutes) + "\n";
      && |r| == |lead| + |starters| + |bench|
      && r[..|lead|] == lead
      && r[|lead|..|lead| + |starters|] == starters
      && r[|r| - |bench|..] == bench
  {
    match t
    case None => InvalidTeam
    case Some(team) =>
      match team.teamName
      case None => InvalidTeam
      case Some(name) =>
        var lead := "\n**" + name + "**\n👔 Técnico: " + OrFalsy(team.coach, Unknown);
        var starters := "  \n🔴 Titulares: " + PlayerList(team.startXI);
        var bench := "  \n⚪ Banco: " + PlayerList(team.substitutes) + "\n";
        Framed(lead, starters, bench);
        lead + starters + bench
  }

  /** A team without a coach, or with an empty coach name, shows "Desconhecido" as its coach. */
  lemma MissingCoachIsUnknown(team: TeamLineup)
    requires team.teamName.Some? && (team.coach.None? || team.coach.value == [])
    ensures var lead := "\n**" + team.teamName.value + "**\n👔 Técnico: Desconhecido";
      |TeamBlock(Some(team))| > |lead| && TeamBlock(Some(team))[..|lead|] == lead
  {
  }

  /** One block per team, in order. */
  function TeamBlocks(l: seq<Option<TeamLineup>>): (r: seq<string>)
    ensures |r| == |l|
    ensures forall i :: 0 <= i < |l| ==> r[i] == TeamBlock(l[i])
  {
    seq(|l|, i requires 0 <= i < |l| => TeamBlock(l[i]))
  }

  /** `formatLineups`: the placeholder for no lineups, otherwise the team blocks joined by a blank line. */
  function FormatLineups(lineups: Option<seq<Option<TeamLineup>>>): (r: string)
    ensures r == LineupsUnavailable <==> lineups.None? || lineups.value == []
    ensures lineups.Some? && lineups.value != [] ==> r == Join("\n\n", TeamBlocks(lineups.value))
    ensures lineups.Some? && lineups.value != [] ==>
      var first := TeamBlock(lineups.value[0]);
      |r| >= |first| && r[..|first|] == first
  {
    match lineups
    case None => LineupsUnavailable
    case Some(l) =>
      if l == [] then LineupsUnavailable
      else
        var blocks := TeamBlocks(l);
        var r := Join("\n\n", blocks);
        assert r[0] == blocks[0][0];
        r
  }

  // ---------------------------------------------------------------------------
  // Title
  // ---------------------------------------------------------------------------

  /**
   * The two names of a title: the home side keeps its official name when it
   * is Internacional, and then the away side gets a nickname; otherwise the
   * home side gets a nickname and the away side keeps its name. Both are
   * upper-cased.
   */
  function TitleSides(home: string, away: string, nicks: Option<Table>, pick: nat): (r: (string, string))
    ensures Contains(home, "Internacional") ==> r.0 == Upper(home)
    ensures !Contains(home, "Internacional") ==> r.1 == Upper(away)
    ensures Contains(home, "Internacional") ==>
      r.1 == Upper(away) || exists n :: n in Candidates(Load(nicks), Trim(away)).GetOr([]) && r.1 == Upper(n)
    ensures !Contains(home, "Internacional") ==>
      r.0 == Upper(home) || exists n :: n in Candidates(Load(nicks), Trim(home)).GetOr([]) && r.0 == Upper(n)
  {
    if Contains(home, "Internacional") then (Upper(home), Upper(GetTeamNickname(nicks, away, pick)))
    else (Upper(GetTeamNickname(nicks, home, pick)), Upper(away))
  }

  /** `formatMatchTitle`: "[JOGO] | competition | HOME X AWAY | round". */
  function FormatMatchTitle(m: Match, nicks: Option<Table>, pick: nat): (r: string)
    ensures var lead := "[JOGO] | " + FormatCompetition(OrFalsy(m.leagueName, "CAMPEONATO")) + " | ";
      |r| >= |lead| && r[..|lead|] == lead
    ensures var tail := " | " + FormatOrdinalRound(OrFalsy(m.round, ""));
      |r| >= |tail| && r[|r| - |tail|..] == tail
    ensures var lead := "[JOGO] | " + FormatCompetition(OrFalsy(m.leagueName, "CAMPEONATO")) + " | ";
      var tail := " | " + FormatOrdinalRound(OrFalsy(m.round, ""));
      var sides := TitleSides(m.home.name, m.away.name, nicks, pick);
      |r| == |lead| + |sides.0 + " X " + sides.1| + |tail| && r[|lead|..|r| - |tail|] == sides.0 + " X " + sides.1
  {
    var sides := TitleSides(m.home.name, m.away.name, nicks, pick);
    var lead := "[JOGO] | " + FormatCompetition(OrFalsy(m.leagueName, "CAMPEONATO")) + " | ";
    var tail := " | " + FormatOrdinalRound(OrFalsy(m.round, ""));
    var mid := sides.0 + " X " + sides.1;
    Framed(lead, mid, tail);
    lead + mid + tail
  }

  /** Without a nickname file the title uses both official names. */
  lemma TitleWithoutNicknames(m: Match, pick: nat)
    ensures var sides := TitleSides(m.home.name, m.away.name, None, pick);
      sides == (Upper(m.home.name), Upper(m.away.name))
  {
    NoFileMeansName(m.home.name, pick);
    NoFileMeansName(m.away.name, pick);
  }

  // ---------------------------------------------------------------------------
  // Last five results
  // ---------------------------------------------------------------------------

  /** A past fixture with its full-time score (`null` until known). */
  datatype PastMatch = PastMatch(home: Team, away: Team, homeGoals: Goals, awayGoals: Goals)

  datatype Verdict = Win | Draw | Loss

  /** What a score is worth in `>` and `<`: `null` converts to 0. */
  function Relational(g: Goals): int {
    match g
    case Some(n) => n
    case None => 0
  }

  /**
   * The verdict from the side of `teamId`: it is the home side when the ids
   * are equal, otherwise it is taken to be the away side.
   */
  function VerdictFor(m: PastMatch, teamId: int): (v: Verdict)
    ensures var own := if m.home.id == teamId then m.homeGoals else m.awayGoals;
      var other := if m.home.id == teamId then m.awayGoals else m.homeGoals;
      && (v == Win <==> Relational(own) > Relational(other))
      && (v == Loss <==> Relational(own) < Relational(other))
      && (v == Draw <==> Relational(own) == Relational(other))
  {
    var isHome := m.home.id == teamId;
    var own := if isHome then m.homeGoals else m.awayGoals;
    var other := if isHome then m.awayGoals else m.homeGoals;
    if Relational(own) > Relational(other) then Win
    else if Relational(own) < Relational(other) then Loss
    else Draw
  }

  function VerdictText(v: Verdict): string {
    match v
    case Win => "✅ Vitória"
    case Draw => "➖ Empate"
    case Loss => "❌ Derrota"
  }

  /** One line: the verdict, the opponent, and the score from the team's side. */
  function ResultLine(m: PastMatch, teamId: int): (r: string)
    ensures var icon := VerdictText(VerdictFor(m, teamId));
      |r| > |icon| && r[..|icon|] == icon
  {
    var isHome := m.home.id == teamId;
    var own := if isHome then m.homeGoals else m.awayGoals;
    var other := if isHome then m.awayGoals else m.homeGoals;
    var opponent := if isHome then m.away.name else m.home.name;
    var icon := VerdictText(VerdictFor(m, teamId));
    var rest := " contra " + opponent + " (" + GoalsText(own) + "x" + GoalsText(other) + ")";
    Framed(icon, rest, []);
    icon + rest
  }

  /** One result line per fixture, in order, each judged from `teamId`'s side. */
  function ResultLines(ms: seq<PastMatch>, teamId: int): (r: seq<string>)
    ensures |r| == |ms|
    ensures forall i :: 0 <= i < |ms| ==> r[i] == ResultLine(ms[i], teamId)
  {
    seq(|ms|, i requires 0 <= i < |ms| => ResultLine(ms[i], teamId))
  }

  /** `formatLastFiveResults`: one line per fixture, in order, joined by newlines. */
  function FormatLast5Results(ms: seq<PastMatch>, teamId: int): (r: string)
    ensures ms == [] <==> r == []
    ensures r == Join("\n", ResultLines(ms, teamId))
    ensures ms != [] ==> var first := ResultLine(ms[0], teamId);
      |r| >= |first| && r[..|first|] == first
  {
    var lines := ResultLines(ms, teamId);
    assert ms != [] ==> Join("\n", lines) != [] by {
      if ms != [] { JoinNonEmpty("\n", lines); }
    }
    Join("\n", lines)
  }

  /** Seen from the two sides of one fixture, a win is the other side's loss and a draw is a draw. */
  lemma VerdictsMirror(m: PastMatch)
    requires m.home.id != m.away.id
    ensures VerdictFor(m, m.home.id) == Win <==> VerdictFor(m, m.away.id) == Loss
    ensures VerdictFor(m, m.home.id) == Loss <==> VerdictFor(m, m.away.id) == Win
    ensures VerdictFor(m, m.home.id) == Draw <==> VerdictFor(m, m.away.id) == Draw
  {
  }

  /** A missing score counts as 0 in the verdict while the line prints "null". */
  lemma MissingScoreCountsAsZero(home: Team, away: Team)
    requires home.id != away.id
    ensures VerdictFor(PastMatch(home, away, None, Some(1)), home.id) == Loss
    ensures VerdictFor(PastMatch(home, away, None, Some(0)), home.id) == Draw
  {
  }

  // ---------------------------------------------------------------------------
  // Venue and referee of the thread body
  // ---------------------------------------------------------------------------

  const OldStadiumName := "Estádio José Pinheiro Borda"
  const StadiumName := "Estádio Beira-Rio"

  /** The stadium line: "Unknown Venue" when missing, and Internacional's ground under its popular name. */
  function Stadium(v: Option<Venue>): (r: string)
    ensures r != OldStadiumName
    ensures v.Some? && v.value.name == Some(OldStadiumName) ==> r == StadiumName
    ensures v.None? || v.value.name.None? ==> r == "Unknown Venue"
    ensures v.Some? && v.value.name.Some? && v.value.name.value != OldStadiumName ==> r == v.value.name.value
  {
    var s := OrNullish(if v.Some? then v.value.name else None, "Unknown Venue");
    if s == OldStadiumName then StadiumName else s
  }

  /** The referee: "Desconhecido" when missing or empty. */
  function Referee(m: Match): (r: string)
    ensures r != []
    ensures m.referee.Some? && m.referee.value != [] ==> r == m.referee.value
    ensures m.referee.None? || m.referee.value == [] ==> r == Unknown
  {
    OrFalsy(m.referee, Unknown)
  }

  /** The venue defaults use `??` and the referee default `||`: only an empty referee tells them apart. */
  lemma EmptyCityKeptEmptyRefereeReplaced(m: Match)
    requires m.venue == Some(Venue(Some("X"), Some([]))) && m.referee == Some([])
    ensures City(m.venue) == [] && Referee(m) == Unknown
  {
  }
}

=== FILE: match_thread.dfy ===
/**
 * The match-thread stage (`src/schedulers/MatchThreadScheduler.ts`): fetch the
 * lineups with retries, build the title and body with the plain formatters of
 * `src/format.ts` (whose body ignores the lineups), wait until eight minutes
 * before kickoff, publish, mark. The class defines no `previewThreadContent`,
 * so the inherited `start` throws before doing anything.
 */
module MatchThread {
  import opened Common
  import opened Fixture
  import opened Effects
  import opened BaseScheduler
  import SimpleFormat

  /** The outcome of one `fetchLineups` call: it threw, or it returned a list (or `null`). */
  datatype Fetch<T> = Threw | Returned(value: Option<seq<T>>)

  /** `lineups && lineups.length > 0`. */
  predicate Usable<T>(f: Fetch<T>) {
    f.Returned? && f.value.Some? && |f.value.value| > 0
  }

  /**
   * What the `lineups` variable holds after attempts 1..n: the value of the
   * last attempt that did not throw, `null` when every one threw.
   */
  function LastReturned<T>(reply: nat -> Fetch<T>, n: nat): (r: Option<seq<T>>)
    ensures (forall k :: 1 <= k <= n ==> reply(k).Threw?) ==> r.None?
  {
    if n == 0 then None
    else if reply(n).Returned? then reply(n).value
    else LastReturned(reply, n - 1)
  }

  /** The pause after failed attempt `k`: `k * 10000` ms. */
  function Backoff(k: nat): Effect {
    Wait(k * 10000)
  }

  /**
   * `fetchLineupsWithRetry`: up to three attempts, stopping at the first usable
   * list; after failed attempt 1 or 2 it waits 10 s or 20 s, never after the
   * third. Exceptions are absorbed. `reply(k)` is what attempt `k` gets.
   */
  method FetchLineupsWithRetry<T>(reply: nat -> Fetch<T>) returns (lineups: Option<seq<T>>, waits: seq<Effect>, attempts: nat)
    ensures 1 <= attempts <= 3
    ensures forall k :: 1 <= k < attempts ==> !Usable(reply(k))
    ensures Usable(reply(attempts)) || attempts == 3
    ensures Usable(reply(attempts)) ==> lineups == reply(attempts).value
    ensures lineups == LastReturned(reply, attempts)
    ensures |waits| == attempts - 1 && forall i :: 0 <= i < |waits| ==> waits[i] == Backoff(i + 1)
    ensures OnlyWaits(waits) && TotalWait(waits) <= 30000
  {
    lineups := None;
    waits := [];
    attempts := 0;
    var attempt := 1;
    while attempt <= 3
      invariant 1 <= attempt <= 4
      invariant forall k :: 1 <= k < attempt ==> !Usable(reply(k))
      invariant lineups == LastReturned(reply, attempt - 1)
      invariant |waits| == if attempt <= 3 then attempt - 1 else 2
      invariant forall i :: 0 <= i < |waits| ==> waits[i] == Backoff(i + 1)
      invariant TotalWait(waits) == if |waits| == 0 then 0 else if |waits| == 1 then 10000 else 30000
    {
      attempts := attempt;
      var f := reply(attempt);
      if f.Returned? {
        lineups := f.value;
      }
      if Usable(f) {
        return;
      }
      if attempt < 3 {
        TotalWaitConcat(waits, [Backoff(attempt)]);
        waits := waits + [Backoff(attempt)];
      }
      attempt := attempt + 1;
    }
    attempts := 3;
  }

  /** The target instant: kickoff minus eight minutes (the zone change does not move it). */
  function PostAt(m: Match): (t: int)
    ensures m.kickoff - t == 8 * MinuteMs
  {
    m.kickoff - 8 * MinuteMs
  }

  /**
   * `createAndPostThread`: title, lineups, body, preview, then wait, publish,
   * mark. The already-scheduled guard compares with a field nothing assigns,
   * so it never returns early. The wait is measured from the moment the
   * lineup retries end. Without `league` the title throws before any fetch.
   */
  method CreateAndPostThread<T>(m: Match, venue: Option<Venue>, kickoffText: string, now: int,
                                reply: nat -> Fetch<T>, dryRun: bool) returns (r: Run)
    ensures m.league.None? ==> r == Run([], true)
    ensures m.league.Some? ==>
      && !r.threw
      && PublishCount(r.effects) == 1 && MarkAfterPublish(r.effects)
      && |r.effects| >= 2
      && r.effects[|r.effects| - 1] == MarkPosted(MatchThread)
      && r.effects[|r.effects| - 2] ==
           Publish(SimpleFormat.FormatMatchTitle(m).value,
                   SimpleFormat.FormatMatchThread(m, venue, kickoffText).value, dryRun)
      && OnlyWaits(r.effects[..|r.effects| - 2])
      && var published := now + TotalWait(r.effects[..|r.effects| - 2]);
         published >= now
         && (PostAt(m) - now <= MaxTimerDelay ==>
               published >= PostAt(m) && (published > PostAt(m) ==> published <= now + 30000))
         && (PostAt(m) - now > MaxTimerDelay + 30000 ==> published <= now + 30001 < PostAt(m))
  {
    var title := SimpleFormat.FormatMatchTitle(m);
    if title.Thrown? {
      return Run([], true);
    }
    var lineups, lineupWaits, attempts := FetchLineupsWithRetry(reply);
    var body := SimpleFormat.FormatMatchThread(m, venue, kickoffText);
    var afterFetch := now + TotalWait(lineupWaits);
    var wait := WaitUntil(PostAt(m), afterFetch);
    var waits := lineupWaits + wait;
    TotalWaitConcat(lineupWaits, wait);
    var tr := waits + PostAndMark(title.value, body.value, dryRun, MatchThread);
    WaitsThenPostAndMark(waits, title.value, body.value, dryRun, MatchThread);
    assert tr[..|tr| - 2] == waits;
    r := Run(tr, false);
  }
}

=== FILE: nicknames.dfy ===
/**
 * Rival-team nicknames (`src/utils/nicknameUtils.ts`). The nickname file maps a
 * team name to a list of nicknames; `getTeamNickname` picks one at random and
 * `hasNicknames` says whether there is one to pick. The random index is the
 * parameter `pick`, reduced modulo the list length, so every element of the
 * list is a possible answer.
 */
module Nicknames {
  import opened Common
  import opened Text

  /** One key of the `teams` object and its list. */
  datatype Entry = Entry(key: string, nicknames: seq<string>)

  /** The `teams` object, in the order `Object.keys` enumerates it (keys are distinct). */
  type Table = seq<Entry>

  /** `loadNicknameData`: a file that cannot be read or parsed gives the empty table. */
  function Load(file: Option<Table>): (tb: Table)
    ensures file.None? ==> tb == []
  {
    file.GetOr([])
  }

  /** The index of the first entry whose key is exactly `name`. */
  function Exact(tb: Table, name: string): (r: Option<nat>)
    ensures r.Some? ==> r.value < |tb| && tb[r.value].key == name
    ensures r.Some? ==> forall j :: 0 <= j < r.value ==> tb[j].key != name
    ensures r.None? ==> forall j :: 0 <= j < |tb| ==> tb[j].key != name
  {
    if tb == [] then None
    else if tb[0].key == name then Some(0)
    else match Exact(tb[1..], name)
      case None => None
      case Some(i) => Some(i + 1)
  }

  /** `Object.keys(teams).find(key => key.toLowerCase() === name.toLowerCase())`. */
  function CaseInsensitive(tb: Table, name: string): (r: Option<nat>)
    ensures r.Some? ==> r.value < |tb| && Lower(tb[r.value].key) == Lower(name)
    ensures r.Some? ==> forall j :: 0 <= j < r.value ==> Lower(tb[j].key) != Lower(name)
    ensures r.None? ==> forall j :: 0 <= j < |tb| ==> Lower(tb[j].key) != Lower(name)
  {
    if tb == [] then None
    else if Lower(tb[0].key) == Lower(name) then Some(0)
    else match CaseInsensitive(tb[1..], name)
      case None => None
      case Some(i) => Some(i + 1)
  }

  /**
   * The list `getTeamNickname` ends up with: the exact entry when present (an
   * array is truthy even when empty), otherwise the first case-insensitive key
   * unless that key is the empty string, which is falsy.
   */
  function Candidates(tb: Table, name: string): (r: Option<seq<string>>)
    ensures Exact(tb, name).Some? ==> r == Some(tb[Exact(tb, name).value].nicknames)
  {
    match Exact(tb, name)
    case Some(e) => Some(tb[e].nicknames)
    case None =>
      match CaseInsensitive(tb, name)
      case None => None
      case Some(i) => if tb[i].key == [] then None else Some(tb[i].nicknames)
  }

  /** `getTeamNickname(teamName)`. */
  function GetTeamNickname(file: Option<Table>, teamName: string, pick: nat): (r: string)
    ensures var c := Candidates(Load(file), Trim(teamName));
      if c.None? || c.value == [] then r == teamName else r in c.value
  {
    var c := Candidates(Load(file), Trim(teamName));
    if c.None? || c.value == [] then teamName else c.value[pick % |c.value|]
  }

  /**
   * `hasNicknames(teamName)`: yes whenever `getTeamNickname` has a non-empty
   * list to pick from, and only when some key equal to the name up to case
   * holds a non-empty list.
   */
  function HasNicknames(file: Option<Table>, teamName: string): (r: bool)
    ensures var c := Candidates(Load(file), Trim(teamName)); c.Some? && c.value != [] ==> r
    ensures r ==> exists i :: 0 <= i < |Load(file)| && Lower(Load(file)[i].key) == Lower(Trim(teamName))
                                && Load(file)[i].nicknames != []
    ensures file.None? ==> !r
  {
    var tb := Load(file);
    var n := Trim(teamName);
    if Exact(tb, n).Some? && |tb[Exact(tb, n).value].nicknames| > 0 then
      var e := Exact(tb, n).value;
      assert Lower(tb[e].key) == Lower(n) && tb[e].nicknames != [];
      true
    else
      match CaseInsensitive(tb, n)
      case None => false
      case Some(i) =>
        assert Lower(tb[i].key) == Lower(n);
        tb[i].key != [] && |tb[i].nicknames| > 0
  }

  /** Every nickname in the chosen list is a possible answer. */
  lemma EveryCandidateIsReachable(file: Option<Table>, teamName: string, k: nat)
    requires var c := Candidates(Load(file), Trim(teamName)); c.Some? && k < |c.value|
    ensures GetTeamNickname(file, teamName, k) == Candidates(Load(file), Trim(teamName)).value[k]
  {
    var c := Candidates(Load(file), Trim(teamName)).value;
    assert k % |c| == k;
  }

  /** An exact key wins over a case-insensitive one, even when its list is empty. */
  lemma ExactKeyWins(file: Option<Table>, teamName: string, pick: nat)
    requires Exact(Load(file), Trim(teamName)).Some?
    ensures var l := Load(file)[Exact(Load(file), Trim(teamName)).value].nicknames;
      GetTeamNickname(file, teamName, pick) == if l == [] then teamName else l[pick % |l|]
  {
  }

  /** When `hasNicknames` says no, `getTeamNickname` returns the name unchanged. */
  lemma NoNicknamesMeansName(file: Option<Table>, teamName: string, pick: nat)
    requires !HasNicknames(file, teamName)
    ensures GetTeamNickname(file, teamName, pick) == teamName
  {
  }

  /** Without a readable file every name is returned as given. */
  lemma NoFileMeansName(teamName: string, pick: nat)
    ensures GetTeamNickname(None, teamName, pick) == teamName
    ensures !HasNicknames(None, teamName)
  {
  }

  /**
   * The converse fails: when the exact key `name` has an empty list and an
   * earlier key differing only in case has nicknames, `hasNicknames` says yes
   * but `getTeamNickname` still returns the name.
   */
  lemma HasNicknamesButNameReturned(other: string, name: string, l: seq<string>, pick: nat)
    requires other != name && Lower(other) == Lower(name)
    requires name != [] && Trim(name) == name && l != []
    ensures var tb := [Entry(other, l), Entry(name, [])];
      HasNicknames(Some(tb), name) && GetTeamNickname(Some(tb), name, pick) == name
  {
    var tb := [Entry(other, l), Entry(name, [])];
    assert tb[1..][0].key == name;
    assert Exact(tb, name) == Some(1);
    assert CaseInsensitive(tb, name) == Some(0);
  }
}

=== FILE: patterns.dfy ===
/**
 * Hand-written matchers for the few fixed regular expressions the formatters use
 * on a round label, e.g. `/(Regular Season|Temporada Regular)\s*-\s*(\d+)/i` or
 * `/Group Stage - (\w)/i`.
 *
 * Every such expression has the shape  HEAD SEP (CAPTURE)  where HEAD is one of a
 * few literals compared case-insensitively, SEP is either `\s*-\s*` or the literal
 * ` - `, and CAPTURE is `\d+`, `\w+` or `\w`. `String.prototype.match` without the
 * `g` flag returns the leftmost match, which `Search` reproduces; the greedy
 * repetitions are deterministic here because white space, `-`, digits and word
 * characters never overlap where they follow each other.
 */
module Patterns {
  import opened Common
  import opened Text

  datatype Separator =
    | FlexibleDash   // \s*-\s*
    | SpacedDash     // the literal " - "

  datatype Capture =
    | Digits         // (\d+)
    | WordRun        // (\w+)
    | OneWordChar    // (\w)

  /** HEAD SEP (CAPTURE); `heads` are the alternatives, written in lower case. */
  datatype Pattern = Pattern(heads: seq<string>, sep: Separator, capture: Capture)

  /** A successful match: where it starts and the text of the capture group. */
  datatype Found = Found(at: nat, group: string)

  const Season := Pattern(["regular season", "temporada regular"], FlexibleDash, Digits)
  const SeasonEnglish := Pattern(["regular season"], FlexibleDash, Digits)
  const GroupWord := Pattern(["group stage"], SpacedDash, WordRun)
  const GroupLetter := Pattern(["group stage"], SpacedDash, OneWordChar)
  const GroupWordFlexible := Pattern(["group stage"], FlexibleDash, WordRun)

  /** Case folding of the `i` flag: only ASCII letters fold onto the ASCII literals. */
  function AsciiFold(c: char): char {
    if 'A' <= c <= 'Z' then (c as int + 32) as char else c
  }

  predicate CiPrefixAt(s: string, i: nat, lit: string) {
    i + |lit| <= |s| && forall k :: 0 <= k < |lit| ==> AsciiFold(s[i + k]) == lit[k]
  }

  /** What a capture group of kind `cap` can hold. */
  predicate Captures(cap: Capture, g: string) {
    match cap
    case Digits => g != [] && AllDigits(g)
    case WordRun => g != [] && forall i :: 0 <= i < |g| ==> IsWordChar(g[i])
    case OneWordChar => |g| == 1 && IsWordChar(g[0])
  }

  /** Where the separator starting at `j` ends, if it matches there. */
  function SeparatorEnd(sep: Separator, s: string, j: nat): (r: Option<nat>)
    requires j <= |s|
    ensures r.Some? ==> j < r.value <= |s|
  {
    match sep
    case FlexibleDash =>
      var k := RunEnd(s, j, IsJsSpace);
      if k < |s| && s[k] == '-' then Some(RunEnd(s, k + 1, IsJsSpace)) else None
    case SpacedDash =>
      if j + 3 <= |s| && s[j..j + 3] == " - " then Some(j + 3) else None
  }

  /** The capture group starting at `m`; repetitions are greedy. */
  function CaptureAt(cap: Capture, s: string, m: nat): (r: Option<string>)
    requires m <= |s|
    ensures r.Some? ==> Captures(cap, r.value)
  {
    match cap
    case Digits =>
      var e := RunEnd(s, m, IsDigit);
      if e > m then Some(s[m..e]) else None
    case WordRun =>
      var e := RunEnd(s, m, IsWordChar);
      if e > m then Some(s[m..e]) else None
    case OneWordChar =>
      if m < |s| && IsWordChar(s[m]) then Some([s[m]]) else None
  }

  /** Separator then capture, starting right after a head that ended at `j`. */
  function TailAt(p: Pattern, s: string, j: nat): (r: Option<string>)
    requires j <= |s|
    ensures r.Some? ==> Captures(p.capture, r.value)
  {
    match SeparatorEnd(p.sep, s, j)
    case None => None
    case Some(m) => CaptureAt(p.capture, s, m)
  }

  /** Tries the alternatives in order, as the regular-expression engine does. */
  function MatchHeads(heads: seq<string>, p: Pattern, s: string, i: nat): (r: Option<string>)
    ensures r.Some? ==> Captures(p.capture, r.value)
  {
    if heads == [] then None
    else if CiPrefixAt(s, i, heads[0]) && TailAt(p, s, i + |heads[0]|).Some? then
      TailAt(p, s, i + |heads[0]|)
    else MatchHeads(heads[1..], p, s, i)
  }

  /** The capture of a match starting exactly at `i`, if there is one. */
  function MatchAt(p: Pattern, s: string, i: nat): (r: Option<string>)
    ensures r.Some? ==> Captures(p.capture, r.value)
  {
    MatchHeads(p.heads, p, s, i)
  }

  /** The leftmost match starting at or after `i`. */
  function SearchFrom(p: Pattern, s: string, i: nat): (r: Option<Found>)
    decreases |s| + 1 - i
    ensures r.Some? ==> i <= r.value.at <= |s| && MatchAt(p, s, r.value.at) == Some(r.value.group)
    ensures r.Some? ==> forall k :: i <= k < r.value.at ==> MatchAt(p, s, k).None?
    ensures r.None? ==> forall k :: i <= k <= |s| ==> MatchAt(p, s, k).None?
  {
    if i > |s| then None
    else
      match MatchAt(p, s, i)
      case Some(g) => Some(Found(i, g))
      case None => SearchFrom(p, s, i + 1)
  }

  /** `s.match(p)` without the `g` flag. */
  function Search(p: Pattern, s: string): (r: Option<Found>)
    ensures r.Some? ==> Captures(p.capture, r.value.group)
  {
    SearchFrom(p, s, 0)
  }

  /** A match at the very start is the one `Search` reports. */
  lemma SearchAtStart(p: Pattern, s: string, g: string)
    requires MatchAt(p, s, 0) == Some(g)
    ensures Search(p, s) == Some(Found(0, g))
  {
  }

  // ---------------------------------------------------------------------------
  // The canonical labels the football API uses
  // ---------------------------------------------------------------------------

  lemma HeadAtStart(shown: string, lit: string, s: string, rest: string)
    requires s == shown + rest && |shown| == |lit|
    requires forall k :: 0 <= k < |lit| ==> AsciiFold(shown[k]) == lit[k]
    ensures CiPrefixAt(s, 0, lit)
  {
    assert forall k :: 0 <= k < |lit| ==> s[k] == shown[k];
  }

  lemma DigitsToEnd(s: string, m: nat)
    requires m < |s| && forall i :: m <= i < |s| ==> IsDigit(s[i])
    ensures CaptureAt(Digits, s, m) == Some(s[m..])
  {
    RunEndCoversAll(s, m, IsDigit);
    assert s[m..|s|] == s[m..];
  }

  lemma WordsToEnd(s: string, m: nat)
    requires m < |s| && forall i :: m <= i < |s| ==> IsWordChar(s[i])
    ensures CaptureAt(WordRun, s, m) == Some(s[m..])
  {
    RunEndCoversAll(s, m, IsWordChar);
    assert s[m..|s|] == s[m..];
  }

  /** "Regular Season - N" is read back as the digits N. */
  lemma {:induction false} RegularSeasonLabel(d: string)
    requires d != [] && AllDigits(d)
    ensures Search(Season, "Regular Season - " + d) == Some(Found(0, d))
    ensures Search(SeasonEnglish, "Regular Season - " + d) == Some(Found(0, d))
  {
    var s := "Regular Season - " + d;
    HeadAtStart("Regular Season", "regular season", s, " - " + d);
    assert s[14] == ' ' && s[15] == '-' && s[16] == ' ';
    assert RunEnd(s, 14, IsJsSpace) == 15 by {
      assert RunEnd(s, 15, IsJsSpace) == 15;
    }
    assert RunEnd(s, 16, IsJsSpace) == 17 by {
      assert s[17] == d[0];
      assert RunEnd(s, 17, IsJsSpace) == 17;
    }
    assert s[17..] == d;
    DigitsToEnd(s, 17);
    assert TailAt(Season, s, 14) == Some(d);
    assert MatchAt(Season, s, 0) == Some(d);
    SearchAtStart(Season, s, d);
    assert MatchAt(SeasonEnglish, s, 0) == Some(d);
    SearchAtStart(SeasonEnglish, s, d);
  }

  /** "Temporada Regular - N" is read back as the digits N. */
  lemma {:induction false} TemporadaRegularLabel(d: string)
    requires d != [] && AllDigits(d)
    ensures Search(Season, "Temporada Regular - " + d) == Some(Found(0, d))
  {
    var s := "Temporada Regular - " + d;
    assert !CiPrefixAt(s, 0, "regular season") by {
      assert s[0] == 'T';
      assert AsciiFold(s[0 + 0]) != "regular season"[0];
    }
    HeadAtStart("Temporada Regular", "temporada regular", s, " - " + d);
    assert s[17] == ' ' && s[18] == '-' && s[19] == ' ';
    assert RunEnd(s, 17, IsJsSpace) == 18 by {
      assert RunEnd(s, 18, IsJsSpace) == 18;
    }
    assert RunEnd(s, 19, IsJsSpace) == 20 by {
      assert s[20] == d[0];
      assert RunEnd(s, 20, IsJsSpace) == 20;
    }
    assert s[20..] == d;
    DigitsToEnd(s, 20);
    assert TailAt(Season, s, 17) == Some(d);
    assert Season.heads[1..] == ["temporada regular"];
    assert MatchHeads(Season.heads[1..], Season, s, 0) == Some(d);
    assert MatchAt(Season, s, 0) == Some(d);

    SearchAtStart(Season, s, d);
  }

  /** "Group Stage - W" is read back as W by `(\w+)` and as W's first character by `(\w)`. */
  lemma {:induction false} GroupStageLabel(w: string)
    requires w != [] && forall i :: 0 <= i < |w| ==> IsWordChar(w[i])
    ensures Search(GroupWord, "Group Stage - " + w) == Some(Found(0, w))
    ensures Search(GroupWordFlexible, "Group Stage - " + w) == Some(Found(0, w))
    ensures Search(GroupLetter, "Group Stage - " + w) == Some(Found(0, [w[0]]))
  {
    var s := "Group Stage - " + w;
    HeadAtStart("Group Stage", "group stage", s, " - " + w);
    assert s[11..14] == " - ";
    assert s[14..] == w;
    WordsToEnd(s, 14);
    assert s[14] == w[0];
    assert MatchAt(GroupWord, s, 0) == Some(w);
    SearchAtStart(GroupWord, s, w);
    assert MatchAt(GroupLetter, s, 0) == Some([w[0]]);
    SearchAtStart(GroupLetter, s, [w[0]]);
    assert RunEnd(s, 11, IsJsSpace) == 12 by {
      assert RunEnd(s, 12, IsJsSpace) == 12;
    }
    assert RunEnd(s, 13, IsJsSpace) == 14 by {
      assert RunEnd(s, 14, IsJsSpace) == 14;
    }
    assert MatchAt(GroupWordFlexible, s, 0) == Some(w);
    SearchAtStart(GroupWordFlexible, s, w);
  }

  // ---------------------------------------------------------------------------
  // Texts the patterns do not match
  // ---------------------------------------------------------------------------

  lemma {:induction false} MatchHeadsNone(heads: seq<string>, p: Pattern, s: string, i: nat)
    requires forall h :: h in heads ==> !CiPrefixAt(s, i, h)
    ensures MatchHeads(heads, p, s, i).None?
  {
    if heads != [] {
      assert heads[0] in heads;
      assert forall h :: h in heads[1..] ==> h in heads;
      MatchHeadsNone(heads[1..], p, s, i);
    }
  }

  lemma {:induction false} SearchFromNone(p: Pattern, s: string, i: nat)
    requires forall k :: i <= k <= |s| ==> MatchAt(p, s, k).None?
    ensures SearchFrom(p, s, i).None?
    decreases |s| + 1 - i
  {
    if i <= |s| {
      SearchFromNone(p, s, i + 1);
    }
  }

  /** When no alternative of the head occurs anywhere, the expression does not match. */
  lemma NoHeadAnywhere(p: Pattern, s: string)
    requires forall k, h :: 0 <= k <= |s| && h in p.heads ==> !CiPrefixAt(s, k, h)
    ensures Search(p, s).None?
  {
    forall k | 0 <= k <= |s| ensures MatchAt(p, s, k).None? {
      MatchHeadsNone(p.heads, p, s, k);
    }
    SearchFromNone(p, s, 0);
  }

  /** Where the letters the heads start with, and the spaces, sit in the fixed label prefixes. */
  lemma GroupPrefixLetters(j: nat)
    requires j < 14
    ensures AsciiFold("Group Stage - "[j]) == ' ' <==> j == 5 || j == 11 || j == 13
    ensures AsciiFold("Group Stage - "[j]) == 'r' <==> j == 1
    ensures AsciiFold("Group Stage - "[j]) == 't' <==> j == 7
  {
    var s := "Group Stage - ";
    assert s == ['G','r','o','u','p',' ','S','t','a','g','e',' ','-',' '];
  }

  lemma RegularPrefixLetters(j: nat)
    requires j < 17
    ensures AsciiFold("Regular Season - "[j]) == ' ' <==> j == 7 || j == 14 || j == 16
    ensures AsciiFold("Regular Season - "[j]) == 'g' <==> j == 2
  {
    var s := "Regular Season - ";
    assert s == ['R','e','g','u','l','a','r',' ','S','e','a','s','o','n',' ','-',' '];
  }

  lemma TemporadaPrefixLetters(j: nat)
    requires j < 20
    ensures AsciiFold("Temporada Regular - "[j]) == ' ' <==> j == 9 || j == 17 || j == 19
    ensures AsciiFold("Temporada Regular - "[j]) == 'g' <==> j == 12
  {
    var s := "Temporada Regular - ";
    assert s == ['T','e','m','p','o','r','a','d','a',' ','R','e','g','u','l','a','r',' ','-',' '];
  }

  /** One mismatching position rules out a head at `k`. */
  lemma PrefixMismatch(s: string, k: nat, h: string, j: nat)
    requires j < |h| && k + j < |s| && AsciiFold(s[k + j]) != h[j]
    ensures !CiPrefixAt(s, k, h)
  {
  }

  /** "Group Stage - W", W word characters, is not a season label. */
  lemma GroupLabelIsNotSeason(w: string)
    requires forall i :: 0 <= i < |w| ==> IsWordChar(w[i])
    ensures Search(Season, "Group Stage - " + w).None?
    ensures Search(SeasonEnglish, "Group Stage - " + w).None?
  {
    var s := "Group Stage - " + w;
    // A head's inner space must fall on one of the prefix's spaces, and then
    // its first letter falls where the prefix has a different letter.
    forall k, h | 0 <= k <= |s| && h in Season.heads ensures !CiPrefixAt(s, k, h) {
      var sp := if h == "regular season" then 7 else 9;
      if k + sp < 14 {
        GroupPrefixLetters(k + sp);
        GroupPrefixLetters(k);
        if AsciiFold(s[k + sp]) != h[sp] {
          PrefixMismatch(s, k, h, sp);
        } else {
          PrefixMismatch(s, k, h, 0);
        }
      } else if k + sp < |s| {
        assert s[k + sp] == w[k + sp - 14];
        PrefixMismatch(s, k, h, sp);
      }
    }
    NoHeadAnywhere(Season, s);
    NoHeadAnywhere(SeasonEnglish, s);
  }

  /** A season label with digits N is not a group label. */
  lemma SeasonLabelIsNotGroup(d: string)
    requires AllDigits(d)
    ensures Search(GroupLetter, "Regular Season - " + d).None?
    ensures Search(GroupLetter, "Temporada Regular - " + d).None?
  {
    var s := "Regular Season - " + d;
    forall k, h | 0 <= k <= |s| && h in GroupLetter.heads ensures !CiPrefixAt(s, k, h) {
      assert h == "group stage";
      if k + 5 < 17 {
        RegularPrefixLetters(k + 5);
        RegularPrefixLetters(k);
        if AsciiFold(s[k + 5]) != h[5] {
          PrefixMismatch(s, k, h, 5);
        } else if AsciiFold(s[k]) != h[0] {
          PrefixMismatch(s, k, h, 0);
        } else {
          PrefixMismatch(s, k, h, 1);
        }
      } else if k + 5 < |s| {
        assert s[k + 5] == d[k + 5 - 17];
        PrefixMismatch(s, k, h, 5);
      }
    }
    NoHeadAnywhere(GroupLetter, s);
    var t := "Temporada Regular - " + d;
    forall k, h | 0 <= k <= |t| && h in GroupLetter.heads ensures !CiPrefixAt(t, k, h) {
      assert h == "group stage";
      if k + 5 < 20 {
        TemporadaPrefixLetters(k + 5);
        TemporadaPrefixLetters(k);
        if AsciiFold(t[k + 5]) != h[5] {
          PrefixMismatch(t, k, h, 5);
        } else if AsciiFold(t[k]) != h[0] {
          PrefixMismatch(t, k, h, 0);
        } else {
          PrefixMismatch(t, k, h, 1);
        }
      } else if k + 5 < |t| {
        assert t[k + 5] == d[k + 5 - 20];
        PrefixMismatch(t, k, h, 5);
      }
    }
    NoHeadAnywhere(GroupLetter, t);
  }
}

=== FILE: post_match.dfy ===
/**
 * The post-match stage (`src/schedulers/PostMatchScheduler.ts`). It has no
 * scheduled post time; instead it polls the match status from two hours after
 * kickoff and, on a terminal status, builds the thread from the final match
 * data, publishes it and marks the stage. Every failure inside the stage is
 * caught and logged.
 */
module PostMatch {
  import opened Common
  import opened Text
  import opened Patterns
  import opened Fixture
  import opened Effects
  import opened BaseScheduler
  import MatchFormatters

  // ---------------------------------------------------------------------------
  // Timing and gating
  // ---------------------------------------------------------------------------

  /** `getScheduledPostTime`: always `null`. */
  function ScheduledPostTime(m: Match): (r: Option<int>)
    ensures r.None?
  {
    None
  }

  /** So the inherited window never opens for this stage. */
  lemma NeverDueByWindow(m: Match, posted: bool, now: int)
    ensures !ShouldPostNow(posted, ScheduledPostTime(m), now)
  {
  }

  /** `getEstimatedEndTime`: kickoff plus two hours. */
  function EstimatedEnd(m: Match): (t: int)
    ensures t - m.kickoff == 2 * HourMs
  {
    m.kickoff + 2 * HourMs
  }

  /**
   * `shouldCheckMatchStatus` as written: its first step calls `isAlreadyPosted`,
   * which no class defines, so the call rejects before the clock is read.
   */
  function ShouldCheckMatchStatusAsWritten(m: Match, now: int): (r: Result<bool>)
    ensures r.Thrown?
  {
    Thrown
  }

  /**
   * `shouldCheckMatchStatus` corrected, with `isAlreadyPosted` read as the
   * ledger's answer `posted`: never once posted, otherwise from the estimated end on.
   */
  function ShouldCheckMatchStatus(m: Match, posted: bool, now: int): (r: bool)
    ensures r <==> !posted && now - m.kickoff >= 2 * HourMs
  {
    if posted then false else now >= EstimatedEnd(m)
  }

  /** Once due, polling stays due as time passes, until the stage is posted. */
  lemma CheckStaysDue(m: Match, now: int, later: int)
    requires ShouldCheckMatchStatus(m, false, now) && now <= later
    ensures ShouldCheckMatchStatus(m, false, later)
    ensures !ShouldCheckMatchStatus(m, true, later)
  {
  }

  /**
   * The correction changes every answer: where the corrected check answers
   * (due at the estimated end of an unposted match), the call as written throws.
   */
  lemma CheckCorrectionDiffers(m: Match, posted: bool, now: int)
    ensures ShouldCheckMatchStatusAsWritten(m, now) != Ok(ShouldCheckMatchStatus(m, posted, now))
    ensures ShouldCheckMatchStatus(m, false, EstimatedEnd(m))
    ensures ShouldCheckMatchStatusAsWritten(m, EstimatedEnd(m)).Thrown?
  {
  }

  /** Every short status code of the football data API. */
  const AllStatuses: seq<string> := [
    "TBD", "NS", "PST", "1H", "HT", "2H", "BT", "ET", "P", "SUSP", "INT", "LIVE",
    "FT", "AET", "PEN", "WO", "AWD", "CANC", "ABD"]

  /**
   * The statuses that end a match for this bot: full time, after extra time,
   * penalties; never a pre-match, live or interrupted state.
   */
  function IsFinished(status: string): (r: bool)
    ensures r ==> |status| == 2 || |status| == 3
  {
    status == "FT" || status == "AET" || status == "PEN"
  }

  /** Only codes of the API's status table count as finished: no other text does. */
  lemma FinishedIsApiStatus(status: string)
    ensures IsFinished(status) ==> status in AllStatuses
  {
  }

  /** Of those, exactly three count as finished; walkovers, awards, cancellations and abandonments do not. */
  lemma FinishedStatuses()
    ensures forall i :: 0 <= i < |AllStatuses| ==> (IsFinished(AllStatuses[i]) <==> 12 <= i <= 14)
  {
  }

  // ---------------------------------------------------------------------------
  // Final match data and its formatting
  // ---------------------------------------------------------------------------

  /** One entry of `events`; `elapsed` may be `null`. */
  datatype Event = Event(kind: string, teamName: string, playerName: string, elapsed: Option<int>)

  /** A statistic's value: a number, a text such as "55%", or `null`. */
  datatype StatValue = Number(n: int) | Label(s: string) | Null

  datatype StatEntry = StatEntry(kind: string, value: StatValue)

  datatype TeamStats = TeamStats(teamName: string, statistics: seq<StatEntry>)

  /**
   * What `fetchFinalMatchData` returns. `venue` is `None` when the field is
   * missing; `penalty` is `None` when `score.penalty` is.
   */
  datatype FinalData = FinalData(
    home: string,
    away: string,
    homeGoals: Goals,
    awayGoals: Goals,
    venue: Option<Venue>,
    status: Option<string>,
    penalty: Option<(Goals, Goals)>,
    events: Option<seq<Event>>,
    statistics: Option<seq<TeamStats>>)

  const NoGoals := "_Nenhum gol registrado._"
  const NoStats := "_Estatísticas indisponíveis._"

  /** The events of type "Goal", in order. */
  function GoalsOf(events: seq<Event>): (r: seq<Event>)
    ensures |r| <= |events|
    ensures forall e :: e in r <==> e in events && e.kind == "Goal"
  {
    if events == [] then []
    else
      assert forall x :: x in events <==> x == events[0] || x in events[1..];
      (if events[0].kind == "Goal" then [events[0]] else []) + GoalsOf(events[1..])
  }

  /** Filtering keeps the order: the goals of a concatenation are the goals of each part, in turn. */
  lemma {:induction false} GoalsOfConcat(a: seq<Event>, b: seq<Event>)
    ensures GoalsOf(a + b) == GoalsOf(a) + GoalsOf(b)
  {
    if a != [] {
      assert (a + b)[1..] == a[1..] + b;
      GoalsOfConcat(a[1..], b);
    } else {
      assert a + b == b;
    }
  }

  /** One goal line; a missing minute prints as "null". */
  function GoalLine(e: Event): (r: string)
    ensures |r| > 0 && r[0] == '⚽'
  {
    "⚽️ " + e.teamName + ": " + e.playerName + " (" + GoalsText(e.elapsed) + "')"
  }

  /** One line per goal, in order. */
  function GoalLines(goals: seq<Event>): (r: seq<string>)
    ensures |r| == |goals|
    ensures forall i :: 0 <= i < |goals| ==> r[i] == GoalLine(goals[i])
  {
    seq(|goals|, i requires 0 <= i < |goals| => GoalLine(goals[i]))
  }

  /** `formatGoals`: one line per goal, or the placeholder when there is none. */
  function FormatGoals(events: Option<seq<Event>>): (r: string)
    ensures r == NoGoals <==> GoalsOf(events.GetOr([])) == []
    ensures GoalsOf(events.GetOr([])) != [] ==> r == Join("\n", GoalLines(GoalsOf(events.GetOr([]))))
    ensures GoalsOf(events.GetOr([])) != [] ==>
      var first := GoalLine(GoalsOf(events.GetOr([]))[0]);
      |r| >= |first| && r[..|first|] == first
  {
    var goals := GoalsOf(events.GetOr([]));
    if goals == [] then NoGoals
    else
      var lines := GoalLines(goals);
      var r := Join("\n", lines);
      assert r[0] == lines[0][0];
      r
  }

  /** The translation table of statistic names. */
  const Translations: seq<(string, string)> := [
    ("Ball Possession", "Posse de Bola"),
    ("Total Shots", "Finalizações"),
    ("Shots on Goal", "Finalizações no Gol"),
    ("Shots off Goal", "Finalizações para Fora"),
    ("Blocked Shots", "Finalizações Bloqueadas"),
    ("Shots insidebox", "Finalizações Dentro da Área"),
    ("Shots outsidebox", "Finalizações Fora da Área"),
    ("Fouls", "Faltas"),
    ("Corner Kicks", "Escanteios"),
    ("Offsides", "Impedimentos"),
    ("Yellow Cards", "Cartões Amarelos"),
    ("Red Cards", "Cartões Vermelhos"),
    ("Goalkeeper Saves", "Defesas do Goleiro"),
    ("Total passes", "Total de Passes"),
    ("Passes accurate", "Passes Certos"),
    ("Passes %", "Precisão de Passes"),
    ("Expected goals", "Expected Goals (xG)")]

  /** The translation a table gives `name`, if any key equals it. */
  function Lookup(table: seq<(string, string)>, name: string): (r: Option<string>)
    ensures r.None? <==> forall i :: 0 <= i < |table| ==> table[i].0 != name
    ensures r.Some? ==> exists i :: 0 <= i < |table| && table[i] == (name, r.value)
  {
    if table == [] then None
    else if table[0].0 == name then Some(table[0].1)
    else
      var r := Lookup(table[1..], name);
      assert r.Some? ==> exists i :: 0 <= i < |table[1..]| && table[1..][i] == (name, r.value);
      assert r.Some? ==> exists i :: 1 <= i < |table| && table[i] == (name, r.value);
      r
  }

  /** `translationMap[type] || type`: untranslated names pass through. */
  function Translate(name: string): (r: string)
    ensures (forall i :: 0 <= i < |Translations| ==> Translations[i].0 != name) ==> r == name
    ensures (exists i :: 0 <= i < |Translations| && Translations[i].0 == name) ==>
      exists i :: 0 <= i < |Translations| && Translations[i] == (name, r)
  {
    match Lookup(Translations, name)
    case Some(t) => if t == [] then name else t
    case None => name
  }

  /** No statistic name is its own translation, so a row shows whether its name was translated. */
  lemma TranslationsChangeNames()
    ensures forall i :: 0 <= i < |Translations| ==> Translations[i].0 != Translations[i].1
  {
  }

  /** A table answers with the translation of the first entry whose key is the name. */
  lemma {:induction false} LookupFindsFirst(table: seq<(string, string)>, name: string, i: nat)
    requires i < |table| && table[i].0 == name
    requires forall j :: 0 <= j < i ==> table[j].0 != name
    ensures Lookup(table, name) == Some(table[i].1)
  {
    if i > 0 {
      LookupFindsFirst(table[1..], name, i - 1);
    }
  }

  /** The first name of the table gets its translation. */
  lemma TranslatesPossession()
    ensures Translate("Ball Possession") == "Posse de Bola"
  {
    LookupFindsFirst(Translations, "Ball Possession", 0);
  }

  /** `${value}`. */
  function ValueText(v: StatValue): string {
    match v
    case Number(n) => IntToString(n)
    case Label(s) => s
    case Null => "null"
  }

  /** `awayStat?.value ?? "-"`: a missing entry or a `null` value shows as "-". */
  function AwayText(entries: seq<StatEntry>, i: nat): (r: string)
    ensures i >= |entries| || entries[i].value.Null? ==> r == "-"
    ensures i < |entries| && !entries[i].value.Null? ==> r == ValueText(entries[i].value)
  {
    if i < |entries| && !entries[i].value.Null? then ValueText(entries[i].value) else "-"
  }

  function StatRow(home: seq<StatEntry>, away: seq<StatEntry>, i: nat): string
    requires i < |home|
  {
    "| " + Translate(home[i].kind) + " | " + ValueText(home[i].value) + " | " + AwayText(away, i) + " |"
  }

  /** The lines of the statistics table: a header, a rule, one row per home statistic. */
  function StatsLines(homeStats: TeamStats, awayStats: TeamStats): (r: seq<string>)
    ensures |r| == 2 + |homeStats.statistics|
    ensures r[0] == "| Estatística | " + Upper(homeStats.teamName) + " | " + Upper(awayStats.teamName) + " |"
    ensures r[1] == "|-------------|------------------|------------------|"
    ensures forall i :: 0 <= i < |homeStats.statistics| ==>
      r[i + 2] == StatRow(homeStats.statistics, awayStats.statistics, i)
  {
    var home := homeStats.statistics;
    [ "| Estatística | " + Upper(homeStats.teamName) + " | " + Upper(awayStats.teamName) + " |",
      "|-------------|------------------|------------------|" ]
      + seq(|home|, i requires 0 <= i < |home| => StatRow(home, awayStats.statistics, i))
  }

  /** `formatStats`: the placeholder without two teams, otherwise the table's lines joined. */
  function FormatStats(stats: Option<seq<TeamStats>>): (r: string)
    ensures r == NoStats <==> stats.None? || |stats.value| < 2
    ensures stats.Some? && |stats.value| >= 2 ==> r == Join("\n", StatsLines(stats.value[0], stats.value[1]))
  {
    match stats
    case None => NoStats
    case Some(s) =>
      if |s| < 2 then NoStats
      else
        var lines := StatsLines(s[0], s[1]);
        var r := Join("\n", lines);
        assert r[0] == lines[0][0] == '|';
        r
  }

  /** `formatOrdinalRound` of this stage: English season label, then a flexible group label. */
  function FormatOrdinalRound(round: string): (r: string)
    ensures Search(SeasonEnglish, round).None? && Search(GroupWordFlexible, round).None? ==> r == Upper(round)
  {
    match Search(SeasonEnglish, round)
    case Some(f) => f.group + "ª RODADA"
    case None =>
      match Search(GroupWordFlexible, round)
      case Some(g) => "GRUPO " + g.group
      case None => Upper(round)
  }

  /** A match without a round label gets the default "Regular Season - 38", the 38th round. */
  lemma DefaultRoundLabel(m: Match)
    requires m.round.None? || m.round == Some("")
    ensures Round(m) == "38ª RODADA"
  {
    var d := "38";
    assert "Regular Season - 38" == "Regular Season - " + d;
    assert d + "ª RODADA" == "38ª RODADA";
    RoundOfSeasonLabel(m, d);
  }

  /** A round label "Regular Season - D" names the D-th round. */
  lemma RoundOfSeasonLabel(m: Match, d: string)
    requires d != [] && AllDigits(d)
    requires OrFalsy(m.round, "Regular Season - 38") == "Regular Season - " + d
    ensures Round(m) == d + "ª RODADA"
  {
    RegularSeasonLabel(d);
  }

  /** "Group Stage - W" keeps the whole word W. */
  lemma PostMatchGroupLabel(w: string)
    requires w != [] && forall i :: 0 <= i < |w| ==> IsWordChar(w[i])
    ensures FormatOrdinalRound("Group Stage - " + w) == "GRUPO " + w
  {
    GroupLabelIsNotSeason(w);
    GroupStageLabel(w);
  }

  /** The score line: the suffix for extra time, or the shoot-out score, which throws when absent. */
  function ScoreLine(d: FinalData): (r: Result<string>)
    ensures var base := Upper(d.home) + " " + GoalsText(d.homeGoals) + " x " + GoalsText(d.awayGoals) + " " + Upper(d.away);
      var status := OrFalsy(d.status, "FT");
      && (status == "AET" ==> r == Ok(base + " (após prorrogação)"))
      && (status == "PEN" && d.penalty.Some? ==>
            r == Ok(base + " (pênaltis: " + GoalsText(d.penalty.value.0) + " x " + GoalsText(d.penalty.value.1) + ")"))
      && (status == "PEN" && d.penalty.None? ==> r.Thrown?)
      && (status != "AET" && status != "PEN" ==> r == Ok(base))
  {
    var base := Upper(d.home) + " " + GoalsText(d.homeGoals) + " x " + GoalsText(d.awayGoals) + " " + Upper(d.away);
    var status := OrFalsy(d.status, "FT");
    if status == "AET" then Ok(base + " (após prorrogação)")
    else if status == "PEN" then
      match d.penalty
      case None => Thrown
      case Some(p) => Ok(base + " (pênaltis: " + GoalsText(p.0) + " x " + GoalsText(p.1) + ")")
    else Ok(base)
  }

  /** The competition, from the scheduled match: "COMPETIÇÃO" when missing or empty. */
  function Competition(m: Match): string {
    MatchFormatters.FormatCompetition(OrFalsy(m.leagueName, "COMPETIÇÃO"))
  }

  /** The round, from the scheduled match: "Regular Season - 38" when missing or empty. */
  function Round(m: Match): string {
    FormatOrdinalRound(OrFalsy(m.round, "Regular Season - 38"))
  }

  /** `[PÓS-JOGO] | competition | HOME h X a AWAY | round`. */
  function Title(m: Match, d: FinalData): (r: string)
    ensures var lead := "[PÓS-JOGO] | " + Competition(m) + " | ";
      |r| >= |lead| && r[..|lead|] == lead
    ensures var tail := " | " + Round(m);
      |r| >= |tail| && r[|r| - |tail|..] == tail
    ensures var lead := "[PÓS-JOGO] | " + Competition(m) + " | ";
      var tail := " | " + Round(m);
      var mid := Upper(d.home) + " " + GoalsText(d.homeGoals) + " X " + GoalsText(d.awayGoals) + " " + Upper(d.away);
      |r| == |lead| + |mid| + |tail| && r[|lead|..|r| - |tail|] == mid
  {
    var lead := "[PÓS-JOGO] | " + Competition(m) + " | ";
    var tail := " | " + Round(m);
    var mid := Upper(d.home) + " " + GoalsText(d.homeGoals) + " X " + GoalsText(d.awayGoals) + " " + Upper(d.away);
    Framed(lead, mid, tail);
    lead + mid + tail
  }

  /** The sections between the heading and the footer: score, venue, date, goals, statistics. */
  function Sections(d: FinalData, scoreLine: string, kickoffText: string): string
    requires d.venue.Some?
  {
    "\n\n**" + scoreLine + "**"
      + "\n\n📍 *" + OrNullish(d.venue.value.name, "null") + ", " + OrNullish(d.venue.value.city, "null") + "*  "
      + "\n🕓 *Data: " + kickoffText + " (Brasília)*"
      + "\n\n---\n\n### ⚽ Gols\n" + FormatGoals(d.events)
      + "\n\n---\n\n### 📈 Estatísticas\n" + FormatStats(d.statistics)
  }

  /** The bot notice that closes the body. */
  const Footer := "\n\n---\n\n⚽️ Vamo Inter! ❤️\n\n---\n^(*Esse post foi criado automaticamente por um bot.*)"

  /** The body text before trimming, without its opening and closing newline. */
  function Inner(m: Match, d: FinalData, scoreLine: string, kickoffText: string): (r: string)
    requires d.venue.Some?
    ensures r != [] && r[0] == '#' && r[|r| - 1] == ')'
  {
    var heading := "## 📊 Resultado Final: " + Competition(m) + " - " + Round(m);
    var r := heading + Sections(d, scoreLine, kickoffText) + Footer;
    assert r[0] == heading[0];
    assert r[|r| - 1] == Footer[|Footer| - 1];
    r
  }

  /**
   * `formatContent`: the title and trimmed body from the final match data. A
   * failed fetch, a missing venue, or a shoot-out without its score throws.
   * `kickoffText` stands for the kickoff rendered in Brasília time.
   */
  function FormatContent(m: Match, data: Result<FinalData>, kickoffText: string): (r: Result<(string, string)>)
    ensures r.Ok? <==> data.Ok? && data.value.venue.Some? && ScoreLine(data.value).Ok?
    ensures r.Ok? ==> r.value.0 == Title(m, data.value)
    ensures r.Ok? ==> r.value.1 == Inner(m, data.value, ScoreLine(data.value).value, kickoffText)
  {
    match data
    case Thrown => Thrown
    case Ok(d) =>
      if d.venue.None? then Thrown
      else
        match ScoreLine(d)
        case Thrown => Thrown
        case Ok(line) => Ok((Title(m, d), Inner(m, d, line, kickoffText)))
  }

  /** The posted body is exactly the template with its surrounding newlines trimmed. */
  lemma BodyIsTrimmed(m: Match, d: FinalData, scoreLine: string, kickoffText: string)
    requires d.venue.Some?
    ensures var inner := Inner(m, d, scoreLine, kickoffText);
      Trim("\n" + inner + "\n") == inner
  {
    TrimBody(Inner(m, d, scoreLine, kickoffText), "\n");
  }

  // ---------------------------------------------------------------------------
  // Posting
  // ---------------------------------------------------------------------------

  /** `createAndPostThread`: format, publish, mark; an error anywhere is caught, and nothing is marked. */
  function CreateAndPostThread(content: Result<(string, string)>, dryRun: bool): (tr: seq<Effect>)
    ensures PublishCount(tr) <= 1 && MarkAfterPublish(tr)
    ensures content.Thrown? ==> tr == []
    ensures content.Ok? ==> tr == [Publish(content.value.0, content.value.1, dryRun), MarkPosted(PostMatch)]
  {
    match content
    case Thrown => []
    case Ok(c) => PostAndMark(c.0, c.1, dryRun, PostMatch)
  }

  /**
   * `checkAndPostIfFinished`: on a finished status, run the stage and answer
   * true, even when the stage failed inside; otherwise, or when the status
   * fetch throws, answer false and do nothing.
   */
  function CheckAndPostIfFinished(status: Result<string>, content: Result<(string, string)>, dryRun: bool): (r: (bool, seq<Effect>))
    ensures r.0 <==> status.Ok? && IsFinished(status.value)
    ensures !r.0 ==> r.1 == []
    ensures PublishCount(r.1) == 1 <==> r.0 && content.Ok?
    ensures MarkAfterPublish(r.1)
  {
    match status
    case Thrown => (false, [])
    case Ok(s) =>
      if IsFinished(s) then (true, CreateAndPostThread(content, dryRun))
      else (false, [])
  }

  /** A finished status whose content cannot be built still answers true, with nothing published. */
  lemma FinishedButNothingPosted(dryRun: bool)
    ensures CheckAndPostIfFinished(Ok("FT"), Thrown, dryRun) == (true, [])
  {
  }

  /** The preview swallows its errors, so `start` runs the stage at once, whatever the status. */
  lemma StartSkipsStatusCheck(h: Host, m: Match, checkOk: bool, io: Io, content: Result<(string, string)>, dryRun: bool)
    requires !IsThreadPosted(h, m.id, PostMatch, checkOk)
    ensures Start(true, h, m.id, PostMatch, checkOk, io, Run(CreateAndPostThread(content, dryRun), false)).0.effects
      == CreateAndPostThread(content, dryRun)
  {
  }
}

=== FILE: pre_match.dfy ===
/**
 * The pre-match stage (`src/schedulers/PreMatchScheduler.ts`): wait until 24
 * hours before kickoff, build the title, publish, then mark the stage. The
 * body comes from `formatPreMatchThread`, which `matchFormatters.ts` does not
 * define; it is a parameter here, and an absent one makes the stage throw.
 */
module PreMatch {
  import opened Common
  import opened Text
  import opened Patterns
  import opened Fixture
  import opened Nicknames
  import opened Effects
  import opened BaseScheduler
  import MatchFormatters

  /** The target instant: kickoff minus 24 hours. */
  function PostAt(m: Match): (t: int)
    ensures m.kickoff - t == 24 * HourMs
  {
    m.kickoff - 24 * HourMs
  }

  /** Upper-casing never produces a lower-case letter with a tilde, nor keeps one. */
  lemma NormalizedHasNoTildeA(s: string)
    ensures forall i :: 0 <= i < |Normalized(s)| ==> Normalized(s)[i] != 'Ã'
  {
    var t := StripAccents(s);
    forall i | 0 <= i < |t| ensures UpperChar(t[i]) != 'Ã' {
      StrippedIsBase(s, i);
    }
  }

  lemma {:induction false} StrippedIsBase(s: string, i: nat)
    requires i < |StripAccents(s)|
    ensures StripAccents(s)[i] != 'Ã' && StripAccents(s)[i] != 'ã'
  {
    if s != [] {
      var head := if IsCombiningMark(s[0]) then [] else [BaseLetter(s[0])];
      assert StripAccents(s) == head + StripAccents(s[1..]);
      if i >= |head| {
        StrippedIsBase(s[1..], i - |head|);
      }
    }
  }

  /**
   * `formatCompetitionName`: the national league when the normalised name
   * contains "SERIE A", otherwise the normalised name itself, accents removed.
   */
  function FormatCompetitionName(raw: string): (r: string)
    ensures r == MatchFormatters.Brasileirao <==> Contains(Normalized(raw), "SERIE A")
    ensures !Contains(Normalized(raw), "SERIE A") ==> r == Normalized(raw)
  {
    var normalized := Normalized(raw);
    NormalizedHasNoTildeA(raw);
    assert MatchFormatters.Brasileirao[9] == 'Ã';
    if Contains(normalized, "SERIE A") then MatchFormatters.Brasileirao else normalized
  }

  /**
   * Unlike `formatCompetition`, this one is not idempotent: its own label for
   * the national league comes back without the tilde.
   */
  lemma FormatCompetitionNameLosesTilde()
    ensures FormatCompetitionName(MatchFormatters.Brasileirao) == "BRASILEIRAO"
    ensures MatchFormatters.FormatCompetition(MatchFormatters.Brasileirao) == MatchFormatters.Brasileirao
  {
    MatchFormatters.NormalizedBrasileirao();
    NoSerieA("BRASILEIRAO");
    MatchFormatters.FormatCompetitionIsIdempotent(MatchFormatters.Brasileirao);
  }

  /** The accent-free label does not mention "SERIE A". */
  lemma NoSerieA(t: string)
    requires t == "BRASILEIRAO"
    ensures !Contains(t, "SERIE A")
  {
    forall j | 0 <= j ensures !OccursAt(t, "SERIE A", j) {
      if j + 7 <= |t| {
        assert t[j + 1] != "SERIE A"[1];
      }
    }
  }

  /** Whether the competition is the Libertadores: its lower-cased name mentions it. */
  predicate IsLibertadores(competitionName: string) {
    Contains(Lower(competitionName), "libertadores")
  }

  /**
   * The group identifier: in the Libertadores a number 1..8, as `parseInt`
   * reads it, becomes the letter A..H; everything else is kept.
   */
  function GroupIdentifier(id: string, competitionName: string): (r: string)
    ensures !IsLibertadores(competitionName) ==> r == id
    ensures IsLibertadores(competitionName) && ParseIntAuto(id).Some? && 1 <= ParseIntAuto(id).value <= 8 ==>
      |r| == 1 && 'A' <= r[0] <= 'H' && r[0] as int - 64 == ParseIntAuto(id).value
    ensures r != id ==> IsLibertadores(competitionName) && |r| == 1
  {
    if IsLibertadores(competitionName) then
      match ParseIntAuto(id)
      case Some(n) => if 1 <= n <= 8 then [(64 + n) as char] else id
      case None => id
    else id
  }

  /** The eight Libertadores groups, numbered 1..8, become A..H. */
  lemma LibertadoresGroupLetter(n: nat, competitionName: string)
    requires 1 <= n <= 8 && IsLibertadores(competitionName)
    ensures GroupIdentifier(NatToString(n), competitionName) == ["ABCDEFGH"[n - 1]]
  {
    ParseIntRoundTrip(n);
  }

  /** `formatOrdinalRound`: the season pattern, then the whole-word group pattern, else upper case. */
  function FormatOrdinalRound(round: string, competitionName: string): (r: string)
    ensures Search(Season, round).None? && Search(GroupWord, round).None? ==> r == Upper(round)
  {
    match Search(Season, round)
    case Some(f) => f.group + "ª RODADA"
    case None =>
      match Search(GroupWord, round)
      case Some(g) => "GRUPO " + GroupIdentifier(g.group, competitionName)
      case None => Upper(round)
  }

  /** Season labels become "Nª RODADA" whatever the competition. */
  lemma PreMatchSeasonLabel(d: string, competitionName: string)
    requires d != [] && AllDigits(d)
    ensures FormatOrdinalRound("Regular Season - " + d, competitionName) == d + "ª RODADA"
    ensures FormatOrdinalRound("Temporada Regular - " + d, competitionName) == d + "ª RODADA"
  {
    RegularSeasonLabel(d);
    TemporadaRegularLabel(d);
  }

  /** In the Libertadores, "Group Stage - N" for N in 1..8 becomes "GRUPO" and the N-th letter. */
  lemma LibertadoresGroupLabel(n: nat, competitionName: string)
    requires 1 <= n <= 8 && IsLibertadores(competitionName)
    ensures FormatOrdinalRound("Group Stage - " + NatToString(n), competitionName) == "GRUPO " + ["ABCDEFGH"[n - 1]]
  {
    var w := NatToString(n);
    GroupLabelIsNotSeason(w);
    GroupStageLabel(w);
    LibertadoresGroupLetter(n, competitionName);
  }

  /** Outside the Libertadores the whole group word is kept. */
  lemma OtherGroupLabel(w: string, competitionName: string)
    requires w != [] && forall i :: 0 <= i < |w| ==> IsWordChar(w[i])
    requires !IsLibertadores(competitionName)
    ensures FormatOrdinalRound("Group Stage - " + w, competitionName) == "GRUPO " + w
  {
    GroupLabelIsNotSeason(w);
    GroupStageLabel(w);
  }

  /** The title: "[PRÉ-JOGO] | competition | HOME X AWAY | round". */
  function Title(m: Match, nicks: Option<Table>, pick: nat): (r: string)
    ensures var lead := "[PRÉ-JOGO] | " + FormatCompetitionName(OrNullish(m.leagueName, "")) + " | ";
      |r| >= |lead| && r[..|lead|] == lead
    ensures var tail := " | " + FormatOrdinalRound(OrFalsy(m.round, ""), OrFalsy(m.leagueName, ""));
      |r| >= |tail| && r[|r| - |tail|..] == tail
    ensures var lead := "[PRÉ-JOGO] | " + FormatCompetitionName(OrNullish(m.leagueName, "")) + " | ";
      var tail := " | " + FormatOrdinalRound(OrFalsy(m.round, ""), OrFalsy(m.leagueName, ""));
      var sides := MatchFormatters.TitleSides(m.home.name, m.away.name, nicks, pick);
      |r| == |lead| + |sides.0 + " X " + sides.1| + |tail| && r[|lead|..|r| - |tail|] == sides.0 + " X " + sides.1
  {
    var sides := MatchFormatters.TitleSides(m.home.name, m.away.name, nicks, pick);
    var lead := "[PRÉ-JOGO] | " + FormatCompetitionName(OrNullish(m.leagueName, "")) + " | ";
    var tail := " | " + FormatOrdinalRound(OrFalsy(m.round, ""), OrFalsy(m.leagueName, ""));
    var mid := sides.0 + " X " + sides.1;
    Framed(lead, mid, tail);
    lead + mid + tail
  }

  /**
   * `createAndPostThread`: wait for the target, format, publish (a log line in
   * dry-run mode), mark. A body that cannot be built throws after the wait,
   * before anything is published or marked.
   */
  function CreateAndPostThread(m: Match, now: int, nicks: Option<Table>, pick: nat,
                               body: Result<string>, dryRun: bool): (r: Run)
    ensures PublishCount(r.effects) <= 1 && MarkAfterPublish(r.effects)
    ensures r.threw <==> body.Thrown?
    ensures body.Thrown? ==> PublishCount(r.effects) == 0 && OnlyWaits(r.effects)
    ensures body.Ok? ==>
      && |r.effects| >= 2
      && r.effects[|r.effects| - 2] == Publish(Title(m, nicks, pick), body.value, dryRun)
      && r.effects[|r.effects| - 1] == MarkPosted(PreMatch)
      && OnlyWaits(r.effects[..|r.effects| - 2])
      && now + TotalWait(r.effects[..|r.effects| - 2]) == WakeAt(PostAt(m), now)
      && (PostAt(m) - now <= MaxTimerDelay ==>
            now + TotalWait(r.effects[..|r.effects| - 2]) == if PostAt(m) <= now then now else PostAt(m))
  {
    var wait := WaitUntil(PostAt(m), now);
    match body
    case Thrown => Run(wait, true)
    case Ok(b) =>
      var tr := wait + PostAndMark(Title(m, nicks, pick), b, dryRun, PreMatch);
      WaitsThenPostAndMark(wait, Title(m, nicks, pick), b, dryRun, PreMatch);
      assert tr[..|tr| - 2] == wait;
      Run(tr, false)
  }

  /**
   * A target beyond the timer range is not waited for: the thread goes out
   * 1 ms after the call, before its target.
   */
  lemma FarTargetPublishesEarly(m: Match, now: int, nicks: Option<Table>, pick: nat, body: Result<string>, dryRun: bool)
    requires body.Ok? && PostAt(m) - now > MaxTimerDelay
    ensures var r := CreateAndPostThread(m, now, nicks, pick, body, dryRun);
      r.effects == [Wait(1), Publish(Title(m, nicks, pick), body.value, dryRun), MarkPosted(PreMatch)]
      && now + TotalWait(r.effects[..1]) < PostAt(m)
  {
  }

  /**
   * `start` for this stage. The preview builds the same content, so a body
   * that cannot be built makes `start` throw before the ledger is consulted.
   * With a healthy ledger, a second `start` whose check reads the ledger
   * publishes nothing.
   */
  lemma PreMatchPostsOnce(h: Host, m: Match, check1: bool, io: Io, io2: Io, now: int, later: int,
                          nicks: Option<Table>, pick: nat, body: Result<string>, dryRun: bool)
    requires Healthy(h, m.id, io) && body.Ok?
    ensures var first := Start(true, h, m.id, PreMatch, check1, io, CreateAndPostThread(m, now, nicks, pick, body, dryRun));
      && PublishCount(first.0.effects) <= 1
      && PublishCount(Start(true, first.1, m.id, PreMatch, true, io2,
           CreateAndPostThread(m, later, nicks, pick, body, dryRun)).0.effects) == 0
  {
    var run := CreateAndPostThread(m, now, nicks, pick, body, dryRun);
    assert run.effects[|run.effects| - 1] == MarkPosted(PreMatch);
    SecondStartPublishesNothing(h, m.id, PreMatch, check1, io, run, io2,
      CreateAndPostThread(m, later, nicks, pick, body, dryRun));
  }
}

=== FILE: refresh_state.dfy ===
/**
 * The refresh throttle on a local file (`src/utils/refreshState.ts`): the file
 * holds the last refresh instant; a refresh is needed once a threshold of
 * hours has passed since it. A missing or unreadable file reads as the epoch,
 * which makes a refresh due at once.
 */
module RefreshState {
  import opened Common

  /** A JavaScript `Date`'s time value: milliseconds, or NaN for an invalid date. */
  datatype Instant = Valid(ms: int) | NaN

  /**
   * The state file: absent, present but unreadable or not JSON, or parsed.
   * A parsed file's `lastRefreshTime` is `None` when it is not a valid date.
   */
  datatype RefreshFile = Absent | Unreadable | Stored(lastRefresh: Option<int>)

  const DefaultThresholdHours := 24

  /**
   * `(now - last) / 3600000 >= hours`, compared exactly; a NaN time makes the
   * comparison false.
   */
  predicate HoursPassed(last: Instant, now: int, hours: int) {
    last.Valid? && now - last.ms >= hours * HourMs
  }

  /** `getLastRefreshTime`: the stored instant, the epoch when there is none to read. */
  function GetLastRefreshTime(f: RefreshFile): (r: Instant)
    ensures f.Absent? || f.Unreadable? ==> r == Valid(0)
    ensures f.Stored? && f.lastRefresh.Some? ==> r == Valid(f.lastRefresh.value)
    ensures r.NaN? <==> f.Stored? && f.lastRefresh.None?
  {
    match f
    case Stored(Some(t)) => Valid(t)
    case Stored(None) => NaN
    case _ => Valid(0)
  }

  /** `updateRefreshTime`: write `now`; a failed write is logged and leaves the file as it was. */
  function UpdateRefreshTime(f: RefreshFile, now: int, writeOk: bool): (r: RefreshFile)
    ensures writeOk ==> GetLastRefreshTime(r) == Valid(now)
    ensures !writeOk ==> r == f
  {
    if writeOk then Stored(Some(now)) else f
  }

  /** `isRefreshNeeded(hours)`, by default 24 hours. */
  function IsRefreshNeeded(f: RefreshFile, now: int, hours: int): (r: bool)
    ensures f.Stored? && f.lastRefresh.Some? ==> (r <==> now - f.lastRefresh.value >= hours * HourMs)
    ensures f.Absent? || f.Unreadable? ==> (r <==> now >= hours * HourMs)
  {
    HoursPassed(GetLastRefreshTime(f), now, hours)
  }

  /** Right after a successful update, no refresh is needed until the threshold has passed again. */
  lemma UpdateDefersRefresh(f: RefreshFile, t: int, now: int, hours: int)
    ensures IsRefreshNeeded(UpdateRefreshTime(f, t, true), now, hours) <==> now - t >= hours * HourMs
  {
  }

  /** Once needed, a refresh stays needed as time passes, until the next update. */
  lemma NeedStaysAsTimePasses(f: RefreshFile, now: int, later: int, hours: int)
    requires IsRefreshNeeded(f, now, hours) && now <= later
    ensures IsRefreshNeeded(f, later, hours)
  {
  }

  /** Without a state file the default threshold is met from the first day of the epoch on. */
  lemma MissingFileRefreshes(now: int)
    requires now >= DefaultThresholdHours * HourMs
    ensures IsRefreshNeeded(Absent, now, DefaultThresholdHours)
    ensures IsRefreshNeeded(Unreadable, now, DefaultThresholdHours)
  {
  }

  /**
   * As written, a file that parses but holds an invalid date gives a NaN
   * instant, and then no refresh is ever needed, at any time and threshold.
   */
  lemma InvalidDateNeverRefreshes(now: int, hours: int)
    ensures !IsRefreshNeeded(Stored(None), now, hours)
  {
  }

  /** The fallback the function documents for errors: any unusable state reads as the epoch. */
  function GetLastRefreshTimeIntended(f: RefreshFile): (r: Instant)
    ensures r.Valid?
    ensures f.Stored? && f.lastRefresh.Some? ==> r == GetLastRefreshTime(f)
    ensures !(f.Stored? && f.lastRefresh.Some?) ==> r == Valid(0)
  {
    match f
    case Stored(Some(t)) => Valid(t)
    case _ => Valid(0)
  }

  function IsRefreshNeededIntended(f: RefreshFile, now: int, hours: int): bool {
    HoursPassed(GetLastRefreshTimeIntended(f), now, hours)
  }

  /**
   * Corrected, every state eventually needs a refresh, and the correction
   * changes nothing for a file holding a valid date or for no file.
   */
  lemma IntendedAlwaysEventuallyRefreshes(f: RefreshFile, hours: int)
    ensures var last := GetLastRefreshTimeIntended(f).ms;
      forall now :: now >= last + hours * HourMs ==> IsRefreshNeededIntended(f, now, hours)
    ensures f != Stored(None) ==> forall now :: IsRefreshNeededIntended(f, now, hours) == IsRefreshNeeded(f, now, hours)
  {
  }
}

=== FILE: simple_format.dfy ===
/**
 * The plain formatters of `src/format.ts`, which the match-thread stage uses:
 * a title from the raw team names and round, and a short body trimmed of its
 * surrounding white space. They read `match.venue`, not `match.fixture.venue`,
 * so the venue is a separate parameter. They read `match.league` without `?.`,
 * so a missing league makes them throw, while a league whose name or round is
 * `null` prints it as "null".
 */
module SimpleFormat {
  import opened Common
  import opened Text
  import opened Fixture

  /** The title's closing part after the round. */
  const TitleEnd: string := "] - Tópico da Partida"

  /** `formatMatchTitle`: "HOME vs AWAY [round] - Tópico da Partida". */
  function FormatMatchTitle(m: Match): (r: Result<string>)
    ensures r.Thrown? <==> m.league.None?
    ensures r.Ok? ==>
      var lead := m.home.name + " vs " + m.away.name + " [";
      var round := Interpolated(m.league.value.round);
      |r.value| == |lead| + |round| + |TitleEnd|
      && r.value[..|lead|] == lead
      && r.value[|lead|..|lead| + |round|] == round
      && r.value[|lead| + |round|..] == TitleEnd
  {
    match m.league
    case None => Thrown
    case Some(l) =>
      var lead := m.home.name + " vs " + m.away.name + " [";
      Framed(lead, Interpolated(l.round), TitleEnd);
      Ok(lead + Interpolated(l.round) + TitleEnd)
  }

  /**
   * A league without a name still gets a title, with its round, and a body
   * whose heading prints the name as "null".
   */
  lemma NamelessLeagueStillFormats(m: Match, round: string, venue: Option<Venue>, kickoffText: string)
    requires m.league == Some(League(None, Some(round)))
    ensures FormatMatchTitle(m) == Ok(m.home.name + " vs " + m.away.name + " [" + round + TitleEnd)
    ensures FormatMatchThread(m, venue, kickoffText).Ok?
    ensures var r := FormatMatchThread(m, venue, kickoffText).value;
      var lead := "## 🏆 " + "null" + " - ";
      |r| >= |lead| && r[..|lead|] == lead
  {
    var r := FormatMatchThread(m, venue, kickoffText).value;
    var h := Heading(m.league.value);
    var lead := "## 🏆 " + "null" + " - ";
    assert r[..|h|] == h;
    assert h[..|lead|] == lead;
    assert r[..|lead|] == h[..|lead|];
  }

  /** The stadium: "Unknown Venue" only when missing. */
  function Stadium(venue: Option<Venue>): (r: string)
    ensures venue.Some? && venue.value.name.Some? ==> r == venue.value.name.value
    ensures venue.None? || venue.value.name.None? ==> r == "Unknown Venue"
  {
    OrNullish(if venue.Some? then venue.value.name else None, "Unknown Venue")
  }

  /** The body's first line: the raw league name and round. */
  function Heading(l: League): (r: string)
    ensures var lead := "## 🏆 " + Interpolated(l.name) + " - ";
      |r| == |lead| + |Interpolated(l.round)| && r[..|lead|] == lead && r[|lead|..] == Interpolated(l.round)
  {
    var lead := "## 🏆 " + Interpolated(l.name) + " - ";
    Framed(lead, Interpolated(l.round), []);
    lead + Interpolated(l.round)
  }

  /** The body without the newline the template opens and closes with. */
  function Inner(m: Match, venue: Option<Venue>, kickoffText: string): (r: string)
    requires m.league.Some?
    ensures |r| >= |Heading(m.league.value)| && r[..|Heading(m.league.value)|] == Heading(m.league.value)
    ensures r != [] && r[0] == '#' && r[|r| - 1] == ')'
  {
    var rest := "\n\n**" + m.home.name + "** vs **" + m.away.name + "**"
      + "\n\n📍 *" + Stadium(venue) + ", " + City(venue) + "*  "
      + "\n🕓 *Horário: " + kickoffText + " (Brasília)*"
      + "\n\n---\n\n⚽️ Vamo Inter! ❤️\n\n---\n\n^(*Este tópico foi criado automaticamente por um bot.*)";
    var r := Heading(m.league.value) + rest;
    assert r[..|Heading(m.league.value)|] == Heading(m.league.value);
    assert r[|r| - 1] == rest[|rest| - 1];
    r
  }

  /**
   * `formatMatchThread`: the template, trimmed of the newline it opens and
   * closes with (see `FormatMatchThreadIsTrimmed`). `kickoffText` stands for
   * the kickoff rendered in the São Paulo zone by `toLocaleString`.
   */
  function FormatMatchThread(m: Match, venue: Option<Venue>, kickoffText: string): (r: Result<string>)
    ensures r.Thrown? <==> m.league.None?
    ensures r.Ok? ==> r.value == Inner(m, venue, kickoffText)
    ensures r.Ok? ==> |r.value| >= |Heading(m.league.value)| && r.value[..|Heading(m.league.value)|] == Heading(m.league.value)
  {
    if m.league.None? then Thrown else Ok(Inner(m, venue, kickoffText))
  }

  /** The body is exactly the template with its surrounding white space trimmed. */
  lemma FormatMatchThreadIsTrimmed(m: Match, venue: Option<Venue>, kickoffText: string)
    requires m.league.Some?
    ensures FormatMatchThread(m, venue, kickoffText).value == Trim("\n" + Inner(m, venue, kickoffText) + "\n")
  {
    TrimAround("\n", Inner(m, venue, kickoffText), "\n");
  }
}

=== FILE: text.dfy ===
/**
 * The JavaScript string primitives the bot relies on, restated over `seq<char>`:
 * case mapping, accent stripping (`normalize("NFD")` followed by removal of
 * combining marks), substring search, first-occurrence replacement, `trim`,
 * `Array.join`, decimal rendering of numbers and `parseInt`.
 *
 * Case mapping and decomposition cover ASCII and the Latin-1 Supplement letters
 * (U+00C0..U+00FF); every other character maps to itself.
 */
module Text {
  import opened Common

  // ---------------------------------------------------------------------------
  // Character classes
  // ---------------------------------------------------------------------------

  /** JavaScript white space and line terminators, as matched by `\s` and removed by `trim`. */
  predicate IsJsSpace(c: char) {
    || c == '\t' || c == '\n' || c == '\U{000B}' || c == '\U{000C}' || c == '\r' || c == ' '
    || c == '\U{00A0}' || c == '\U{1680}' || ('\U{2000}' <= c <= '\U{200A}')
    || c == '\U{2028}' || c == '\U{2029}' || c == '\U{202F}' || c == '\U{205F}'
    || c == '\U{3000}' || c == '\U{FEFF}'
  }

  /** `\d` in a JavaScript regular expression. */
  predicate IsDigit(c: char) {
    '0' <= c <= '9'
  }

  /** `\w` in a JavaScript regular expression without the `u` flag. */
  predicate IsWordChar(c: char) {
    ('a' <= c <= 'z') || ('A' <= c <= 'Z') || IsDigit(c) || c == '_'
  }

  predicate IsLowerLetter(c: char) {
    ('a' <= c <= 'z') || ('\U{00E0}' <= c <= '\U{00FE}' && c != '\U{00F7}')
  }

  predicate IsUpperLetter(c: char) {
    ('A' <= c <= 'Z') || ('\U{00C0}' <= c <= '\U{00DE}' && c != '\U{00D7}')
  }

  // ---------------------------------------------------------------------------
  // Case mapping: toUpperCase / toLowerCase
  // ---------------------------------------------------------------------------

  function UpperChar(c: char): (r: char)
    ensures !IsLowerLetter(r)
    ensures IsLowerLetter(c) ==> IsUpperLetter(r)
    ensures !IsLowerLetter(c) ==> r == c
  {
    if IsLowerLetter(c) then (c as int - 32) as char else c
  }

  function LowerChar(c: char): (r: char)
    ensures !IsUpperLetter(r)
    ensures IsUpperLetter(c) ==> IsLowerLetter(r) && UpperChar(r) == c
    ensures !IsUpperLetter(c) ==> r == c
  {
    if IsUpperLetter(c) then (c as int + 32) as char else c
  }

  /** `s.toUpperCase()`. */
  function Upper(s: string): (r: string)
    ensures |r| == |s|
    ensures forall i :: 0 <= i < |s| ==> r[i] == UpperChar(s[i])
  {
    seq(|s|, i requires 0 <= i < |s| => UpperChar(s[i]))
  }

  /** `s.toLowerCase()`. */
  function Lower(s: string): (r: string)
    ensures |r| == |s|
    ensures forall i :: 0 <= i < |s| ==> r[i] == LowerChar(s[i])
  {
    seq(|s|, i requires 0 <= i < |s| => LowerChar(s[i]))
  }

  /** An upper-cased string holds no lower-case letter, and upper-casing it again changes nothing. */
  lemma UpperIsIdempotent(s: string)
    ensures forall i :: 0 <= i < |s| ==> !IsLowerLetter(Upper(s)[i])
    ensures Upper(Upper(s)) == Upper(s)
  {
  }

  /** Two strings compare equal after `toLowerCase` exactly when they do after `toUpperCase`. */
  lemma LowerMatchesUpper(a: string, b: string)
    ensures Lower(a) == Lower(b) <==> Upper(a) == Upper(b)
  {
    if Lower(a) == Lower(b) {
      assert forall i :: 0 <= i < |a| ==> UpperChar(a[i]) == UpperChar(LowerChar(a[i]));
      assert forall i :: 0 <= i < |a| ==> Upper(a)[i] == Upper(b)[i] by {
        forall i | 0 <= i < |a| ensures Upper(a)[i] == Upper(b)[i] {
          assert LowerChar(a[i]) == LowerChar(b[i]);
        }
      }
    }
    if Upper(a) == Upper(b) {
      forall i | 0 <= i < |a| ensures Lower(a)[i] == Lower(b)[i] {
        assert UpperChar(a[i]) == UpperChar(b[i]);
      }
    }
  }

  // ---------------------------------------------------------------------------
  // Accent stripping: normalize("NFD").replace(/[̀-ͯ]/g, "")
  // ---------------------------------------------------------------------------

  /** The combining diacritical marks block, U+0300..U+036F. */
  predicate IsCombiningMark(c: char) {
    '\U{0300}' <= c <= '\U{036F}'
  }

  /** The base letter of a precomposed Latin-1 letter (its first character after NFD). */
  function BaseLetter(c: char): (r: char)
    ensures !IsCombiningMark(r) || r == c
  {
    if '\U{00C0}' <= c <= '\U{00C5}' then 'A'
    else if c == '\U{00C7}' then 'C'
    else if '\U{00C8}' <= c <= '\U{00CB}' then 'E'
    else if '\U{00CC}' <= c <= '\U{00CF}' then 'I'
    else if c == '\U{00D1}' then 'N'
    else if '\U{00D2}' <= c <= '\U{00D6}' then 'O'
    else if '\U{00D9}' <= c <= '\U{00DC}' then 'U'
    else if c == '\U{00DD}' then 'Y'
    else if '\U{00E0}' <= c <= '\U{00E5}' then 'a'
    else if c == '\U{00E7}' then 'c'
    else if '\U{00E8}' <= c <= '\U{00EB}' then 'e'
    else if '\U{00EC}' <= c <= '\U{00EF}' then 'i'
    else if c == '\U{00F1}' then 'n'
    else if '\U{00F2}' <= c <= '\U{00F6}' then 'o'
    else if '\U{00F9}' <= c <= '\U{00FC}' then 'u'
    else if c == '\U{00FD}' || c == '\U{00FF}' then 'y'
    else c
  }

  /** Decomposes, then drops every combining mark. */
  function StripAccents(s: string): (r: string)
    ensures |r| <= |s|
    ensures forall i :: 0 <= i < |r| ==> !IsCombiningMark(r[i])
  {
    if s == [] then []
    else (if IsCombiningMark(s[0]) then [] else [BaseLetter(s[0])]) + StripAccents(s[1..])
  }

  /** Without combining marks, stripping accents maps each character to its base letter. */
  lemma {:induction false} StripAccentsPointwise(s: string)
    requires forall i :: 0 <= i < |s| ==> !IsCombiningMark(s[i])
    ensures |StripAccents(s)| == |s|
    ensures forall i :: 0 <= i < |s| ==> StripAccents(s)[i] == BaseLetter(s[i])
  {
    if s != [] {
      StripAccentsPointwise(s[1..]);
    }
  }

  /** The comparison key of the competition formatters: accents stripped, then upper-cased. */
  function Normalized(s: string): string {
    Upper(StripAccents(s))
  }

  lemma BaseUpperCommute(c: char)
    ensures UpperChar(BaseLetter(UpperChar(c))) == UpperChar(BaseLetter(c))
    ensures IsCombiningMark(UpperChar(c)) == IsCombiningMark(c)
  {
  }

  /** Upper-casing before normalising changes nothing: the key ignores case. */
  lemma {:induction false} NormalizedIgnoresCase(s: string)
    ensures Normalized(Upper(s)) == Normalized(s)
  {
    if s != [] {
      NormalizedIgnoresCase(s[1..]);
      BaseUpperCommute(s[0]);
      assert Upper(s)[1..] == Upper(s[1..]);
      assert Upper(s)[0] == UpperChar(s[0]);
      var head := if IsCombiningMark(s[0]) then [] else [BaseLetter(s[0])];
      var headU := if IsCombiningMark(Upper(s)[0]) then [] else [BaseLetter(Upper(s)[0])];
      assert StripAccents(Upper(s)) == headU + StripAccents(Upper(s)[1..]);
      assert StripAccents(s) == head + StripAccents(s[1..]);
      UpperOfConcat(headU, StripAccents(Upper(s[1..])));
      UpperOfConcat(head, StripAccents(s[1..]));
    }
  }

  lemma UpperOfConcat(a: string, b: string)
    ensures Upper(a + b) == Upper(a) + Upper(b)
  {
  }

  // ---------------------------------------------------------------------------
  // Search and replacement: indexOf / includes / replace(string, string)
  // ---------------------------------------------------------------------------

  predicate OccursAt(s: string, p: string, i: nat) {
    i + |p| <= |s| && s[i..i + |p|] == p
  }

  /** The first index at or after `i` where `p` occurs in `s`. */
  function FindFrom(s: string, p: string, i: nat): (r: Option<nat>)
    decreases |s| - i
    ensures r.Some? ==> i <= r.value && OccursAt(s, p, r.value)
    ensures r.Some? ==> forall j :: i <= j < r.value ==> !OccursAt(s, p, j)
    ensures r.None? ==> forall j :: i <= j ==> !OccursAt(s, p, j)
  {
    if i + |p| > |s| then None
    else if s[i..i + |p|] == p then Some(i)
    else FindFrom(s, p, i + 1)
  }

  /** `s.includes(p)`. */
  predicate Contains(s: string, p: string) {
    FindFrom(s, p, 0).Some?
  }

  lemma ContainsWitness(s: string, p: string, i: nat)
    requires OccursAt(s, p, i)
    ensures Contains(s, p)
  {
    var r := FindFrom(s, p, 0);
  }

  /** `s.replace(p, rep)` with a string pattern: only the first occurrence is replaced. */
  function ReplaceFirst(s: string, p: string, rep: string): (r: string)
    ensures !Contains(s, p) ==> r == s
    ensures Contains(s, p) ==>
      var k := FindFrom(s, p, 0).value;
      && |r| == |s| - |p| + |rep|
      && r[..k] == s[..k]
      && r[k..k + |rep|] == rep
      && r[k + |rep|..] == s[k + |p|..]
      && (forall j :: 0 <= j < k ==> !OccursAt(s, p, j))
  {
    match FindFrom(s, p, 0)
    case None => s
    case Some(k) => s[..k] + rep + s[k + |p|..]
  }

  // ---------------------------------------------------------------------------
  // trim
  // ---------------------------------------------------------------------------

  function TrimStart(s: string): (r: string)
    ensures |r| <= |s| && r == s[|s| - |r|..]
    ensures forall i :: 0 <= i < |s| - |r| ==> IsJsSpace(s[i])
    ensures r != [] ==> !IsJsSpace(r[0])
  {
    if s != [] && IsJsSpace(s[0]) then
      var r := TrimStart(s[1..]);
      assert s[1..][|s| - 1 - |r|..] == s[|s| - |r|..];
      assert forall i :: 1 <= i < |s| - |r| ==> s[i] == s[1..][i - 1];
      r
    else s
  }

  function TrimEnd(s: string): (r: string)
    ensures |r| <= |s| && r == s[..|r|]
    ensures forall i :: |r| <= i < |s| ==> IsJsSpace(s[i])
    ensures r != [] ==> !IsJsSpace(r[|r| - 1])
  {
    if s != [] && IsJsSpace(s[|s| - 1]) then TrimEnd(s[..|s| - 1]) else s
  }

  /** `s.trim()`: the longest infix that neither starts nor ends with white space. */
  function Trim(s: string): (r: string)
    ensures r == [] || (!IsJsSpace(r[0]) && !IsJsSpace(r[|r| - 1]))
    ensures Contains(s, r)
  {
    var t := TrimStart(s);
    var r := TrimEnd(t);
    var i := |s| - |t|;
    assert s[i..i + |r|] == t[..|r|] == r;
    ContainsWitness(s, r, i);
    assert r != [] ==> r[0] == t[0];
    r
  }

  lemma {:induction false} TrimStartSkips(pre: string, m: string)
    requires forall i :: 0 <= i < |pre| ==> IsJsSpace(pre[i])
    requires m != [] && !IsJsSpace(m[0])
    ensures TrimStart(pre + m) == m
  {
    if pre != [] {
      assert (pre + m)[1..] == pre[1..] + m;
      TrimStartSkips(pre[1..], m);
    } else {
      assert pre + m == m;
    }
  }

  lemma {:induction false} TrimEndSkips(m: string, post: string)
    requires forall i :: 0 <= i < |post| ==> IsJsSpace(post[i])
    requires m != [] && !IsJsSpace(m[|m| - 1])
    ensures TrimEnd(m + post) == m
  {
    if post != [] {
      var shorter := post[..|post| - 1];
      assert (m + post)[..|m + post| - 1] == m + shorter;
      TrimEndSkips(m, shorter);
    } else {
      assert m + post == m;
    }
  }

  /** The parts of a three-part concatenation can be read back from its front and its back. */
  lemma Framed(a: string, b: string, c: string)
    ensures var r := a + b + c;
      |r| == |a| + |b| + |c| && r[..|a|] == a && r[|r| - |c|..] == c && r[|a|..|a| + |b|] == b
  {
    var r := a + b + c;
    assert r[..|a|] == a;
    assert r[|r| - |c|..] == c;
    assert r[|a|..|a| + |b|] == b;
  }

  /** A text wrapped in white space on both sides trims back to the text. */
  lemma TrimAround(pre: string, m: string, post: string)
    requires forall i :: 0 <= i < |pre| ==> IsJsSpace(pre[i])
    requires forall i :: 0 <= i < |post| ==> IsJsSpace(post[i])
    requires m != [] && !IsJsSpace(m[0]) && !IsJsSpace(m[|m| - 1])
    ensures Trim(pre + m + post) == m
  {
    assert pre + m + post == pre + (m + post);
    TrimStartSkips(pre, m + post);
    TrimEndSkips(m, post);
  }

  /** A body that opens with '#' and closes with ')' is what trimming a newline before it and blanks after it leaves. */
  lemma TrimBody(m: string, post: string)
    requires m != [] && m[0] == '#' && m[|m| - 1] == ')'
    requires forall i :: 0 <= i < |post| ==> post[i] == ' ' || post[i] == '\n'
    ensures Trim("\n" + m + post) == m
  {
    TrimAround("\n", m, post);
  }

  // ---------------------------------------------------------------------------
  // Array.prototype.join
  // ---------------------------------------------------------------------------

  function Join(sep: string, parts: seq<string>): (r: string)
    ensures parts == [] ==> r == []
    ensures |parts| == 1 ==> r == parts[0]
    ensures |parts| >= 1 ==> |r| >= |parts[0]| && r[..|parts[0]|] == parts[0]
  {
    if parts == [] then []
    else if |parts| == 1 then parts[0]
    else parts[0] + sep + Join(sep, parts[1..])
  }

  /** Joining a non-empty list whose parts are non-empty gives a non-empty text. */
  lemma JoinNonEmpty(sep: string, parts: seq<string>)
    requires |parts| >= 1 && parts[0] != []
    ensures Join(sep, parts) != []
  {
  }

  // ---------------------------------------------------------------------------
  // Longest runs of a character class (greedy regular-expression repetition)
  // ---------------------------------------------------------------------------

  /** The end of the longest run of characters satisfying `p` that starts at `j`. */
  function RunEnd(s: string, j: nat, p: char -> bool): (k: nat)
    requires j <= |s|
    decreases |s| - j
    ensures j <= k <= |s|
    ensures forall i :: j <= i < k ==> p(s[i])
    ensures k < |s| ==> !p(s[k])
  {
    if j < |s| && p(s[j]) then RunEnd(s, j + 1, p) else j
  }

  // ---------------------------------------------------------------------------
  // Decimal numbers: String(n) and parseInt
  // ---------------------------------------------------------------------------

  predicate AllDigits(d: string) {
    forall i :: 0 <= i < |d| ==> IsDigit(d[i])
  }

  function DigitChar(n: nat): (c: char)
    requires n < 10
    ensures IsDigit(c)
  {
    ('0' as int + n) as char
  }

  /** The value of a run of decimal digits, most significant first. */
  function DigitsValue(d: string): nat
    requires AllDigits(d)
  {
    if d == [] then 0
    else DigitsValue(d[..|d| - 1]) * 10 + (d[|d| - 1] as int - '0' as int)
  }

  /** `String(n)` for a non-negative integer: shortest decimal digits, no leading zero. */
  function NatToString(n: nat): (r: string)
    ensures r != [] && AllDigits(r)
    ensures |r| > 1 ==> r[0] != '0'
    ensures DigitsValue(r) == n
  {
    if n < 10 then [DigitChar(n)]
    else
      var prefix := NatToString(n / 10);
      var r := prefix + [DigitChar(n % 10)];
      assert r[..|r| - 1] == prefix;
      r
  }

  /** `String(n)` for any integer. */
  function IntToString(n: int): (r: string)
    ensures r != []
    ensures n >= 0 ==> r == NatToString(n)
    ensures n < 0 ==> r == "-" + NatToString(-n)
  {
    if n < 0 then "-" + NatToString(-n) else NatToString(n)
  }

  /**
   * `parseInt(s, 10)`: leading white space is skipped, an optional sign is read,
   * then the longest run of decimal digits; no digit at all gives NaN (`None`).
   */
  function ParseInt10(s: string): (r: Option<int>)
  {
    var t := TrimStart(s);
    var neg := t != [] && t[0] == '-';
    var start := if t != [] && (t[0] == '-' || t[0] == '+') then 1 else 0;
    var e := RunEnd(t, start, IsDigit);
    if e == start then None
    else
      DigitRunIsDigits(t, start);
      var v: int := DigitsValue(t[start..e]);
      Some(if neg then -v else v)
  }

  /** The run of digits `RunEnd` finds is a digit string. */
  lemma DigitRunIsDigits(t: string, start: nat)
    requires start <= |t|
    ensures AllDigits(t[start..RunEnd(t, start, IsDigit)])
  {
    var e := RunEnd(t, start, IsDigit);
    forall i | 0 <= i < e - start
      ensures IsDigit(t[start..e][i])
    {
      assert t[start..e][i] == t[start + i];
    }
  }

  /** Rendering a number and parsing it back gives the number: the decimal encoding round-trips. */
  lemma ParseIntRoundTrip(n: int)
    ensures ParseInt10(IntToString(n)) == Some(n)
  {
    var s := IntToString(n);
    var start := if n < 0 then 1 else 0;
    RenderedDigitsRun(n);
    assert s[start..|s|] == NatToString(if n < 0 then -n else n);
  }

  /** A rendered integer: no leading space, the sign, then digits to the end. */
  lemma RenderedDigitsRun(n: int)
    ensures var s := IntToString(n);
      var start := if n < 0 then 1 else 0;
      && TrimStart(s) == s
      && (s[0] == '-' <==> n < 0) && s[0] != '+'
      && start < |s| && RunEnd(s, start, IsDigit) == |s|
      && s[start..] == NatToString(if n < 0 then -n else n)
  {
    var s := IntToString(n);
    var d := NatToString(if n < 0 then -n else n);
    assert !IsJsSpace(s[0]);
    var start := if n < 0 then 1 else 0;
    assert s[start..] == d;
    assert forall i :: start <= i < |s| ==> IsDigit(s[i]) by {
      forall i | start <= i < |s| ensures IsDigit(s[i]) {
        assert s[i] == d[i - start];
      }
    }
    RunEndCoversAll(s, start, IsDigit);
  }

  lemma RunEndCoversAll(s: string, j: nat, p: char -> bool)
    requires j <= |s|
    requires forall i :: j <= i < |s| ==> p(s[i])
    ensures RunEnd(s, j, p) == |s|
  {
  }

  /** Distinct integers render to distinct strings. */
  lemma IntToStringInjective(a: int, b: int)
    requires IntToString(a) == IntToString(b)
    ensures a == b
  {
    ParseIntRoundTrip(a);
    ParseIntRoundTrip(b);
  }

  predicate IsHexDigit(c: char) {
    IsDigit(c) || ('a' <= c <= 'f') || ('A' <= c <= 'F')
  }

  function HexDigitValue(c: char): (v: nat)
    requires IsHexDigit(c)
    ensures v < 16
  {
    if IsDigit(c) then c as int - '0' as int
    else if 'a' <= c <= 'f' then c as int - 'a' as int + 10
    else c as int - 'A' as int + 10
  }

  function HexValue(d: string): nat
    requires forall i :: 0 <= i < |d| ==> IsHexDigit(d[i])
  {
    if d == [] then 0
    else HexValue(d[..|d| - 1]) * 16 + HexDigitValue(d[|d| - 1])
  }

  /** A plain digit string has no leading space, no sign and no `0x` prefix. */
  lemma PlainDigitsAreDecimal(s: string)
    ensures AllDigits(s) && s != [] ==>
      && TrimStart(s) == s && s[0] != '-' && s[0] != '+'
      && (|s| < 2 || (s[1] != 'x' && s[1] != 'X'))
  {
  }

  /**
   * `parseInt(s)` with no radix: as `ParseInt10`, except that a `0x`/`0X` prefix
   * after the sign switches to hexadecimal.
   */
  function ParseIntAuto(s: string): (r: Option<int>)
    ensures AllDigits(s) && s != [] ==> r == ParseInt10(s)
  {
    PlainDigitsAreDecimal(s);
    var t := TrimStart(s);
    var neg := t != [] && t[0] == '-';
    var start := if t != [] && (t[0] == '-' || t[0] == '+') then 1 else 0;
    if start + 1 < |t| && t[start] == '0' && (t[start + 1] == 'x' || t[start + 1] == 'X') then
      var e := RunEnd(t, start + 2, IsHexDigit);
      if e == start + 2 then None
      else
        var d := t[start + 2..e];
        assert forall i :: 0 <= i < |d| ==> IsHexDigit(d[i]) by {
          forall i | 0 <= i < |d| ensures IsHexDigit(d[i]) {
            assert d[i] == t[start + 2 + i];
          }
        }
        var v: int := HexValue(d);
        Some(if neg then -v else v)
    else
      ParseInt10(s)
  }

  // ---------------------------------------------------------------------------
  // Defaults for missing values: `a ?? d` and `a || d`
  // ---------------------------------------------------------------------------

  /** `a ?? d`: only a missing value is replaced. */
  function OrNullish(a: Option<string>, d: string): string {
    a.GetOr(d)
  }

  /** A template literal's rendering of a string field that may be `null`: the text, or "null". */
  function Interpolated(v: Option<string>): (r: string)
    ensures v.Some? ==> r == v.value
    ensures v.None? ==> r == "null"
  {
    OrNullish(v, "null")
  }

  /** `a || d`: a missing value and the empty string are both replaced. */
  function OrFalsy(a: Option<string>, d: string): (r: string)
    ensures d != [] ==> r != []
  {
    if a.None? || a.value == [] then d else a.value
  }

  /** The two defaults differ exactly on a present empty string. */
  lemma NullishAndFalsyDiffer(a: Option<string>, d: string)
    requires d != []
    ensures OrNullish(a, d) != OrFalsy(a, d) <==> a == Some([])
  {
  }
}
